=== FILE: README.md ===
# Flow word refinement — a Dafny model of its deterministic core

Flow improves a sentence one word at a time. A masked language model scores
every word of the sentence. Words that are too uncertain (high entropy) or too
unlikely (poor rank) are flagged. For each flagged word the engine then:

- generates replacement candidates from the model's top predictions;
- drops candidates whose part of speech or morphology does not fit;
- tries each remaining candidate in the sentence, measuring the fluency gain as a
  windowed pseudo-log-likelihood and the meaning preserved as sentence similarity;
- keeps the best candidate that clears both thresholds, within an edit budget.

Two HTTP servers run the same steps to report flagged words, each with its
suggestions, at their character positions in the text.

This project models that decision logic. The neural components are oracles held
in datatypes with function-typed fields:

- the masked language model (a prediction per masked position: probabilities,
  log-probabilities, entropy);
- the tokenizer (ids with character offsets, encoding and decoding);
- the part-of-speech tagger and the sentence splitter;
- the sentence embedder with its cosine, and the NLI classifier.

Everything computed from their outputs is modelled exactly, within the character
classes stated under "Left out" (ASCII case mapping, Latin letters only): alignment of words to
sub-word pieces, masking, rank and rank buckets, the flag, the window bounds, the
candidate filters, compatibility, the semantic gate, edit selection, the greedy
loop, the interactive answer, the candidate listing and both highlight handlers.

Modules follow the source files:

- `Config` (config.py)
- `TokenizerUtils` (tokenizer_utils.py)
- `Scorer` (scorer.py)
- `CandidateGenerator` (candidate_generator.py)
- `LinguisticConstraints` (linguistic_constraints.py; backend/linguistic_constraints.py is the same file)
- `SemanticChecker` (semantic_checker.py; backend/semantic_checker.py is the same file)
- `RefinementPipeline` (refinement_pipeline.py)
- `HighlightApi`: what the two servers share
- `ApiServer` (api_server.py)
- `BackendApiServer` (backend/api_server.py)

`Wrappers`, `PyText` and `Seqs` are helpers. They hold `Option`/`Result`, Python
string behaviour (`find`, `split`, `strip`, ASCII `lower`/`upper`) and sequence
tools (filter, subsequence, stable descending sort, Python slicing).

The code and its own comments disagree in one place that matters to the model.
In `align_words_to_tokens` (tokenizer_utils.py:76-86), `search_start` moves past
a found word before the code checks whether the word covers any token. So a word
that covers no token still advances the search. The model follows the code:
`TokenizerUtils.AlignStep` returns the advanced position in that case.

## Model

| member | source | states |
|---|---|---|
| Config.Validate | config.py:38-45 | A configuration is accepted iff min_entropy ≥ 0, min_sbert_cosine ∈ [0, 1] and pll_window_size ≥ 1. The checks run in order, so a negative entropy is reported even when other fields are also wrong. An accepted configuration is returned unchanged. |
| Config.DefaultsAreValid | config.py:18-31 | The dataclass defaults validate, and so does the configuration the servers build from them. The defaults flag at 4.0 bits of entropy or rank 50, allow 2 edits per sentence and leave NLI off. |
| Config.CosineEndpointsAccepted | config.py:42-43 | Both ends of the cosine interval, 0 and 1, are accepted. Values just outside it are rejected with the cosine error. |
| TokenizerUtils.LastCovering | tokenizer_utils.py:60-63 | Because later pieces overwrite earlier ones in `char_to_token`, a character maps to the last piece whose offsets cover it, or to nothing if no piece does. |
| TokenizerUtils.TokenSpanCharacterized | tokenizer_utils.py:80-89 | The token range of a character span is None iff no character of the span maps to a token. Otherwise its ends are the smallest and largest mapped token indices, each reached by some character. |
| TokenizerUtils.AlignAt | tokenizer_utils.py:76-100 | A word found at a position is aligned iff its characters reach some token. The alignment then starts at that position, ends after the word, and meets every alignment invariant. |
| TokenizerUtils.AlignStep | tokenizer_utils.py:69-100 | One word, searched from `search_start`. If it is not found, there is no alignment and the search start is unchanged. If it is found, the search start moves to its end. It is aligned iff its characters map to some token, and then the text at its span is the word and its ids are the covered run of input ids. |
| TokenizerUtils.AlignFrom | tokenizer_utils.py:66-102 | The loop from word k on. Every alignment is verbatim at its span. Its word index is at least k and names its word. It starts at or after the search start. Word indices strictly increase and character spans do not overlap. |
| TokenizerUtils.AlignWordsToTokens | tokenizer_utils.py:38-102 | At most one alignment per word, each for its own word and found verbatim in the text. Alignments come in strictly increasing word order with increasing, disjoint character spans. |
| TokenizerUtils.MaskRange | tokenizer_utils.py:129-131 | The masking loop sets exactly the positions in [lo, hi) to the mask id and leaves every other position unchanged. |
| TokenizerUtils.MaskWordSpan | tokenizer_utils.py:122-133 | The length is preserved. With no position, exactly the word's token span is masked. With position p, only token_start + p is masked, and only if it lies inside the span; otherwise the ids come back unchanged. |
| TokenizerUtils.ReconstructIds | tokenizer_utils.py:181-186 | The new ids are the prefix before the word, then the replacement's ids, then the suffix after the word, so the length changes by the replacement's length minus the span's. |
| TokenizerUtils.ReconstructOwnTokensIsIdentity | tokenizer_utils.py:182-186 | Splicing a word's own tokens back into its span gives the original ids. This is the inverse of the splice. |
| TokenizerUtils.ReconstructSentence | tokenizer_utils.py:161-191 | The new ids are the splice with the replacement's word encoding, so the length changes by the encoding's length minus the span's. Splicing in an encoding equal to the word's own tokens gives back the original ids. The new text is the stripped decoding of the new ids without special tokens. |
| Scorer.CountGreater | scorer.py:128 | The count of vocabulary entries strictly more probable than x. It is zero iff none is more probable, and equals the vocabulary size iff all are. |
| Scorer.CountGreaterIsCardinality | scorer.py:128 | The recursive count equals the size of the set of strictly more probable entries, which is what the tensor sum computes. |
| Scorer.CountGreaterStrict | scorer.py:128 | Raising the probability threshold past some entry's probability strictly lowers the count. |
| Scorer.CountGreaterAntitone | scorer.py:128 | A higher threshold never counts more entries. |
| Scorer.Rank | scorer.py:127-128 | Rank is 1 plus the number of strictly more probable tokens. It lies in 1..vocab+1, and it is 1 iff no token is strictly more probable. |
| Scorer.RankOrder | scorer.py:128 | Equally probable tokens share a rank. A strictly more probable token in the vocabulary ranks strictly better, and a token at least as probable never ranks worse. |
| Scorer.BucketRank | scorer.py:193-202 | The multi-piece rank is one of 1, 10, 50 or 100. It is 1 iff the total log-probability exceeds −2, and 100 iff it is at most −10. |
| Scorer.BucketRankAntitone | scorer.py:195-202 | A larger total log-probability never gives a worse bucket. The cut points −2, −5 and −10 themselves fall into the next bucket down (10, 50, 100). |
| Scorer.PieceMask | scorer.py:157-169 | Under "word-l2r", piece i sees exactly positions token_start+i .. token_end−1 masked and everything else unchanged. Under any other method only its own position is masked. |
| Scorer.FirstPieceMasksWholeWord | scorer.py:158-162 | Under "word-l2r" the first piece is predicted with the whole word masked, the same ids as `mask_word_span` without a position. |
| Scorer.ScoreSinglePiece | scorer.py:103-139 | The prediction is made at the word's first token with the whole word masked. The score carries that prediction's entropy, the log-probability of the word's id, and a rank that is 1 iff no token is strictly more probable. The score is not yet flagged. |
| Scorer.ScoreMultiPiece | scorer.py:141-213 | The score is not flagged, and its rank is a bucket that is 1 iff the summed log-probability exceeds −2. |
| Scorer.ScoreMultiPieceLoop | scorer.py:152-191 | The per-piece loop accumulates exactly the sum of the pieces' log-probabilities (under the masking of `PieceMask`) and yields the same score as the definition. |
| Scorer.ScoreWord | scorer.py:86-101 | A one-piece word takes the single-piece path and every other word the multi-piece path. The result keeps the word's index and text, and its rank is at least 1. |
| Scorer.ScoreAlignments | scorer.py:242-254 | Exactly one score per alignment, in alignment order, carrying its word index and text. Each score is flagged iff entropy ≥ min_entropy or rank ≥ max_rank. |
| Scorer.ScoreSentence | scorer.py:215-254 | One score per alignment of the sentence, for that alignment's word, so at most one per word, in strictly increasing word order. A score is flagged iff its entropy ≥ min_entropy or its rank ≥ max_rank; both comparisons are inclusive. |
| Scorer.WindowPositions | scorer.py:273-280 | The window holds exactly the positions within w of the centre, excluding index 0 and the last index, in increasing order. It has at most 2w+1 of them. |
| Scorer.WindowOfShortSentenceIsEmpty | scorer.py:274-275 | A sequence of at most two ids has an empty window. |
| Scorer.WindowedPll | scorer.py:256-293 | An empty window sums to 0. |
| Scorer.ComputeWindowedPll | scorer.py:273-293 | The masking loop over the window returns the sum of the single-mask log-probabilities at the window's positions. |
| CandidateGenerator.DropMarksAlpha | candidate_generator.py:107 | After removing '-' and '\'', a string is alphabetic iff it has a letter and every character is a letter, '-' or '\''. |
| CandidateGenerator.ValidCandidateCharacterization | candidate_generator.py:91-118 | A candidate is valid iff it differs from the original ignoring case, is at least 2 long, consists of letters, '-' and '\'' with at least one letter, and does not start with 'Ġ'. A "##" prefix never reaches its own test, because '#' already fails the letter test. |
| CandidateGenerator.MarkedTokenRejectedOnlyByMarker | candidate_generator.py:107-116 | "Ġab" passes the letter test, because 'Ġ' is a letter, and is stopped only by the prefix test. "ab" is valid. |
| CandidateGenerator.TopIds | candidate_generator.py:70 | The top-k ids are the first min(k, vocabulary) entries of the ranking, and none when k ≤ 0. |
| CandidateGenerator.BuildCandidates | candidate_generator.py:73-89 | Only valid entries are kept, in order. Each keeps its text, its log-probability and its 1-based position in the top-k list as its rank, so ranks strictly increase. |
| CandidateGenerator.BuildCandidatesComplete | candidate_generator.py:82-87 | Every valid entry of the top-k list appears, under its own rank. |
| CandidateGenerator.GenerateCandidates | candidate_generator.py:36-89 | At most top_k candidates, none when top_k ≤ 0. Each passes the validity test and has a rank in 1..top_k, and ranks strictly increase. Each text and log-probability is that of the id at its rank in the prediction for the fully masked word. |
| CandidateGenerator.GenerateCandidatesComplete | candidate_generator.py:70-87 | A valid prediction among the top k is never missing from the list. |
| CandidateGenerator.PreserveCapitalization | candidate_generator.py:120-147 | The result has the candidate's length and equals it up to case. With either input empty, the candidate comes back unchanged. An all-caps original gives the upper-cased candidate. A capitalised original whose rest is lower case gives the capitalised candidate (first letter upper, rest lower). A capitalised original whose rest is not lower case gives the candidate with only its first letter upper-cased. Any other original gives the lower-cased candidate. |
| CandidateGenerator.TitleCaseExample | candidate_generator.py:138-140 | A title-case original ("Hello") capitalises the candidate: "wORLD" becomes "World". |
| CandidateGenerator.AllCapsExample | candidate_generator.py:134-136 | An all-caps original ("NASA") upper-cases the candidate: "world" becomes "WORLD". |
| CandidateGenerator.MixedCaseExample | candidate_generator.py:142-144 | An original with an upper-case first letter that is not title case ("McDonald") upper-cases only the candidate's first letter. |
| CandidateGenerator.LowerCaseExample | candidate_generator.py:146-147 | Any other original ("hello") lower-cases the candidate: "World" becomes "world". |
| CandidateGenerator.FilterFollowsOriginal | candidate_generator.py:149-181 | The case of each kept candidate follows the original word: unchanged, upper, lower, or starting with a non-lower-case letter, by the original's shape. |
| CandidateGenerator.FilterByConstraints | candidate_generator.py:149-181 | The same number of candidates, in order, each keeping its log-probability and rank, with its text re-cased after the original word: unchanged for an empty original, upper case for an all-capitals one, lower case for one starting in lower case, and a first letter that is not lower case for one starting with a capital, as `CandidateGenerator.PreserveCapitalization` states per case. |
| LinguisticConstraints.ParseMorph | linguistic_constraints.py:50-55 | The dictionary's keys are exactly the keys of the well-formed key=value features. Each key holds the value of its last such feature. |
| LinguisticConstraints.ParseMorphKeys | linguistic_constraints.py:52-55 | A key is present iff some feature splits into exactly that key and a value. |
| LinguisticConstraints.AnalyzeTokens | linguistic_constraints.py:44-64 | One info per token that is neither punctuation nor whitespace, in order, built from that token. |
| LinguisticConstraints.AnalyzeText | linguistic_constraints.py:31-66 | One info per tagger token that is neither punctuation nor space, in order, carrying that token's text, tag and morphology. An info is a proper noun iff its tag is PROPN. |
| LinguisticConstraints.GetWordInfo | linguistic_constraints.py:68-86 | The word's first analysed token. If there is none, the fallback is pos "X", empty morphology, neither proper nor numeric. |
| LinguisticConstraints.InSomeGroup | linguistic_constraints.py:144-148 | True iff some group contains both tags. |
| LinguisticConstraints.PosCompatible | linguistic_constraints.py:123-148 | Equal tags are compatible. |
| LinguisticConstraints.PosCompatibleCharacterization | linguistic_constraints.py:135-148 | Two tags are compatible iff they are equal, or are NOUN/PROPN, or are ADJ/ADV, in either order. Compatibility is symmetric. |
| LinguisticConstraints.MorphAgree | linguistic_constraints.py:170-178 | The loop over the given features succeeds iff none of them clashes, a clash being two non-empty, different values. |
| LinguisticConstraints.MorphCompatible | linguistic_constraints.py:150-178 | Morphology agrees iff no feature among Number, Tense, Person, Mood and VerbForm carries non-empty, different values in the two maps. |
| LinguisticConstraints.MorphCompatibleSymmetricAndLocal | linguistic_constraints.py:168-178 | Agreement is symmetric, and maps that agree on the key features give the same verdict, so no other feature matters. |
| LinguisticConstraints.NonKeyFeatureIgnored | linguistic_constraints.py:168-178 | Differing "Degree" values never clash. Plur against Sing does clash, and a missing feature never does. |
| LinguisticConstraints.IsCompatible | linguistic_constraints.py:88-121 | Without strict morphology: compatible iff neither word is a proper noun or numeric and the tags are compatible. With it: compatible iff, in addition, the morphology agrees. Both directions of each iff hold. |
| LinguisticConstraints.FirstMatch | linguistic_constraints.py:203-207 | The first context token equal to the word up to case, or none when no token is. |
| LinguisticConstraints.FilterCandidates | linguistic_constraints.py:180-221 | An order-preserving subsequence of the candidates. A candidate is kept iff it is compatible with the original's info: the first context token matching the word up to case, or the word analysed alone when none matches. |
| LinguisticConstraints.ProtectedOriginalKeepsNothing | linguistic_constraints.py:106-107 | When the original is judged a proper noun or numeric, no candidate survives. |
| LinguisticConstraints.TokenTexts | linguistic_constraints.py:234 | The texts of the non-whitespace tokens, in order. |
| LinguisticConstraints.ExtractWords | linguistic_constraints.py:223-234 | At most one word per tagger token. |
| SemanticChecker.ArgMax | semantic_checker.py:96-98 | The index of a largest probability, the first one on a tie. |
| SemanticChecker.CheckEntailment | semantic_checker.py:63-100 | Without NLI the verdict is ("neutral", 0.0). With NLI, the label is the first most probable of contradiction, neutral and entailment, in that order on ties. The confidence is at least each of the three probabilities. |
| SemanticChecker.IsSemanticallyPreserved | semantic_checker.py:102-144 | Similarity below the minimum is false, with both NLI fields empty. Without NLI the verdict is exactly similarity ≥ minimum. With NLI and a passing similarity, the label and confidence are recorded, and the pair is rejected iff contradictions are not allowed and the label is contradiction. |
| SemanticChecker.NeutralPasses | semantic_checker.py:135-144 | A similar-enough pair judged neutral passes even when contradictions are disallowed. |
| SemanticChecker.BatchComputeSimilarity | semantic_checker.py:146-180 | One similarity per candidate, in order, each that of the candidate against the original. No candidates gives none. |
| RefinementPipeline.CompatibleCandidates | refinement_pipeline.py:161-171 | An order-preserving subsequence of the candidates. A candidate is kept iff its text passes the compatibility filter for the word in the sentence. |
| RefinementPipeline.KeptTexts | refinement_pipeline.py:169-171 | Keeping candidates whose text is in the filtered list keeps exactly those whose text the filter accepts, since the list is the accepted subsequence of the texts. |
| RefinementPipeline.Try | refinement_pipeline.py:244-290 | One candidate tried. The new text is the decoded splice and the similarity is measured against the current text. It passes iff the gain and the similarity reach their thresholds and, with the NLI check on and a model loaded, the verdict is not contradiction. |
| RefinementPipeline.OwnTokensGainNothing | refinement_pipeline.py:246-263 | A candidate that encodes to the word's own tokens gains exactly 0. Both windows are then over the same ids. |
| RefinementPipeline.Trials | refinement_pipeline.py:244-290 | One trial per candidate, in order. A passing trial meets both thresholds. |
| RefinementPipeline.BestUpTo | refinement_pipeline.py:292-298 | None iff no trial passes. Otherwise a passing trial whose gain no passing trial exceeds, and no earlier passing trial reaches it: the strict > keeps the earliest on a tie. |
| RefinementPipeline.GenerateReason | refinement_pipeline.py:318-336 | The uncertainty part is present iff entropy ≥ min_entropy, and the rank part iff rank ≥ max_original_rank. The last two parts are always fluency, then meaning. A flagged word has at least one flag part. |
| RefinementPipeline.SelectEdit | refinement_pipeline.py:292-316 | No edit iff no trial passes. Otherwise the edit takes the best passing trial's text, gain and similarity, and no passing trial gains more. It describes the original word and score with its reason. The alternatives are min(3, trials) entries sorted by decreasing gain, drawn from all trials whether passing or not. |
| RefinementPipeline.AlternativesAreTopThree | refinement_pipeline.py:304-315 | Any trial that gains more than the last alternative shown is among the alternatives. |
| RefinementPipeline.FindBestEdit | refinement_pipeline.py:211-316 | No edit iff none of the first ten candidates passes its trial. An edit is for the scored word, meets both thresholds, and carries the text, gain and similarity of one of those ten that passed; no passing candidate among them gains more. |
| RefinementPipeline.OnlyFirstTenTried | refinement_pipeline.py:244 | Candidates after the tenth never affect the result. |
| RefinementPipeline.ApplyEdit | refinement_pipeline.py:338-368 | The text becomes prefix + replacement + suffix around the word's characters. The word list keeps its length, and only the word's slot changes. |
| RefinementPipeline.ApplyEditUndo | refinement_pipeline.py:358-368 | Applying the original word over the replacement's new span restores both the text and the word list. |
| RefinementPipeline.ChoiceIndex | refinement_pipeline.py:396-397 | A choice exists iff the answer is "1", "2" or "3", and it is the digit minus one. |
| RefinementPipeline.ConfirmEdit | refinement_pipeline.py:390-403 | On the stripped, lower-cased answer: "y" accepts the edit as is. A digit naming a listed alternative accepts that alternative's text as the replacement. Everything else, "n" included, declines. Accepting changes nothing but the replacement. |
| RefinementPipeline.AlternativeSkipsGates | refinement_pipeline.py:396-401 | Answering "2" installs an alternative whose gain is below the threshold, while the edit still reports the best candidate's gain. |
| RefinementPipeline.FindAlignment | refinement_pipeline.py:134-139 | The first alignment for the word index, or none when no alignment has it. |
| RefinementPipeline.Accept | refinement_pipeline.py:193-202 | Applying an edit records it after the earlier ones and puts the replacement in the word's slot. |
| RefinementPipeline.ProposeEdit | refinement_pipeline.py:128-186 | There is a proposal iff the word is found in a fresh alignment of the current text and one of its first ten filtered candidates passes its trial there. A proposal is for the scored word, its alignment is the one the aligner produced for that word on the current text and finds the word verbatim at its span, and its edit meets both thresholds. |
| RefinementPipeline.LocateWord | refinement_pipeline.py:128-142 | There is no alignment iff no alignment of the current text carries the word's index. One that is found is the aligner's own alignment for that index, so a repeated word is never located at another occurrence. It finds the word verbatim at its span, and its tokens are a run of the encoding's ids. |
| RefinementPipeline.RefineWord | refinement_pipeline.py:123-202 | The word list keeps its length. Without a recorded edit, text and words are unchanged. With one, exactly one edit is appended: it is for this flagged word, meets both thresholds, and its replacement fills the word's slot. Without prompts, an edit is recorded iff the word is editable; with prompts, a prompt is shown iff it is. How the answer to a prompt decides the edit is stated by `RefinementPipeline.ConfirmsProposal`. |
| RefinementPipeline.ConfirmsProposal | refinement_pipeline.py:186-202 | With prompts, an editable word uses up one answer. An edit is appended iff the confirmation of the proposed edit with that answer returns one, the appended edit is the returned one, and the text becomes its replacement spliced over the word's characters. Otherwise text and edits are unchanged. |
| RefinementPipeline.AcceptsProposal | refinement_pipeline.py:186-202 | Without prompts, an editable word gets exactly the proposed edit appended, and the text becomes the replacement spliced over the word's characters. |
| RefinementPipeline.RefineFrom | refinement_pipeline.py:123-202 | The loop never exceeds the edit budget, only appends to the edits it started with, and every new edit is for a flagged word and meets both thresholds. When it adds no edit, text and words are unchanged. |
| RefinementPipeline.EditableWordIsEdited | refinement_pipeline.py:123-202 | Without prompts, a flagged word that is editable when the loop reaches it with budget left gets an edit: the next edit recorded is the one proposed for it. |
| RefinementPipeline.RefineFromInOrder | refinement_pipeline.py:123-202 | Walking the flagged words left to right produces edits in strictly increasing word order. |
| RefinementPipeline.SentenceScores | refinement_pipeline.py:95-104 | Scores are in strictly increasing word order, each flagged iff it reaches the configured entropy or rank threshold. |
| RefinementPipeline.RefineSentence | refinement_pipeline.py:80-209 | A sentence with nothing flagged, or a zero budget, comes back unchanged with no edits, and so does any sentence that receives no edit. Otherwise there are at most budget-many edits, in increasing word order, each for a flagged score of the sentence and meeting both thresholds. |
| RefinementPipeline.FirstEditableWordIsEdited | refinement_pipeline.py:80-209 | Without prompts and with budget left, a sentence whose first flagged word is editable gets at least one edit, and the first edit is the one proposed for that word. |
| RefinementPipeline.WalkFacts | refinement_pipeline.py:107-126 | The walk over the flagged scores yields edits in word order, each for a flagged score of the sentence. |
| RefinementPipeline.SplitSentences | refinement_pipeline.py:439-443 | One sentence per splitter span. Each is the span's text with exactly its leading and trailing whitespace cut: what is cut on each side is all whitespace, and the sentence neither starts nor ends with whitespace. |
| PyText.StripSpan | refinement_pipeline.py:443 | `strip()` returns a contiguous slice of its input, starting after the leading whitespace, with only whitespace cut on either side, and with no whitespace at either end. |
| RefinementPipeline.RefineAll | refinement_pipeline.py:419-435 | One refined sentence per input sentence. With a zero budget they are the input sentences. |
| RefinementPipeline.RefinesEachAlone | refinement_pipeline.py:419-435 | Without prompts, each refined sentence is what refining that sentence alone gives. |
| RefinementPipeline.RefineText | refinement_pipeline.py:405-437 | With a zero budget the result is the stripped sentences joined by single spaces. |
| RefinementPipeline.QualityMonotone | refinement_pipeline.py:540-545 | The quality score never drops when entropy, gain, similarity or log-probability rise, and strictly rises with the gain. |
| RefinementPipeline.ToModifications | refinement_pipeline.py:547-561 | One entry per trial, for the word. It passes iff gain ≥ min_pll_gain and similarity ≥ min_sbert_cosine, with no NLI test. |
| RefinementPipeline.WordModifications | refinement_pipeline.py:481-561 | A punctuation word contributes nothing. Any other word contributes one entry per trial, each naming the word, passing iff both thresholds hold. |
| RefinementPipeline.WordTrials | refinement_pipeline.py:486-510 | At most ten trials per word. |
| RefinementPipeline.ModificationsFrom | refinement_pipeline.py:481-561 | No entry is for a punctuation word, and every entry passes iff both thresholds hold. |
| RefinementPipeline.SentenceModifications | refinement_pipeline.py:462-561 | No entry is for a punctuation word. Each entry passes iff gain and similarity reach their thresholds, with no NLI test. |
| RefinementPipeline.ShowCandidates | refinement_pipeline.py:563-578 | The shown list is sorted by decreasing quality, has exactly min(top_n, n) entries for a non-negative top_n, where n is the number of the sentence's modifications, and is a sub-multiset of them. |
| RefinementPipeline.ShowCandidatesForText | refinement_pipeline.py:445-461 | One list per stripped sentence, in order. Each is sorted by decreasing quality, has exactly min(top_n, n) entries for a non-negative top_n, where n is the number of that sentence's modifications, and is a sub-multiset of them. |
| RefinementPipeline.ShownForTextAreTheBest | refinement_pipeline.py:445-461 | A modification of a sentence that is left out of its list has no better quality than the last one shown. |
| RefinementPipeline.ShownAreTheBest | refinement_pipeline.py:563-578 | A modification that scores higher than the last one shown is shown. |
| HighlightApi.StatusCode | backend/api_server.py:288-292 | Errors map to 400, 500 and 503. |
| HighlightApi.CheckRequest | backend/api_server.py:288-292 | 503 iff no pipeline is loaded, which is checked first. Then 400 iff the text is empty or whitespace. The request proceeds iff a pipeline is loaded and the text has a non-space character. |
| HighlightApi.ClunkyScores | backend/api_server.py:318-322 | The scores kept are a subsequence. A score is kept iff it is flagged and its word is not one of the ten punctuation marks. |
| HighlightApi.FlagReasons | backend/api_server.py:341-346 | The uncertainty reason is present iff entropy ≥ the request's min_entropy, and the rank reason iff rank ≥ its max_rank. With both, uncertainty comes first. |
| HighlightApi.FlaggedWordHasReason | backend/api_server.py:341-346 | A word flagged under the request's thresholds carries at least one reason. |
| HighlightApi.ClunkyFacts | backend/api_server.py:311-322 | Every kept score names a word of the sentence and is flagged under the request's thresholds. |
| HighlightApi.Analyse | backend/api_server.py:307-333 | For one sentence, every alignment locates its word verbatim in the sentence and covers a run of the encoding, and every score left to report is flagged under the request's thresholds, is not punctuation and names its word. |
| HighlightApi.HighlightFacts | backend/api_server.py:424-438 | A reported word is not punctuation, is flagged, carries exactly its reasons and gated suggestions, and its shifted span holds the word in its sentence. |
| HighlightApi.Evaluate | backend/api_server.py:372-418 | A suggestion keeps its candidate's text, log-probability and rank. passes_thresholds holds iff gain and similarity reach the configured thresholds. |
| HighlightApi.ServerGateDropsNli | backend/api_server.py:393-409 | The server measures gain and similarity exactly as the refinement loop does. Its mark accepts everything the loop accepts, and without the NLI check the two agree. |
| HighlightApi.Evaluations | backend/api_server.py:372-418 | One suggestion per candidate, in order. |
| HighlightApi.SpansInText | backend/api_server.py:426-427 | A word at its span of a sentence, shifted by where the sentence occurs in the text, sits at its span of the text. |
| HighlightApi.SentenceStart | backend/api_server.py:302-306 | The start is at or after the offset. When the search finds the sentence, the sentence occurs there and nowhere between the offset and there, so it is the first occurrence from the offset; otherwise the start is the offset. |
| BackendApiServer.Progress | backend/api_server.py:104-112 | progress × total = current when total > 0, and 0 when total ≤ 0. It lies in [0, 1] when 0 ≤ current ≤ total. |
| BackendApiServer.Suggestions | backend/api_server.py:393-421 | The kept suggestions are the first ones of the evaluations with gain ≥ 0.5, in order: exactly min(top_suggestions, their number) of them for a non-negative limit, and all but the last \|top_suggestions\| for a negative one. |
| BackendApiServer.SuggestionsNonEmptyIff | backend/api_server.py:393-427 | When at least one suggestion is asked for, some suggestion survives iff some evaluation gains at least 0.5. |
| BackendApiServer.FirstTenEvaluated | backend/api_server.py:372 | The first min(10, n) compatible candidates are evaluated, in order, the i-th evaluation being that of the i-th candidate. |
| BackendApiServer.FluentEvaluation | backend/api_server.py:372-395 | Some of the ten evaluations gains at least 0.5 iff one of the first ten candidates does. |
| BackendApiServer.GatedSubsequence | backend/api_server.py:405-421 | Truncating or filtering gated suggestions leaves them gated. |
| BackendApiServer.LoopCandidates | backend/api_server.py:357-372 | A word with candidates walks its own compatible list. Without candidates, the scoped reading walks nothing. The as-written reading walks the list an earlier word left bound, or fails with a 500 when there is none. |
| BackendApiServer.Report | backend/api_server.py:423-438 | A word is reported iff it has a suggestion, as the entry built from its score, alignment and suggestions. |
| BackendApiServer.WordSuggestions | backend/api_server.py:372-421 | The suggestions for a word are the first top_suggestions of the evaluations of its first ten compatible candidates that gain at least 0.5, in order. |
| BackendApiServer.HighlightWord | backend/api_server.py:335-438 | A word without an alignment is skipped. The scoped reading never fails, and the only failure is the 500. A reported word sits at its alignment with suggestions as above. |
| BackendApiServer.OwnReport | backend/api_server.py:337-438 | The entry a flagged word deserves with its own candidates: nothing without an alignment, and otherwise, when some suggestion survives, the entry at its alignment with those suggestions. |
| BackendApiServer.OwnReportIffFluentCandidate | backend/api_server.py:337-427 | With top_suggestions > 0, an aligned word is reported on its own iff one of its first ten compatible candidates gains at least 0.5. |
| BackendApiServer.ScopedIsOwnReport | backend/api_server.py:357-438 | With the list scoped to the word, the word's entry is the one it deserves on its own, whatever an earlier word left bound. |
| BackendApiServer.AsWrittenWithCandidatesIsOwnReport | backend/api_server.py:349-438 | As written, a word that has generated candidates also gets the entry it deserves on its own. Only a word without candidates can pick up another word's list. |
| BackendApiServer.ScopedUsesOwnCandidates | backend/api_server.py:357-372 | With the list scoped to the word, a word without candidates is never reported, and a reported word's suggestions come from its own compatible candidates. |
| BackendApiServer.AsWrittenReusesEarlierList | backend/api_server.py:357-372 | As written, a word without candidates is evaluated against an earlier word's list. When no earlier word had one, the request fails with a 500. |
| BackendApiServer.WordsFrom | backend/api_server.py:335-438 | Every entry for a sentence is reported (flagged, 1..10 suggestions, gain ≥ 0.5) and sits at its span of the sentence. With the list scoped, the entries are exactly those the flagged words deserve on their own, in word order. |
| BackendApiServer.AsWrittenWithCandidatesAgrees | backend/api_server.py:335-438 | As written, when every aligned flagged word has candidates, the sentence's entries are exactly those its words deserve on their own, in order, and the request does not fail. |
| BackendApiServer.HighlightSentence | backend/api_server.py:307-438 | Same as WordsFrom, for a whole sentence scored with the request's thresholds. A sentence with no reportable score yields nothing. With the list scoped, the entries are exactly those its flagged words deserve on their own. |
| BackendApiServer.AsWrittenSentenceAgrees | backend/api_server.py:307-438 | As written, a sentence whose aligned flagged words all have candidates gets exactly the entries they deserve on their own. |
| BackendApiServer.SentencesFrom | backend/api_server.py:301-441 | Every entry is reported. When each sentence is found searching from the end of the previous one, every entry sits at its span of the whole text. With the list scoped, the entries are each sentence's own entries concatenated in sentence order, each sentence placed where the search finds it. |
| BackendApiServer.AsWrittenSentencesAgree | backend/api_server.py:301-441 | As written, when every aligned flagged word of every sentence has candidates, the result is the same concatenation of each sentence's own entries. |
| BackendApiServer.SentenceFacts | backend/api_server.py:303-306 | A sentence found at its start contributes entries at their spans of the text, whatever follows. |
| BackendApiServer.Handle | backend/api_server.py:288-451 | The guards decide the error first. Past them, the scoped reading always answers, and the as-written reading can only fail with a 500. A scoped answer lists exactly the entries each flagged word deserves on its own, sentence by sentence; so does the as-written answer whenever every aligned flagged word has candidates. |
| BackendApiServer.AsWrittenTextAgrees | backend/api_server.py:288-451 | As written, a text whose aligned flagged words all have candidates gets each word's own entry, in order. |
| BackendApiServer.HighlightText | backend/api_server.py:280-451 | 503 without a pipeline, and 400 for a blank text. Otherwise the response echoes the text, counts its entries and sentences, and lists exactly the entries the flagged words deserve on their own, sentence by sentence; each is at its span whenever the sentences are found in order. |
| BackendApiServer.HighlightTextAsWritten | backend/api_server.py:280-451 | The same guards. Past them the only failure is the 500, and any response has the same general properties. When every aligned flagged word has candidates, it gives the same answer as the scoped handler. |
| ApiServer.LegacySuggestions | api_server.py:179-222 | Exactly the first top_suggestions compatible candidates are evaluated, with no gain floor, each marked by the gate. |
| ApiServer.LegacyWord | api_server.py:143-237 | A flagged word is reported iff it has an alignment, even with no suggestions. It is reported at its alignment, and its suggestions are the evaluations of its first top_suggestions compatible candidates, in order, each marked by the gate. |
| ApiServer.AlignedFrom | api_server.py:143-147 | The flagged words from k on that have an alignment, in their original order: an ordered subsequence of the list, each with an alignment, and none missed. |
| ApiServer.WordsFrom | api_server.py:143-237 | One entry per aligned flagged word, in order, each exactly the entry `LegacyWord` builds for that word. Every entry is flagged, has at most top_suggestions suggestions, and sits at its span of the sentence. |
| ApiServer.HighlightSentence | api_server.py:114-237 | One entry per flagged word of the sentence that has an alignment, in word order, each exactly the entry `LegacyWord` builds for that word at the sentence's start; every entry is reported and sits at its span of the sentence. |
| ApiServer.PlaceEntries | api_server.py:114-240 | A sentence's entries followed by the later sentences' entries are the text's entries from that sentence on. |
| ApiServer.Placement | api_server.py:134 | The running-sum scheme starts a sentence at the offset and moves the offset by len + 1. The search scheme starts it where the text search finds it and moves the offset to its end. |
| ApiServer.SentencesFrom | api_server.py:114-240 | The entries are one per aligned flagged word of each sentence, sentence after sentence, in order, and each sentence's run is exactly the entries `LegacyWord` builds for it at the start the scheme gives that sentence. Every entry is reported, and when the sentences are where the scheme assumes, every entry sits at its span of the text. |
| ApiServer.SentenceFacts | api_server.py:225-226 | A sentence placed correctly contributes entries at their spans of the text. |
| ApiServer.Handle | api_server.py:101-247 | The guards decide the error. Past them the handler always answers, with the text echoed, the counts matching, one entry per aligned flagged word of each sentence in order, each built by `LegacyWord` at the start the scheme gives its sentence, every entry flagged, and entries at their spans whenever the sentences are where the scheme assumes. |
| ApiServer.HighlightText | api_server.py:94-247 | 503 without a pipeline, then 400 for a blank text. Otherwise a response with one entry per aligned flagged word of each sentence, in order, each built by `LegacyWord` at the sentence's found start, whose entries are at their spans whenever each sentence is found in order. |
| ApiServer.HighlightTextAsWritten | api_server.py:94-247 | Same guards, and the same entries, built at the running-sum starts. The positions are right whenever consecutive sentences are exactly one character apart. |
| ApiServer.JoinedAreSpaced | api_server.py:134 | Sentences joined by single spaces are one separator apart. |
| ApiServer.AsWrittenRightForSingleSpaces | api_server.py:134 | For a text that is exactly its sentences joined by single spaces, the running-sum positions are right. |
| ApiServer.CumulativeOffsetDrifts | api_server.py:134 | In "Hi.  Yo." the running sum puts "Yo." at 4, where it does not occur. The search finds it at 5. |

## Left out

- Neural inference is not modelled: RoBERTa forward passes, softmax, the entropy computation, `torch.topk`, SBERT embeddings and cosine, and the NLI logits. They are oracle fields that return reals, ordered id lists and probability triples.
- spaCy tagging and sentence segmentation, and the Hugging Face tokenizer's encoding, decoding and offset mapping, are foreign library calls. They are oracles. The tokenizer returns ids and offsets together, so they always have the same length.
- Floating-point arithmetic is modelled as exact reals, and NumPy's mean as a real division.
- `round(x, 2)` and `round(x, 3)` in the servers' suggestions and entries are left out; values are kept unrounded.
- Reason strings and their number formatting (`:.1f`, `:.2f`) are not modelled. Reasons are tags carrying the numbers they quote.
- `torch.topk` raises when k exceeds the vocabulary or is negative. The model takes the available prefix instead, and no ids for k ≤ 0.
- Python's `sort` is stable. `Seqs.SortDesc` is a stable insertion sort, so ties keep trial order as in the source.
- Case mapping covers ASCII letters only. `str.isalpha` is modelled for the ASCII letters and for U+00C0–U+017F (Latin-1 and Latin Extended-A) except × and ÷, a range that holds 'Ġ'. Every other Unicode letter is left out: Greek, Cyrillic, CJK and other scripts, the Latin-1 letters ª, µ and º, and letters beyond U+017F. The model counts them as non-letters, so a candidate made of them is dropped where Python keeps it.
- Request fields sent as explicit `null` are not modelled; `HighlightRequest` holds the defaulted values.
- Printing and `input()` in `_confirm_edit`, `refine_text` and `show_candidates_for_text` are I/O. The answers are a parameter indexed by the number of prompts shown, and the listing returns the modifications it would print.
- Model loading, FastAPI setup, CORS, the start-up hook, the root and health endpoints, uvicorn, and the `HTTPException` wrapping are web plumbing.
- The server-sent-events handler (backend/api_server.py:114-277) and its progress messages are not modelled; only `send_progress`'s arithmetic is. Its per-word logic equals `BackendApiServer`'s `Scoped` reading.
- Exceptions other than the unbound name in backend/api_server.py are not modelled (model failures, CUDA errors). Both handlers turn any exception into a 500.
- backend/refinement_pipeline.py, backend/scorer.py, backend/tokenizer_utils.py, backend/candidate_generator.py and backend/config.py are not part of this model. The top-level files they mirror are what is modelled.
- flow.py, backend/highlight.py, the demo, debug, benchmark and install scripts, and the smoke tests are not part of this model.
- Scorer.WindowedPll: its contract states only the empty-window case. The bounds of the window are stated by `Scorer.WindowPositions`, and the loop's sum by `Scorer.ComputeWindowedPll`.
- Scorer.ScoreMultiPiece: the mean entropy is stated only through its definition. The sum of the log-probabilities is stated by `Scorer.ScoreMultiPieceLoop`.
- RefinementPipeline.WordTrials: states only the ten-trial bound. What each trial is comes from `RefinementPipeline.Try`.
- BackendApiServer.HighlightTextAsWritten: its entries are stated exactly only when every aligned flagged word has candidates; otherwise only the general properties of a response hold, because which list leaks in depends on earlier words.
- RefinementPipeline.RefineAll: with prompts, a sentence's result is not stated on its own, because the count of answers used runs on from one sentence to the next.
- RefinementPipeline.RefineText: states only the zero-budget case, which is the stripped sentences joined by spaces. Other cases depend on the oracles.
- LinguisticConstraints.ExtractWords: states only the count bound. The words are the texts of the non-space tokens, as `LinguisticConstraints.TokenTexts` states.

## Findings

| source | as written | input that shows it | evidently intended | confidence | as-written member | corrected member |
|---|---|---|---|---|---|---|
| backend/api_server.py:357-372 | `filtered_candidates` is bound only inside `if candidates:`, but the evaluation loop after the block reads it for every word. | A text whose first flagged, aligned word gets no valid candidate: the loop reads an unbound name and the request fails with a 500. A later word without candidates is instead evaluated against the previous word's list and can be reported with that word's suggestions. | Evaluate only the word's own compatible candidates, as the streaming handler in the same file does. | not executed | BackendApiServer.AsWrittenReusesEarlierList | BackendApiServer.ScopedUsesOwnCandidates |
| api_server.py:134,240 | Each sentence is taken to start `len(sentence) + 1` characters after the previous one starts. | "Hi.  Yo." split into "Hi." and "Yo.": the entries for "Yo." are placed from 4, where the text holds " Yo", instead of 5. | Positions in the original text, found by searching for each sentence, as backend/api_server.py:303-306 does. | not executed | ApiServer.CumulativeOffsetDrifts | ApiServer.HighlightText |

=== FILE: api_server.dfy ===
/** The highlight handler of api_server.py, the older of the two servers: every
    flagged word that has an alignment is reported, with its first
    `top_suggestions` compatible candidates evaluated and no gain floor.

    Its sentence positions are a running sum: each sentence is assumed to start
    one character after the previous one ends. That is right only when the
    sentences are separated by exactly one character, as `Cumulative` below
    shows; `Located` finds each sentence in the text instead, as the newer
    server does, and is the scheme the handler is modelled with. */
module ApiServer {
  import opened Wrappers
  import opened PyText
  import opened Seqs
  import opened TokenizerUtils
  import opened Scorer
  import opened CandidateGenerator
  import opened LinguisticConstraints
  import opened RefinementPipeline
  import opened HighlightApi

  /** `sugg` holds the first `top` of `cands` (Python's `cands[:top]`), each
      evaluated in the sentence, in order. */
  predicate EvaluatesFirst(p: Pipeline, sentence: string, ids: seq<int>, a: WordAlignment, cands: seq<Candidate>,
                           top: int, sugg: seq<Suggestion>)
    requires a.tokenStart <= a.tokenEnd <= |ids|
  {
    |sugg| == |PyTake(cands, top)| && forall i :: 0 <= i < |sugg| ==> sugg[i] == Evaluate(p, sentence, ids, a, cands[i])
  }

  /** The first `top` compatible candidates, each evaluated in the sentence. */
  function LegacySuggestions(p: Pipeline, sentence: string, ids: seq<int>, a: WordAlignment, cands: seq<Candidate>,
                             top: int): (r: seq<Suggestion>)
    requires a.tokenStart <= a.tokenEnd <= |ids|
    ensures EvaluatesFirst(p, sentence, ids, a, cands, top, r) && (top >= 0 ==> |r| <= top)
    ensures forall i :: 0 <= i < |r| ==> Gated(p, r[i])
  {
    Evaluations(p, sentence, ids, a, PyTake(cands, top))
  }

  /** A word as this handler reports it: flagged, and no more suggestions than
      asked for, possibly none. */
  predicate LegacyReported(p: Pipeline, req: HighlightRequest, h: HighlightedWord)
  {
    Flagged(p, req, h) && (req.topSuggestions >= 0 ==> |h.suggestions| <= req.topSuggestions)
  }

  /** The entry for flagged word `s`: at its alignment, with no more
      suggestions than asked for, each of them gated. */
  predicate LegacyWordReported(p: Pipeline, req: HighlightRequest, als: seq<WordAlignment>, s: WordScore,
                               start: nat, h: HighlightedWord)
  {
    && FindAlignment(als, s.wordIdx).Some?
    && h == Highlight(req, s, als[FindAlignment(als, s.wordIdx).value], start, h.suggestions)
    && (req.topSuggestions >= 0 ==> |h.suggestions| <= req.topSuggestions)
    && forall i :: 0 <= i < |h.suggestions| ==> Gated(p, h.suggestions[i])
  }

  /** One flagged word: reported exactly when it has an alignment, whatever its
      suggestions. */
  function LegacyWord(p: Pipeline, req: HighlightRequest, sentence: string, enc: seq<TokenPiece>,
                      als: seq<WordAlignment>, s: WordScore, start: nat): (r: Option<HighlightedWord>)
    requires forall j :: 0 <= j < |als| ==> AlignedTo(als[j], sentence, enc)
    ensures r.Some? <==> FindAlignment(als, s.wordIdx).Some?
    ensures r.Some? ==> LegacyWordReported(p, req, als, s, start, r.value)
    ensures r.Some? ==>
      (&& AlignedTo(als[FindAlignment(als, s.wordIdx).value], sentence, enc)
       && EvaluatesFirst(p, sentence, Ids(enc), als[FindAlignment(als, s.wordIdx).value],
                         FilteredCandidates(p, sentence, Ids(enc), als[FindAlignment(als, s.wordIdx).value], s.wordText),
                         req.topSuggestions, r.value.suggestions))
  {
    match FindAlignment(als, s.wordIdx)
    case None => None
    case Some(k) =>
      var a := als[k];
      assert AlignedTo(a, sentence, enc);
      var ids := Ids(enc);
      var sugg := LegacySuggestions(p, sentence, ids, a, FilteredCandidates(p, sentence, ids, a, s.wordText),
                                    req.topSuggestions);
      LegacyFacts(p, req, als, s, start, k, sugg);
      Some(Highlight(req, s, a, start, sugg))
  }

  lemma LegacyFacts(p: Pipeline, req: HighlightRequest, als: seq<WordAlignment>, s: WordScore, start: nat, k: nat,
                    sugg: seq<Suggestion>)
    requires FindAlignment(als, s.wordIdx) == Some(k)
    requires req.topSuggestions >= 0 ==> |sugg| <= req.topSuggestions
    requires forall i :: 0 <= i < |sugg| ==> Gated(p, sugg[i])
    ensures LegacyWordReported(p, req, als, s, start, Highlight(req, s, als[k], start, sugg))
  {
  }

  /** Every entry is reported and sits at its span of the sentence starting at
      `start`. */
  predicate AllReported(p: Pipeline, req: HighlightRequest, sentence: string, start: nat, hs: seq<HighlightedWord>)
  {
    forall i :: 0 <= i < |hs| ==> LegacyReported(p, req, hs[i]) && Spans(sentence, Shift(hs[i], -(start as int)))
  }

  /** The flagged words from the `k`-th on that have an alignment, in order. */
  function AlignedFrom(als: seq<WordAlignment>, clunky: seq<WordScore>, k: nat): (r: seq<WordScore>)
    ensures k <= |clunky| ==> IsSubsequence(r, clunky[k..])
    ensures forall s | s in r :: s in clunky && FindAlignment(als, s.wordIdx).Some?
    ensures forall j :: k <= j < |clunky| && FindAlignment(als, clunky[j].wordIdx).Some? ==> clunky[j] in r
    decreases |clunky| - k
  {
    if k >= |clunky| then []
    else
      var rest := AlignedFrom(als, clunky, k + 1);
      assert clunky[k..][1..] == clunky[k + 1..];
      if FindAlignment(als, clunky[k].wordIdx).Some? then [clunky[k]] + rest else rest
  }

  /** The entries are for the words `ws`, one each, in order. */
  predicate ReportsEach(hs: seq<HighlightedWord>, ws: seq<WordScore>)
  {
    |hs| == |ws| && forall i :: 0 <= i < |hs| ==> hs[i].word == ws[i].wordText
  }

  /** The alignments all fall inside the sentence's encoding. */
  predicate AllAligned(als: seq<WordAlignment>, sentence: string, enc: seq<TokenPiece>)
  {
    forall j :: 0 <= j < |als| ==> AlignedTo(als[j], sentence, enc)
  }

  /** Whether `h` is the entry `LegacyWord` builds for word `s`. */
  function BuildsEntry(p: Pipeline, req: HighlightRequest, sentence: string, enc: seq<TokenPiece>,
                       als: seq<WordAlignment>, start: nat): (WordScore, HighlightedWord) -> bool
  {
    (s: WordScore, h: HighlightedWord) =>
      AllAligned(als, sentence, enc) && LegacyWord(p, req, sentence, enc, als, s, start) == Some(h)
  }

  /** The entries are the ones `LegacyWord` builds for the words `ws`, one each,
      in order. */
  predicate EntriesFor(p: Pipeline, req: HighlightRequest, sentence: string, enc: seq<TokenPiece>,
                       als: seq<WordAlignment>, start: nat, hs: seq<HighlightedWord>, ws: seq<WordScore>)
  {
    Pairwise(ws, hs, BuildsEntry(p, req, sentence, enc, als, start))
  }

  /** The flagged words of a sentence from the `k`-th on, in order: one entry for
      each that has an alignment. */
  function WordsFrom(p: Pipeline, req: HighlightRequest, sentence: string, enc: seq<TokenPiece>,
                     words: seq<string>, als: seq<WordAlignment>, clunky: seq<WordScore>, k: nat, start: nat)
    : (r: seq<HighlightedWord>)
    requires AlignmentsOf(als, sentence, enc, words) && FlaggedOf(clunky, words, req)
    ensures AllReported(p, req, sentence, start, r)
    ensures ReportsEach(r, AlignedFrom(als, clunky, k))
    ensures EntriesFor(p, req, sentence, enc, als, start, r, AlignedFrom(als, clunky, k))
    decreases |clunky| - k
  {
    if k >= |clunky| then []
    else
      var h := LegacyWord(p, req, sentence, enc, als, clunky[k], start);
      var rest := WordsFrom(p, req, sentence, enc, words, als, clunky, k + 1, start);
      if h.None? then rest
      else
        WordFacts(p, req, sentence, enc, words, als, clunky, k, clunky[k], start, h.value);
        ConsReported(p, req, sentence, start, h.value, rest);
        ConsEach(h.value, rest, clunky[k], AlignedFrom(als, clunky, k + 1));
        PairwiseCons(clunky[k], AlignedFrom(als, clunky, k + 1), h.value, rest,
                     BuildsEntry(p, req, sentence, enc, als, start));
        [h.value] + rest
  }

  lemma ConsReported(p: Pipeline, req: HighlightRequest, sentence: string, start: nat, h: HighlightedWord,
                     rest: seq<HighlightedWord>)
    requires LegacyReported(p, req, h) && Spans(sentence, Shift(h, -(start as int)))
    requires AllReported(p, req, sentence, start, rest)
    ensures AllReported(p, req, sentence, start, [h] + rest)
  {
  }

  lemma ConsEach(h: HighlightedWord, rest: seq<HighlightedWord>, s: WordScore, ws: seq<WordScore>)
    requires h.word == s.wordText && ReportsEach(rest, ws)
    ensures ReportsEach([h] + rest, [s] + ws)
  {
  }

  /** The entry for a flagged word is reported and sits at its span of the
      sentence. */
  lemma WordFacts(p: Pipeline, req: HighlightRequest, sentence: string, enc: seq<TokenPiece>,
                  words: seq<string>, als: seq<WordAlignment>, clunky: seq<WordScore>, k: nat, s: WordScore, start: nat,
                  h: HighlightedWord)
    requires AlignmentsOf(als, sentence, enc, words) && FlaggedOf(clunky, words, req) && k < |clunky| && s == clunky[k]
    requires LegacyWordReported(p, req, als, s, start, h)
    ensures LegacyReported(p, req, h) && Spans(sentence, Shift(h, -(start as int))) && h.word == s.wordText
  {
    var a := als[FindAlignment(als, s.wordIdx).value];
    assert AlignmentsOf([a], sentence, enc, words);
    assert FlaggedOf([s], words, req);
    HighlightFacts(p, req, sentence, enc, words, s, a, start, h.suggestions);
  }

  /** The words of a sentence the handler reports, in order: those flagged under
      the request's thresholds that have an alignment. */
  function FlaggedAligned(p: Pipeline, req: HighlightRequest, sentence: string): seq<WordScore>
  {
    var an := Analyse(p, req, sentence);
    AlignedFrom(an.als, an.clunky, 0)
  }

  /** One sentence starting at `start`: score its words with the request's
      thresholds and report its flagged words, one entry per flagged word with
      an alignment. */
  function HighlightSentence(p: Pipeline, req: HighlightRequest, sentence: string, start: nat)
    : (r: seq<HighlightedWord>)
    ensures AllReported(p, req, sentence, start, r)
    ensures ReportsEach(r, FlaggedAligned(p, req, sentence))
    ensures SentenceEntries(p, req, sentence, start, r)
  {
    var an := Analyse(p, req, sentence);
    if |an.clunky| == 0 then []
    else WordsFrom(p, req, sentence, an.enc, an.words, an.als, an.clunky, 0, start)
  }

  /** The entries of a sentence starting at `start` are the ones `LegacyWord`
      builds for its flagged words that have an alignment, in order. */
  predicate SentenceEntries(p: Pipeline, req: HighlightRequest, sentence: string, start: nat, hs: seq<HighlightedWord>)
  {
    var an := Analyse(p, req, sentence);
    EntriesFor(p, req, sentence, an.enc, an.als, start, hs, FlaggedAligned(p, req, sentence))
  }

  /** The words the handler reports for the sentences from the `i`-th on, in
      sentence order. */
  function TextWords(p: Pipeline, req: HighlightRequest, sentences: seq<string>, i: nat): seq<WordScore>
    decreases |sentences| - i
  {
    if i >= |sentences| then [] else FlaggedAligned(p, req, sentences[i]) + TextWords(p, req, sentences, i + 1)
  }

  /** Entries for two runs of words, one after the other. */
  lemma ConcatEach(hs: seq<HighlightedWord>, rest: seq<HighlightedWord>, ws: seq<WordScore>, more: seq<WordScore>)
    requires ReportsEach(hs, ws) && ReportsEach(rest, more)
    ensures ReportsEach(hs + rest, ws + more)
  {
  }

  // ---------------------------------------------------------------- sentence positions

  /** Where a sentence is taken to start. */
  datatype Scheme =
    | Cumulative   // `char_offset`, then `char_offset += len(sentence) + 1`
    | Located      // the first occurrence from `char_offset`, which then moves to its end

  /** The start of a sentence searched from `offset`, and the offset for the next. */
  function Placement(scheme: Scheme, text: string, sentence: string, offset: nat): (r: (nat, nat))
    ensures scheme == Cumulative ==> r == (offset, offset + |sentence| + 1)
    ensures scheme == Located ==>
      r.0 == SentenceStart(text, sentence, offset) && r.1 == r.0 + |sentence|
  {
    match scheme
    case Cumulative => (offset, offset + |sentence| + 1)
    case Located =>
      var start := SentenceStart(text, sentence, offset);
      (start, start + |sentence|)
  }

  /** Sentence `i` on sit one separator apart from `offset` on. */
  predicate SpacedFrom(text: string, sentences: seq<string>, i: nat, offset: nat)
    decreases |sentences| - i
  {
    i >= |sentences| ||
      (MatchAt(text, sentences[i], offset) && SpacedFrom(text, sentences, i + 1, offset + |sentences[i]| + 1))
  }

  /** The sentences where each scheme puts them. */
  predicate PlacedFrom(scheme: Scheme, text: string, sentences: seq<string>, i: nat, offset: nat)
  {
    match scheme
    case Cumulative => SpacedFrom(text, sentences, i, offset)
    case Located => FoundFrom(text, sentences, i, offset)
  }

  predicate AllFlagged(p: Pipeline, req: HighlightRequest, hs: seq<HighlightedWord>)
  {
    forall j :: 0 <= j < |hs| ==> LegacyReported(p, req, hs[j])
  }

  /** The reports for the sentences from the `i`-th on. Entries are at their spans
      of the text whenever the sentences are where the scheme assumes. */
  function SentencesFrom(p: Pipeline, req: HighlightRequest, sentences: seq<string>, i: nat, offset: nat,
                         scheme: Scheme): (r: seq<HighlightedWord>)
    ensures AllFlagged(p, req, r)
    ensures PlacedFrom(scheme, req.text, sentences, i, offset) ==> AllSpan(req.text, r)
    ensures ReportsEach(r, TextWords(p, req, sentences, i))
    ensures PlacedEntries(p, req, sentences, i, offset, scheme, r)
    decreases |sentences| - i
  {
    if i >= |sentences| then []
    else
      var (start, next) := Placement(scheme, req.text, sentences[i], offset);
      var hs := HighlightSentence(p, req, sentences[i], start);
      var rest := SentencesFrom(p, req, sentences, i + 1, next, scheme);
      SentenceFacts(p, req, sentences, i, offset, scheme, hs, rest);
      ConcatEach(hs, rest, FlaggedAligned(p, req, sentences[i]), TextWords(p, req, sentences, i + 1));
      PlaceEntries(p, req, sentences, i, offset, scheme, hs, rest);
      hs + rest
  }

  /** Sentence by sentence from the `i`-th on, the entries are the ones
      `LegacyWord` builds for the sentence's reported words, at the start
      `scheme` gives the sentence. */
  predicate PlacedEntries(p: Pipeline, req: HighlightRequest, sentences: seq<string>, i: nat, offset: nat,
                          scheme: Scheme, hs: seq<HighlightedWord>)
    decreases |sentences| - i
  {
    if i >= |sentences| then hs == []
    else
      var n := |FlaggedAligned(p, req, sentences[i])|;
      var (start, next) := Placement(scheme, req.text, sentences[i], offset);
      && n <= |hs|
      && SentenceEntries(p, req, sentences[i], start, hs[..n])
      && PlacedEntries(p, req, sentences, i + 1, next, scheme, hs[n..])
  }

  lemma PlaceEntries(p: Pipeline, req: HighlightRequest, sentences: seq<string>, i: nat, offset: nat,
                     scheme: Scheme, hs: seq<HighlightedWord>, rest: seq<HighlightedWord>)
    requires i < |sentences| && |hs| == |FlaggedAligned(p, req, sentences[i])|
    requires SentenceEntries(p, req, sentences[i], Placement(scheme, req.text, sentences[i], offset).0, hs)
    requires PlacedEntries(p, req, sentences, i + 1, Placement(scheme, req.text, sentences[i], offset).1, scheme, rest)
    ensures PlacedEntries(p, req, sentences, i, offset, scheme, hs + rest)
  {
    assert (hs + rest)[..|hs|] == hs && (hs + rest)[|hs|..] == rest;
  }

  lemma SentenceFacts(p: Pipeline, req: HighlightRequest, sentences: seq<string>, i: nat, offset: nat,
                      scheme: Scheme, hs: seq<HighlightedWord>, rest: seq<HighlightedWord>)
    requires i < |sentences|
    requires AllReported(p, req, sentences[i], Placement(scheme, req.text, sentences[i], offset).0, hs)
    requires AllFlagged(p, req, rest)
    requires PlacedFrom(scheme, req.text, sentences, i + 1, Placement(scheme, req.text, sentences[i], offset).1) ==>
      AllSpan(req.text, rest)
    ensures AllFlagged(p, req, hs + rest)
    ensures PlacedFrom(scheme, req.text, sentences, i, offset) ==> AllSpan(req.text, hs + rest)
  {
    var start := Placement(scheme, req.text, sentences[i], offset).0;
    if PlacedFrom(scheme, req.text, sentences, i, offset) {
      assert MatchAt(req.text, sentences[i], start);
      forall j | 0 <= j < |hs|
        ensures Spans(req.text, hs[j])
      {
        SpansInText(req.text, sentences[i], start, hs[j]);
      }
    }
  }

  /** A response to `req`: the text echoed, the count of its entries and
      sentences, one entry for each flagged word with an alignment in each
      sentence, in order, every entry flagged, and every entry at its span
      whenever the sentences are where `scheme` assumes. */
  predicate Answers(p: Pipeline, req: HighlightRequest, scheme: Scheme, resp: HighlightResponse)
  {
    && resp.originalText == req.text
    && resp.totalHighlighted == |resp.highlightedWords|
    && resp.sentenceCount == |SplitSentences(p, req.text)|
    && ReportsEach(resp.highlightedWords, TextWords(p, req, SplitSentences(p, req.text), 0))
    && PlacedEntries(p, req, SplitSentences(p, req.text), 0, 0, scheme, resp.highlightedWords)
    && AllFlagged(p, req, resp.highlightedWords)
    && (PlacedFrom(scheme, req.text, SplitSentences(p, req.text), 0, 0) ==> AllSpan(req.text, resp.highlightedWords))
  }

  /** The handler with sentence positions by `scheme`. */
  function Handle(pipeline: Option<Pipeline>, req: HighlightRequest, scheme: Scheme)
    : (r: Result<HighlightResponse, HttpError>)
    ensures CheckRequest(pipeline.Some?, req.text).Some? ==> r == Failure(CheckRequest(pipeline.Some?, req.text).value)
    ensures CheckRequest(pipeline.Some?, req.text).None? ==> r.Success? && Answers(pipeline.value, req, scheme, r.value)
  {
    match CheckRequest(pipeline.Some?, req.text)
    case Some(e) => Failure(e)
    case None =>
      var p := pipeline.value;
      var sentences := SplitSentences(p, req.text);
      var hs := SentencesFrom(p, req, sentences, 0, 0, scheme);
      Success(HighlightResponse(req.text, hs, |hs|, |sentences|))
  }

  /** `highlight_text` with each sentence found in the text: 503 without a
      pipeline, then 400 for a blank text, and otherwise a response whose entries
      are at their spans whenever every sentence is found. */
  function HighlightText(pipeline: Option<Pipeline>, req: HighlightRequest): (r: Result<HighlightResponse, HttpError>)
    ensures pipeline.None? ==> r == Failure(ServiceUnavailable)
    ensures pipeline.Some? && IsBlank(req.text) ==> r == Failure(BadRequest)
    ensures pipeline.Some? && !IsBlank(req.text) ==> r.Success? && Answers(pipeline.value, req, Located, r.value)
  {
    Handle(pipeline, req, Located)
  }

  /** `highlight_text` as written, positions by the running sum: right whenever
      the sentences are one separator apart. */
  function HighlightTextAsWritten(pipeline: Option<Pipeline>, req: HighlightRequest)
    : (r: Result<HighlightResponse, HttpError>)
    ensures pipeline.None? ==> r == Failure(ServiceUnavailable)
    ensures pipeline.Some? && IsBlank(req.text) ==> r == Failure(BadRequest)
    ensures pipeline.Some? && !IsBlank(req.text) ==> r.Success? && Answers(pipeline.value, req, Cumulative, r.value)
  {
    Handle(pipeline, req, Cumulative)
  }

  /** Sentences joined by single spaces are one separator apart. */
  lemma {:induction false} JoinedAreSpaced(sentences: seq<string>, i: nat, prefix: string)
    requires i <= |sentences|
    ensures i < |sentences| ==> SpacedFrom(prefix + Join(sentences[i..], ' '), sentences, i, |prefix|)
    decreases |sentences| - i
  {
    if i < |sentences| {
      var text := prefix + Join(sentences[i..], ' ');
      var s := sentences[i];
      if i + 1 == |sentences| {
        assert sentences[i..] == [s];
        assert text == prefix + s;
        assert text[|prefix|..|prefix| + |s|] == s;
      } else {
        var rest := sentences[i + 1..];
        assert sentences[i..] == [s] + rest;
        assert Join(sentences[i..], ' ') == s + [' '] + Join(rest, ' ');
        var prefix' := prefix + s + [' '];
        assert text == prefix' + Join(rest, ' ');
        assert text[|prefix|..|prefix| + |s|] == s;
        JoinedAreSpaced(sentences, i + 1, prefix');
      }
    }
  }

  /** Text that is exactly its sentences joined by single spaces gets every
      entry at its span from the handler as written. */
  lemma AsWrittenRightForSingleSpaces(pipeline: Option<Pipeline>, req: HighlightRequest)
    requires pipeline.Some? && |SplitSentences(pipeline.value, req.text)| > 0
    requires req.text == Join(SplitSentences(pipeline.value, req.text), ' ')
    ensures var r := HighlightTextAsWritten(pipeline, req);
      r.Success? ==> AllSpan(req.text, r.value.highlightedWords)
  {
    var sentences := SplitSentences(pipeline.value, req.text);
    JoinedAreSpaced(sentences, 0, "");
    assert sentences[0..] == sentences;
    assert "" + Join(sentences, ' ') == req.text;
  }

  /** With two spaces between "Hi." and "Yo.", the running sum puts the second
      sentence at 4, where it is not; the search finds it at 5. */
  lemma CumulativeOffsetDrifts()
    ensures Placement(Cumulative, "Hi.  Yo.", "Hi.", 0) == (0, 4)
    ensures Placement(Cumulative, "Hi.  Yo.", "Yo.", 4).0 == 4 && !MatchAt("Hi.  Yo.", "Yo.", 4)
    ensures Placement(Located, "Hi.  Yo.", "Hi.", 0) == (0, 3)
    ensures Placement(Located, "Hi.  Yo.", "Yo.", 3).0 == 5 && MatchAt("Hi.  Yo.", "Yo.", 5)
  {
    var text := "Hi.  Yo.";
    assert text[0..3] == "Hi.";
    assert text[4..7] != "Yo." by { assert text[4..7][0] == ' '; }
    assert text[3..6] != "Yo." by { assert text[3..6][0] == ' '; }
    assert text[5..8] == "Yo.";
    assert Find(text, "Hi.", 0) == Some(0);
    assert Find(text, "Yo.", 5) == Some(5);
    assert Find(text, "Yo.", 4) == Some(5);
    assert Find(text, "Yo.", 3) == Some(5);
  }
}

=== FILE: backend_api_server.dfy ===
/** The highlight handler of backend/api_server.py: split the text into sentences,
    locate each sentence in the text, score its words with the request's
    thresholds, and report every flagged word that has at least one suggestion
    worth showing, at its position in the whole text.

    In the source the name `filtered_candidates` is bound only when a word has
    candidates, but the evaluation loop reads it for every word. The model keeps
    both readings: `Scoped` evaluates nothing for a word without candidates, as
    the streaming handler of the same file does, and `AsWritten` evaluates
    whatever list an earlier word left bound, or fails when there is none. */
module BackendApiServer {
  import opened Wrappers
  import opened PyText
  import opened Seqs
  import opened TokenizerUtils
  import opened Scorer
  import opened CandidateGenerator
  import opened LinguisticConstraints
  import opened RefinementPipeline
  import opened HighlightApi

  /** `send_progress`'s `progress`: the fraction done, 0 when there is no total. */
  function Progress(current: int, total: int): (r: real)
    ensures total > 0 ==> r * (total as real) == current as real
    ensures total <= 0 ==> r == 0.0
    ensures total > 0 && 0 <= current <= total ==> 0.0 <= r <= 1.0
  {
    if total > 0 then (current as real) / (total as real) else 0.0
  }

  // ---------------------------------------------------------------- suggestions

  /** Suggestions whose gain is below this are dropped before any other test. */
  const MinSuggestionGain: real := 0.5

  predicate FluentEnough(sg: Suggestion)
  {
    sg.pllGain >= MinSuggestionGain
  }

  /** `suggestions[:top_suggestions]` over the evaluations that keep fluency:
      each evaluation gaining less than `MinSuggestionGain` is dropped, the rest
      keep their order and are cut to `top`. */
  function Suggestions(evaluated: seq<Suggestion>, top: int): (r: seq<Suggestion>)
    ensures FirstFluent(r, evaluated, top)
    ensures |r| <= |evaluated| && (top >= 0 ==> |r| <= top)
    ensures IsSubsequence(r, evaluated)
    ensures forall i :: 0 <= i < |r| ==> r[i].pllGain >= MinSuggestionGain
    ensures top >= |evaluated| ==>
      forall i :: 0 <= i < |evaluated| && evaluated[i].pllGain >= MinSuggestionGain ==> evaluated[i] in r
  {
    var fluent := Filter(evaluated, FluentEnough);
    var r := PyTake(fluent, top);
    PrefixOfSubsequence(fluent, evaluated, |r|);
    assert top >= |evaluated| ==> r == fluent;
    r
  }

  /** `r` is how much of the fluent evaluations, in order, a slice `[:top]` keeps:
      the first `top` of them for a non-negative `top`, and all but the last `-top`
      otherwise. */
  predicate FirstFluent(r: seq<Suggestion>, evaluated: seq<Suggestion>, top: int)
  {
    var fluent := Filter(evaluated, FluentEnough);
    && |r| <= |fluent| && r == fluent[..|r|]
    && (top >= 0 ==> |r| == if top < |fluent| then top else |fluent|)
    && (top < 0 ==> |r| == if |fluent| + top > 0 then |fluent| + top else 0)
  }

  /** The evaluations of a word's first ten candidates, one per candidate, in order. */
  function FirstTenEvaluated(p: Pipeline, sentence: string, ids: seq<int>, a: WordAlignment, cands: seq<Candidate>)
    : (r: seq<Suggestion>)
    requires a.tokenStart <= a.tokenEnd <= |ids|
    ensures |r| <= MaxTrials
    ensures |r| == (if |cands| < MaxTrials then |cands| else MaxTrials)
    ensures forall i :: 0 <= i < |r| ==> r[i] == Evaluate(p, sentence, ids, a, cands[i])
    ensures forall i :: 0 <= i < |r| ==> Gated(p, r[i])
  {
    Evaluations(p, sentence, ids, a, PyTake(cands, MaxTrials))
  }

  /** A subsequence of gated suggestions is gated. */
  lemma GatedSubsequence(p: Pipeline, r: seq<Suggestion>, evaluated: seq<Suggestion>)
    requires IsSubsequence(r, evaluated) && forall i :: 0 <= i < |evaluated| ==> Gated(p, evaluated[i])
    ensures forall i :: 0 <= i < |r| ==> Gated(p, r[i])
  {
    SubsequenceMembers(r, evaluated);
  }

  // ---------------------------------------------------------------- the candidate list

  /** How the evaluation loop's list is bound for a word. */
  datatype Scope = AsWritten | Scoped

  /** The list the evaluation loop walks for a word whose generated candidates are
      `generated` and compatible ones `compatible`, given the list `bound` that an
      earlier word left in the name, if any. A failure is the `NameError` the
      handler turns into a 500. */
  function LoopCandidates(scope: Scope, generated: seq<Candidate>, compatible: seq<Candidate>,
                          bound: Option<seq<Candidate>>): (r: Result<seq<Candidate>, HttpError>)
    ensures |generated| > 0 ==> r == Success(compatible)
    ensures scope == Scoped ==> r.Success? && (|generated| == 0 ==> r.value == [])
    ensures scope == AsWritten && |generated| == 0 ==>
      (r.Success? <==> bound.Some?) && (bound.Some? ==> r.value == bound.value)
    ensures r.Failure? ==> r.error == InternalError
  {
    if |generated| > 0 then Success(compatible)
    else match scope
      case Scoped => Success([])
      case AsWritten => if bound.Some? then Success(bound.value) else Failure(InternalError)
  }

  /** What the name holds after the word: its own compatible list when it had
      candidates, otherwise what it held before. */
  function Rebind(generated: seq<Candidate>, compatible: seq<Candidate>, bound: Option<seq<Candidate>>)
    : Option<seq<Candidate>>
  {
    if |generated| > 0 then Some(compatible) else bound
  }

  // ---------------------------------------------------------------- one word

  /** A word as this handler reports it: flagged, at least one suggestion and no
      more than asked for, each gaining at least `MinSuggestionGain`. */
  predicate Reported(p: Pipeline, req: HighlightRequest, h: HighlightedWord)
  {
    && Flagged(p, req, h)
    && 0 < |h.suggestions| <= MaxTrials
    && (req.topSuggestions >= 0 ==> |h.suggestions| <= req.topSuggestions)
    && forall i :: 0 <= i < |h.suggestions| ==> h.suggestions[i].pllGain >= MinSuggestionGain
  }

  /** The generated candidates of a word and the compatible ones among them. */
  function WordCandidates(p: Pipeline, sentence: string, ids: seq<int>, a: WordAlignment, word: string)
    : (r: (seq<Candidate>, seq<Candidate>))
    requires TokensValid(a, ids)
  {
    var generated := GenerateCandidates(p.models.lm, p.models.tok, ids, a, word, p.config.topKCandidates);
    (generated, CompatibleCandidates(p.models.tagger, sentence, word, generated))
  }

  /** The entry for the word, if it has suggestions. */
  function Report(p: Pipeline, req: HighlightRequest, s: WordScore, a: WordAlignment, start: nat,
                  sugg: seq<Suggestion>): (r: Option<HighlightedWord>)
    ensures r.None? <==> |sugg| == 0
    ensures r.Some? ==> r.value == Highlight(req, s, a, start, sugg)
  {
    if |sugg| == 0 then None else Some(Highlight(req, s, a, start, sugg))
  }

  /** What `HighlightWord` reports for a flagged word `s`: the entry built from
      the word's alignment, with between one and `MaxTrials` suggestions, no more
      than asked for, each fluent enough and gated. */
  predicate WordReported(p: Pipeline, req: HighlightRequest, als: seq<WordAlignment>, s: WordScore, start: nat,
                         h: HighlightedWord)
  {
    && FindAlignment(als, s.wordIdx).Some?
    && h == Highlight(req, s, als[FindAlignment(als, s.wordIdx).value], start, h.suggestions)
    && 0 < |h.suggestions| <= MaxTrials
    && (req.topSuggestions >= 0 ==> |h.suggestions| <= req.topSuggestions)
    && forall i :: 0 <= i < |h.suggestions| ==>
      h.suggestions[i].pllGain >= MinSuggestionGain && Gated(p, h.suggestions[i])
  }

  /** The suggestions for a word from the candidate list its loop walks. */
  function WordSuggestions(p: Pipeline, req: HighlightRequest, sentence: string, ids: seq<int>, a: WordAlignment,
                           cands: seq<Candidate>): (r: seq<Suggestion>)
    requires a.tokenStart <= a.tokenEnd <= |ids|
    ensures FirstFluent(r, FirstTenEvaluated(p, sentence, ids, a, cands), req.topSuggestions)
    ensures |r| <= MaxTrials && (req.topSuggestions >= 0 ==> |r| <= req.topSuggestions)
    ensures forall i :: 0 <= i < |r| ==> r[i].pllGain >= MinSuggestionGain && Gated(p, r[i])
  {
    var evaluated := FirstTenEvaluated(p, sentence, ids, a, cands);
    var r := Suggestions(evaluated, req.topSuggestions);
    GatedSubsequence(p, r, evaluated);
    r
  }

  /** One flagged word: find its alignment (skip it without one), evaluate its
      candidate list, and report it if any suggestion survives. Comes back with
      what the candidate-list name holds afterwards. */
  function HighlightWord(p: Pipeline, req: HighlightRequest, sentence: string, enc: seq<TokenPiece>,
                         als: seq<WordAlignment>, s: WordScore, start: nat, bound: Option<seq<Candidate>>,
                         scope: Scope): (r: Result<(Option<HighlightedWord>, Option<seq<Candidate>>), HttpError>)
    requires forall j :: 0 <= j < |als| ==> AlignedTo(als[j], sentence, enc)
    ensures scope == Scoped ==> r.Success?
    ensures r.Failure? ==> r.error == InternalError
    ensures FindAlignment(als, s.wordIdx).None? ==> r == Success((None, bound))
    ensures r.Success? && r.value.0.Some? ==> WordReported(p, req, als, s, start, r.value.0.value)
  {
    match FindAlignment(als, s.wordIdx)
    case None => Success((None, bound))
    case Some(k) =>
      var a := als[k];
      assert AlignedTo(a, sentence, enc);
      var ids := Ids(enc);
      var (generated, compatible) := WordCandidates(p, sentence, ids, a, s.wordText);
      match LoopCandidates(scope, generated, compatible, bound)
      case Failure(e) => Failure(e)
      case Success(cands) =>
        var sugg := WordSuggestions(p, req, sentence, ids, a, cands);
        ReportFacts(p, req, als, s, start, k, sugg);
        Success((Report(p, req, s, a, start, sugg), Rebind(generated, compatible, bound)))
  }

  lemma ReportFacts(p: Pipeline, req: HighlightRequest, als: seq<WordAlignment>, s: WordScore, start: nat, k: nat,
                    sugg: seq<Suggestion>)
    requires FindAlignment(als, s.wordIdx) == Some(k)
    requires |sugg| <= MaxTrials && (req.topSuggestions >= 0 ==> |sugg| <= req.topSuggestions)
    requires forall i :: 0 <= i < |sugg| ==> sugg[i].pllGain >= MinSuggestionGain && Gated(p, sugg[i])
    ensures Report(p, req, s, als[k], start, sugg).Some? ==>
      WordReported(p, req, als, s, start, Report(p, req, s, als[k], start, sugg).value)
  {
  }

  /** With the list scoped to the word, a word without generated candidates is
      never reported, and a reported word's suggestions come from its own
      compatible candidates. */
  lemma ScopedUsesOwnCandidates(p: Pipeline, req: HighlightRequest, sentence: string, enc: seq<TokenPiece>,
                                als: seq<WordAlignment>, s: WordScore, start: nat, bound: Option<seq<Candidate>>)
    requires forall j :: 0 <= j < |als| ==> AlignedTo(als[j], sentence, enc)
    requires FindAlignment(als, s.wordIdx).Some?
    ensures var a := als[FindAlignment(als, s.wordIdx).value];
      var r := HighlightWord(p, req, sentence, enc, als, s, start, bound, Scoped);
      && TokensValid(a, Ids(enc))
      && var (generated, compatible) := WordCandidates(p, sentence, Ids(enc), a, s.wordText);
      && (|generated| == 0 ==> r.value.0 == None)
      && (r.value.0.Some? ==>
            IsSubsequence(r.value.0.value.suggestions, FirstTenEvaluated(p, sentence, Ids(enc), a, compatible)))
  {
    var a := als[FindAlignment(als, s.wordIdx).value];
    FoundWordShape(p, req, sentence, enc, als, s, start, bound, Scoped);
    var (generated, compatible) := WordCandidates(p, sentence, Ids(enc), a, s.wordText);
    ScopedSuggestions(p, req, sentence, Ids(enc), a, generated, compatible, bound);
  }

  /** With the list scoped to the word, no generated candidates means no
      suggestions, and otherwise the suggestions are drawn from the word's own
      compatible candidates. */
  lemma ScopedSuggestions(p: Pipeline, req: HighlightRequest, sentence: string, ids: seq<int>, a: WordAlignment,
                          generated: seq<Candidate>, compatible: seq<Candidate>, bound: Option<seq<Candidate>>)
    requires a.tokenStart <= a.tokenEnd <= |ids|
    ensures var sugg := WordSuggestions(p, req, sentence, ids, a, LoopCandidates(Scoped, generated, compatible, bound).value);
      && (|generated| == 0 ==> sugg == [])
      && IsSubsequence(sugg, FirstTenEvaluated(p, sentence, ids, a, compatible))
  {
    var cands := LoopCandidates(Scoped, generated, compatible, bound).value;
    var evaluated := FirstTenEvaluated(p, sentence, ids, a, cands);
    if |generated| == 0 {
      assert |evaluated| == 0;
    } else {
      assert cands == compatible;
    }
  }

  /** As written, a word without generated candidates is evaluated against the
      list an earlier word left bound, and when no earlier word had candidates the
      request fails with a 500. */
  lemma AsWrittenReusesEarlierList(p: Pipeline, req: HighlightRequest, sentence: string, enc: seq<TokenPiece>,
                                   als: seq<WordAlignment>, s: WordScore, start: nat, bound: Option<seq<Candidate>>)
    requires forall j :: 0 <= j < |als| ==> AlignedTo(als[j], sentence, enc)
    requires FindAlignment(als, s.wordIdx).Some?
    ensures var a := als[FindAlignment(als, s.wordIdx).value];
      var r := HighlightWord(p, req, sentence, enc, als, s, start, bound, AsWritten);
      && TokensValid(a, Ids(enc))
      && (WordCandidates(p, sentence, Ids(enc), a, s.wordText).0 == [] ==>
            && (bound.None? ==> r == Failure(InternalError))
            && (bound.Some? ==>
                  r == Success((Report(p, req, s, a, start, WordSuggestions(p, req, sentence, Ids(enc), a, bound.value)),
                                bound))))
  {
    FoundWordShape(p, req, sentence, enc, als, s, start, bound, AsWritten);
  }

  /** `HighlightWord` for a word that has an alignment: the outcome of its
      candidate list, reported through `WordSuggestions`. */
  lemma FoundWordShape(p: Pipeline, req: HighlightRequest, sentence: string, enc: seq<TokenPiece>,
                       als: seq<WordAlignment>, s: WordScore, start: nat, bound: Option<seq<Candidate>>, scope: Scope)
    requires forall j :: 0 <= j < |als| ==> AlignedTo(als[j], sentence, enc)
    requires FindAlignment(als, s.wordIdx).Some?
    ensures var a := als[FindAlignment(als, s.wordIdx).value];
      && TokensValid(a, Ids(enc))
      && var (generated, compatible) := WordCandidates(p, sentence, Ids(enc), a, s.wordText);
      && var r := HighlightWord(p, req, sentence, enc, als, s, start, bound, scope);
      && (LoopCandidates(scope, generated, compatible, bound).Failure? ==> r == Failure(InternalError))
      && (LoopCandidates(scope, generated, compatible, bound).Success? ==>
            r == Success((Report(p, req, s, a, start,
                                 WordSuggestions(p, req, sentence, Ids(enc), a,
                                                 LoopCandidates(scope, generated, compatible, bound).value)),
                          Rebind(generated, compatible, bound))))
  {
    assert AlignedTo(als[FindAlignment(als, s.wordIdx).value], sentence, enc);
  }

  /** The entry a flagged word deserves on its own: its alignment, and the
      suggestions from its own compatible candidates; nothing when it has no
      alignment or no suggestion survives. */
  function OwnReport(p: Pipeline, req: HighlightRequest, sentence: string, enc: seq<TokenPiece>,
                     als: seq<WordAlignment>, s: WordScore, start: nat): (r: Option<HighlightedWord>)
    requires forall j :: 0 <= j < |als| ==> AlignedTo(als[j], sentence, enc)
    ensures FindAlignment(als, s.wordIdx).None? ==> r.None?
    ensures r.Some? ==> WordReported(p, req, als, s, start, r.value)
  {
    match FindAlignment(als, s.wordIdx)
    case None => None
    case Some(k) =>
      assert AlignedTo(als[k], sentence, enc);
      var compatible := WordCandidates(p, sentence, Ids(enc), als[k], s.wordText).1;
      var sugg := WordSuggestions(p, req, sentence, Ids(enc), als[k], compatible);
      ReportFacts(p, req, als, s, start, k, sugg);
      Report(p, req, s, als[k], start, sugg)
  }

  /** With the list scoped to the word, what an earlier word left bound makes no
      difference: the word gets exactly the entry it deserves on its own. */
  lemma ScopedIsOwnReport(p: Pipeline, req: HighlightRequest, sentence: string, enc: seq<TokenPiece>,
                          als: seq<WordAlignment>, s: WordScore, start: nat, bound: Option<seq<Candidate>>)
    requires forall j :: 0 <= j < |als| ==> AlignedTo(als[j], sentence, enc)
    ensures HighlightWord(p, req, sentence, enc, als, s, start, bound, Scoped).value.0 ==
            OwnReport(p, req, sentence, enc, als, s, start)
  {
    if FindAlignment(als, s.wordIdx).Some? {
      var a := als[FindAlignment(als, s.wordIdx).value];
      FoundWordShape(p, req, sentence, enc, als, s, start, bound, Scoped);
      var (generated, compatible) := WordCandidates(p, sentence, Ids(enc), a, s.wordText);
      if |generated| == 0 {
        assert compatible == [];
      }
      assert LoopCandidates(Scoped, generated, compatible, bound).value == compatible;
    }
  }

  /** As written, a word that has generated candidates gets the entry it deserves
      on its own, and so does a word without an alignment; the leak needs a word
      without candidates. */
  lemma AsWrittenWithCandidatesIsOwnReport(p: Pipeline, req: HighlightRequest, sentence: string,
                                           enc: seq<TokenPiece>, als: seq<WordAlignment>, s: WordScore, start: nat,
                                           bound: Option<seq<Candidate>>)
    requires forall j :: 0 <= j < |als| ==> AlignedTo(als[j], sentence, enc)
    requires HasCandidates(p, sentence, enc, als, s)
    ensures var r := HighlightWord(p, req, sentence, enc, als, s, start, bound, AsWritten);
      r.Success? && r.value.0 == OwnReport(p, req, sentence, enc, als, s, start)
  {
    if FindAlignment(als, s.wordIdx).Some? {
      var a := als[FindAlignment(als, s.wordIdx).value];
      FoundWordShape(p, req, sentence, enc, als, s, start, bound, AsWritten);
      var (generated, compatible) := WordCandidates(p, sentence, Ids(enc), a, s.wordText);
      assert LoopCandidates(AsWritten, generated, compatible, bound) == Success(compatible);
    }
  }

  /** The word has no alignment, or some generated candidate. */
  predicate HasCandidates(p: Pipeline, sentence: string, enc: seq<TokenPiece>, als: seq<WordAlignment>, s: WordScore)
    requires forall j :: 0 <= j < |als| ==> AlignedTo(als[j], sentence, enc)
  {
    FindAlignment(als, s.wordIdx).Some? ==>
      var a := als[FindAlignment(als, s.wordIdx).value];
      assert AlignedTo(a, sentence, enc);
      |WordCandidates(p, sentence, Ids(enc), a, s.wordText).0| > 0
  }

  /** When at least one suggestion is asked for, some suggestion survives exactly
      when some evaluation gains at least `MinSuggestionGain`. */
  lemma SuggestionsNonEmptyIff(evaluated: seq<Suggestion>, top: int)
    requires top > 0
    ensures |Suggestions(evaluated, top)| > 0 <==>
      exists i :: 0 <= i < |evaluated| && evaluated[i].pllGain >= MinSuggestionGain
  {
    var fluent := Filter(evaluated, FluentEnough);
    if exists i :: 0 <= i < |evaluated| && evaluated[i].pllGain >= MinSuggestionGain {
      var i :| 0 <= i < |evaluated| && evaluated[i].pllGain >= MinSuggestionGain;
      assert FluentEnough(evaluated[i]);
      assert evaluated[i] in fluent;
    } else {
      FilterNone(evaluated, FluentEnough);
    }
  }

  /** When at least one suggestion is asked for, a word with an alignment is
      reported on its own exactly when one of its first ten compatible candidates
      gains at least `MinSuggestionGain`. */
  lemma OwnReportIffFluentCandidate(p: Pipeline, req: HighlightRequest, sentence: string, enc: seq<TokenPiece>,
                                    als: seq<WordAlignment>, s: WordScore, start: nat)
    requires forall j :: 0 <= j < |als| ==> AlignedTo(als[j], sentence, enc)
    requires FindAlignment(als, s.wordIdx).Some? && req.topSuggestions > 0
    ensures var a := als[FindAlignment(als, s.wordIdx).value];
      && TokensValid(a, Ids(enc))
      && var compatible := WordCandidates(p, sentence, Ids(enc), a, s.wordText).1;
      && (OwnReport(p, req, sentence, enc, als, s, start).Some? <==>
            exists i :: 0 <= i < |compatible| && i < MaxTrials &&
              Evaluate(p, sentence, Ids(enc), a, compatible[i]).pllGain >= MinSuggestionGain)
  {
    var a := als[FindAlignment(als, s.wordIdx).value];
    assert AlignedTo(a, sentence, enc);
    var compatible := WordCandidates(p, sentence, Ids(enc), a, s.wordText).1;
    var evaluated := FirstTenEvaluated(p, sentence, Ids(enc), a, compatible);
    SuggestionsNonEmptyIff(evaluated, req.topSuggestions);
    assert WordSuggestions(p, req, sentence, Ids(enc), a, compatible) == Suggestions(evaluated, req.topSuggestions);
    FluentEvaluation(p, sentence, Ids(enc), a, compatible);
  }

  /** Some of the first ten evaluations is fluent enough exactly when one of the
      first ten candidates gains enough. */
  lemma FluentEvaluation(p: Pipeline, sentence: string, ids: seq<int>, a: WordAlignment, cands: seq<Candidate>)
    requires a.tokenStart <= a.tokenEnd <= |ids|
    ensures var evaluated := FirstTenEvaluated(p, sentence, ids, a, cands);
      (exists i :: 0 <= i < |evaluated| && evaluated[i].pllGain >= MinSuggestionGain) <==>
      exists i :: 0 <= i < |cands| && i < MaxTrials && Evaluate(p, sentence, ids, a, cands[i]).pllGain >= MinSuggestionGain
  {
    var evaluated := FirstTenEvaluated(p, sentence, ids, a, cands);
    if exists i :: 0 <= i < |cands| && i < MaxTrials && Evaluate(p, sentence, ids, a, cands[i]).pllGain >= MinSuggestionGain {
      var i :| 0 <= i < |cands| && i < MaxTrials && Evaluate(p, sentence, ids, a, cands[i]).pllGain >= MinSuggestionGain;
      assert evaluated[i] == Evaluate(p, sentence, ids, a, cands[i]);
    }
  }

  // ---------------------------------------------------------------- one sentence

  /** Every entry is reported and sits at its span of the sentence starting at
      `start`. */
  predicate AllReported(p: Pipeline, req: HighlightRequest, sentence: string, start: nat, hs: seq<HighlightedWord>)
  {
    forall i :: 0 <= i < |hs| ==> Reported(p, req, hs[i]) && Spans(sentence, Shift(hs[i], -(start as int)))
  }

  /** The flagged words of a sentence from the `k`-th on, in order. */
  function WordsFrom(p: Pipeline, req: HighlightRequest, sentence: string, enc: seq<TokenPiece>,
                     words: seq<string>, als: seq<WordAlignment>, clunky: seq<WordScore>, k: nat, start: nat,
                     bound: Option<seq<Candidate>>, scope: Scope)
    : (r: Result<(seq<HighlightedWord>, Option<seq<Candidate>>), HttpError>)
    requires AlignmentsOf(als, sentence, enc, words) && FlaggedOf(clunky, words, req)
    ensures scope == Scoped ==> r.Success?
    ensures r.Failure? ==> r.error == InternalError
    ensures r.Success? ==> AllReported(p, req, sentence, start, r.value.0)
    ensures scope == Scoped ==> r.value.0 == OwnReports(p, req, sentence, enc, als, clunky, k, start)
    decreases |clunky| - k
  {
    if k >= |clunky| then Success(([], bound))
    else
      var step := HighlightWord(p, req, sentence, enc, als, clunky[k], start, bound, scope);
      ScopedIsOwnReport(p, req, sentence, enc, als, clunky[k], start, bound);
      if step.Failure? then Failure(step.error)
      else
        var rest := WordsFrom(p, req, sentence, enc, words, als, clunky, k + 1, start, step.value.1, scope);
        if rest.Failure? || step.value.0.None? then rest
        else
          var h := step.value.0.value;
          WordFacts(p, req, sentence, enc, words, als, clunky, k, clunky[k], start, h);
          ConsReported(p, req, sentence, start, h, rest.value.0);
          Success(([h] + rest.value.0, rest.value.1))
  }

  /** The entries the flagged words from the `k`-th on deserve on their own, in
      order. */
  function OwnReports(p: Pipeline, req: HighlightRequest, sentence: string, enc: seq<TokenPiece>,
                      als: seq<WordAlignment>, clunky: seq<WordScore>, k: nat, start: nat): seq<HighlightedWord>
    requires forall j :: 0 <= j < |als| ==> AlignedTo(als[j], sentence, enc)
    decreases |clunky| - k
  {
    if k >= |clunky| then []
    else match OwnReport(p, req, sentence, enc, als, clunky[k], start)
      case None => OwnReports(p, req, sentence, enc, als, clunky, k + 1, start)
      case Some(h) => [h] + OwnReports(p, req, sentence, enc, als, clunky, k + 1, start)
  }

  /** As written, the flagged words come out as they deserve on their own when
      every one of them that has an alignment has generated candidates, whatever
      list an earlier sentence left bound. */
  lemma {:induction false} AsWrittenWithCandidatesAgrees(p: Pipeline, req: HighlightRequest, sentence: string,
                                                         enc: seq<TokenPiece>, words: seq<string>,
                                                         als: seq<WordAlignment>, clunky: seq<WordScore>, k: nat,
                                                         start: nat, bound: Option<seq<Candidate>>)
    requires AlignmentsOf(als, sentence, enc, words) && FlaggedOf(clunky, words, req)
    requires forall j :: k <= j < |clunky| ==> HasCandidates(p, sentence, enc, als, clunky[j])
    ensures var r := WordsFrom(p, req, sentence, enc, words, als, clunky, k, start, bound, AsWritten);
      r.Success? && r.value.0 == OwnReports(p, req, sentence, enc, als, clunky, k, start)
    decreases |clunky| - k
  {
    if k < |clunky| {
      var step := HighlightWord(p, req, sentence, enc, als, clunky[k], start, bound, AsWritten);
      AsWrittenWithCandidatesIsOwnReport(p, req, sentence, enc, als, clunky[k], start, bound);
      AsWrittenWithCandidatesAgrees(p, req, sentence, enc, words, als, clunky, k + 1, start, step.value.1);
    }
  }

  lemma ConsReported(p: Pipeline, req: HighlightRequest, sentence: string, start: nat, h: HighlightedWord,
                     rest: seq<HighlightedWord>)
    requires Reported(p, req, h) && Spans(sentence, Shift(h, -(start as int)))
    requires AllReported(p, req, sentence, start, rest)
    ensures AllReported(p, req, sentence, start, [h] + rest)
  {
  }

  /** The entry `HighlightWord` produces for a flagged word is reported and sits
      at its span of the sentence. */
  lemma WordFacts(p: Pipeline, req: HighlightRequest, sentence: string, enc: seq<TokenPiece>,
                  words: seq<string>, als: seq<WordAlignment>, clunky: seq<WordScore>, k: nat, s: WordScore, start: nat,
                  h: HighlightedWord)
    requires AlignmentsOf(als, sentence, enc, words) && FlaggedOf(clunky, words, req) && k < |clunky| && s == clunky[k]
    requires WordReported(p, req, als, s, start, h)
    ensures Reported(p, req, h) && Spans(sentence, Shift(h, -(start as int)))
  {
    var a := als[FindAlignment(als, s.wordIdx).value];
    assert AlignmentsOf([a], sentence, enc, words);
    assert FlaggedOf([s], words, req);
    HighlightFacts(p, req, sentence, enc, words, s, a, start, h.suggestions);
  }

  /** One sentence starting at `start` in the text: score its words with the
      request's thresholds and report its flagged words. */
  function HighlightSentence(p: Pipeline, req: HighlightRequest, sentence: string, start: nat,
                             bound: Option<seq<Candidate>>, scope: Scope)
    : (r: Result<(seq<HighlightedWord>, Option<seq<Candidate>>), HttpError>)
    ensures scope == Scoped ==> r.Success?
    ensures r.Failure? ==> r.error == InternalError
    ensures r.Success? ==> AllReported(p, req, sentence, start, r.value.0)
    ensures scope == Scoped ==> r.value.0 == SentenceOwnReports(p, req, sentence, start)
  {
    var an := Analyse(p, req, sentence);
    if |an.clunky| == 0 then Success(([], bound))
    else WordsFrom(p, req, sentence, an.enc, an.words, an.als, an.clunky, 0, start, bound, scope)
  }

  /** The entries the flagged words of a sentence starting at `start` deserve on
      their own, in word order. */
  function SentenceOwnReports(p: Pipeline, req: HighlightRequest, sentence: string, start: nat): seq<HighlightedWord>
  {
    var an := Analyse(p, req, sentence);
    OwnReports(p, req, sentence, an.enc, an.als, an.clunky, 0, start)
  }

  /** Every flagged word of the sentence that has an alignment has generated
      candidates. */
  predicate SentenceHasCandidates(p: Pipeline, req: HighlightRequest, sentence: string)
  {
    var an := Analyse(p, req, sentence);
    forall j :: 0 <= j < |an.clunky| ==> HasCandidates(p, sentence, an.enc, an.als, an.clunky[j])
  }

  /** As written, a sentence whose flagged words all have candidates comes out as
      its words deserve on their own, whatever list is bound on entry. */
  lemma AsWrittenSentenceAgrees(p: Pipeline, req: HighlightRequest, sentence: string, start: nat,
                                bound: Option<seq<Candidate>>)
    requires SentenceHasCandidates(p, req, sentence)
    ensures var r := HighlightSentence(p, req, sentence, start, bound, AsWritten);
      r.Success? && r.value.0 == SentenceOwnReports(p, req, sentence, start)
  {
    var an := Analyse(p, req, sentence);
    AsWrittenWithCandidatesAgrees(p, req, sentence, an.enc, an.words, an.als, an.clunky, 0, start, bound);
  }

  // ---------------------------------------------------------------- the whole text

  /** The entries the sentences from the `i`-th on deserve on their own,
      concatenated in sentence order, each sentence placed at the first occurrence
      at or after the end of the previous one (or at that end when the search
      fails). */
  function TextOwnReports(p: Pipeline, req: HighlightRequest, sentences: seq<string>, i: nat, offset: nat)
    : seq<HighlightedWord>
    decreases |sentences| - i
  {
    if i >= |sentences| then []
    else
      SentenceOwnReports(p, req, sentences[i], SentenceStart(req.text, sentences[i], offset)) +
      TextOwnReports(p, req, sentences, i + 1, SentenceEnd(req.text, sentences[i], offset))
  }

  /** Where the search for the next sentence starts: the end of this one. */
  function SentenceEnd(text: string, sentence: string, offset: nat): nat
  {
    SentenceStart(text, sentence, offset) + |sentence|
  }

  predicate AllFlagged(p: Pipeline, req: HighlightRequest, hs: seq<HighlightedWord>)
  {
    forall j :: 0 <= j < |hs| ==> Reported(p, req, hs[j])
  }

  /** The reports for the sentences from the `i`-th on, the search for each
      sentence starting at `offset`, the end of the previous one. */
  function SentencesFrom(p: Pipeline, req: HighlightRequest, sentences: seq<string>, i: nat, offset: nat,
                         bound: Option<seq<Candidate>>, scope: Scope): (r: Result<seq<HighlightedWord>, HttpError>)
    ensures scope == Scoped ==> r.Success?
    ensures r.Failure? ==> r.error == InternalError
    ensures r.Success? ==> AllFlagged(p, req, r.value)
    ensures r.Success? && FoundFrom(req.text, sentences, i, offset) ==> AllSpan(req.text, r.value)
    ensures scope == Scoped ==> r.value == TextOwnReports(p, req, sentences, i, offset)
    decreases |sentences| - i
  {
    if i >= |sentences| then Success([])
    else
      var start := SentenceStart(req.text, sentences[i], offset);
      var here := HighlightSentence(p, req, sentences[i], start, bound, scope);
      if here.Failure? then Failure(here.error)
      else
        var rest := SentencesFrom(p, req, sentences, i + 1, SentenceEnd(req.text, sentences[i], offset), here.value.1, scope);
        if rest.Failure? then rest
        else
          SentenceFacts(p, req, sentences, i, offset, start, here.value.0, rest.value);
          Success(here.value.0 + rest.value)
  }

  /** As written, sentences whose flagged words all have candidates come out as
      their words deserve on their own, whatever list is bound on entry. */
  lemma {:induction false} AsWrittenSentencesAgree(p: Pipeline, req: HighlightRequest, sentences: seq<string>,
                                                   i: nat, offset: nat, bound: Option<seq<Candidate>>)
    requires forall j :: i <= j < |sentences| ==> SentenceHasCandidates(p, req, sentences[j])
    ensures SentencesFrom(p, req, sentences, i, offset, bound, AsWritten) ==
      Success(TextOwnReports(p, req, sentences, i, offset))
    decreases |sentences| - i
  {
    if i < |sentences| {
      var start := SentenceStart(req.text, sentences[i], offset);
      var here := HighlightSentence(p, req, sentences[i], start, bound, AsWritten);
      AsWrittenSentenceAgrees(p, req, sentences[i], start, bound);
      AsWrittenSentencesAgree(p, req, sentences, i + 1, SentenceEnd(req.text, sentences[i], offset), here.value.1);
    }
  }

  /** The entries of a sentence followed by those of the rest: all reported, and,
      when the search finds this sentence and the following ones, all at their
      spans of the text. */
  lemma SentenceFacts(p: Pipeline, req: HighlightRequest, sentences: seq<string>, i: nat, offset: nat, start: nat,
                      hs: seq<HighlightedWord>, rest: seq<HighlightedWord>)
    requires i < |sentences| && start == SentenceStart(req.text, sentences[i], offset)
    requires AllReported(p, req, sentences[i], start, hs) && AllFlagged(p, req, rest)
    requires FoundFrom(req.text, sentences, i + 1, SentenceEnd(req.text, sentences[i], offset)) ==> AllSpan(req.text, rest)
    ensures AllFlagged(p, req, hs + rest)
    ensures FoundFrom(req.text, sentences, i, offset) ==> AllSpan(req.text, hs + rest)
  {
    if FoundFrom(req.text, sentences, i, offset) {
      forall j | 0 <= j < |hs|
        ensures Spans(req.text, hs[j])
      {
        SpansInText(req.text, sentences[i], start, hs[j]);
      }
    }
  }

  /** A response to `req`: the text echoed, the counts matching the lists, every
      entry reported, and every entry at its span of the text when each sentence
      was found where the search looked for it. */
  predicate Answers(p: Pipeline, req: HighlightRequest, resp: HighlightResponse)
  {
    && resp.originalText == req.text
    && resp.totalHighlighted == |resp.highlightedWords|
    && resp.sentenceCount == |SplitSentences(p, req.text)|
    && AllFlagged(p, req, resp.highlightedWords)
    && (FoundFrom(req.text, SplitSentences(p, req.text), 0, 0) ==> AllSpan(req.text, resp.highlightedWords))
  }

  /** The entries are those every flagged word of every sentence deserves on its
      own, sentence by sentence, each sentence placed where the handler's search
      finds it. */
  predicate EachOnItsOwn(p: Pipeline, req: HighlightRequest, hs: seq<HighlightedWord>)
  {
    hs == TextOwnReports(p, req, SplitSentences(p, req.text), 0, 0)
  }

  /** Every flagged word with an alignment, in every sentence, has generated
      candidates. */
  predicate AllHaveCandidates(p: Pipeline, req: HighlightRequest)
  {
    forall j :: 0 <= j < |SplitSentences(p, req.text)| ==> SentenceHasCandidates(p, req, SplitSentences(p, req.text)[j])
  }

  /** As written, a text whose flagged words all have candidates gets the entries
      each word deserves on its own. */
  lemma AsWrittenTextAgrees(p: Pipeline, req: HighlightRequest)
    ensures AllHaveCandidates(p, req) ==>
      SentencesFrom(p, req, SplitSentences(p, req.text), 0, 0, None, AsWritten) ==
        Success(TextOwnReports(p, req, SplitSentences(p, req.text), 0, 0))
  {
    if AllHaveCandidates(p, req) {
      AsWrittenSentencesAgree(p, req, SplitSentences(p, req.text), 0, 0, None);
    }
  }

  /** The handler, with the candidate list bound as `scope` says. */
  function Handle(pipeline: Option<Pipeline>, req: HighlightRequest, scope: Scope)
    : (r: Result<HighlightResponse, HttpError>)
    ensures CheckRequest(pipeline.Some?, req.text).Some? ==> r == Failure(CheckRequest(pipeline.Some?, req.text).value)
    ensures CheckRequest(pipeline.Some?, req.text).None? && r.Failure? ==> scope == AsWritten && r.error == InternalError
    ensures r.Success? ==> pipeline.Some? && Answers(pipeline.value, req, r.value)
    ensures r.Success? && scope == Scoped ==> EachOnItsOwn(pipeline.value, req, r.value.highlightedWords)
    ensures CheckRequest(pipeline.Some?, req.text).None? && AllHaveCandidates(pipeline.value, req) ==>
      r.Success? && EachOnItsOwn(pipeline.value, req, r.value.highlightedWords)
  {
    match CheckRequest(pipeline.Some?, req.text)
    case Some(e) => Failure(e)
    case None =>
      var p := pipeline.value;
      var sentences := SplitSentences(p, req.text);
      var hs := SentencesFrom(p, req, sentences, 0, 0, None, scope);
      AsWrittenTextAgrees(p, req);
      if hs.Failure? then Failure(hs.error)
      else Success(HighlightResponse(req.text, hs.value, |hs.value|, |sentences|))
  }

  /** `highlight_text`, with each word's candidate list scoped to that word: 503
      without a pipeline, then 400 for a blank text, and otherwise a response. */
  function HighlightText(pipeline: Option<Pipeline>, req: HighlightRequest): (r: Result<HighlightResponse, HttpError>)
    ensures pipeline.None? ==> r == Failure(ServiceUnavailable)
    ensures pipeline.Some? && IsBlank(req.text) ==> r == Failure(BadRequest)
    ensures pipeline.Some? && !IsBlank(req.text) ==> r.Success? && Answers(pipeline.value, req, r.value)
    ensures pipeline.Some? && !IsBlank(req.text) ==> EachOnItsOwn(pipeline.value, req, r.value.highlightedWords)
  {
    Handle(pipeline, req, Scoped)
  }

  /** `highlight_text` as written, the candidate list leaking from word to word:
      past the guards, its only failure is the 500. */
  function HighlightTextAsWritten(pipeline: Option<Pipeline>, req: HighlightRequest)
    : (r: Result<HighlightResponse, HttpError>)
    ensures pipeline.None? ==> r == Failure(ServiceUnavailable)
    ensures pipeline.Some? && IsBlank(req.text) ==> r == Failure(BadRequest)
    ensures pipeline.Some? && !IsBlank(req.text) ==>
      (r.Failure? ==> r.error == InternalError) && (r.Success? ==> Answers(pipeline.value, req, r.value))
    ensures pipeline.Some? && AllHaveCandidates(pipeline.value, req) ==> r == HighlightText(pipeline, req)
  {
    Handle(pipeline, req, AsWritten)
  }
}

=== FILE: candidate_generator.dfy ===
/** Replacement candidates from the masked-LM's top predictions
    (candidate_generator.py): the string filter every candidate passes, the
    top-k list construction, and the case-style transfer. */
module CandidateGenerator {
  import opened Wrappers
  import opened PyText
  import opened TokenizerUtils
  import opened Scorer

  /** `Candidate`: a decoded token, its log-probability and its 1-based position in
      the top-k list. */
  datatype Candidate = Candidate(text: string, logProb: real, rank: int)

  /** The byte-level BPE marker of a leading space. */
  const SpaceMarker: char := '\U{120}'

  /** `_is_valid_candidate`, its four tests in source order. */
  predicate IsValidCandidate(candidate: string, original: string)
  {
    if Lower(candidate) == Lower(original) then false
    else if |candidate| == 0 || !IsAlpha(DropMarks(candidate)) then false
    else if |candidate| < 2 then false
    else if StartsWith(candidate, "##") || StartsWith(candidate, [SpaceMarker]) then false
    else true
  }

  /** `candidate.replace("-", "").replace("'", "")`. */
  function DropMarks(s: string): string
  {
    RemoveChar(RemoveChar(s, '-'), '\'')
  }

  /** After dropping '-' and '\'' a string is alphabetic iff it consisted of
      letters, '-' and '\'' only, with at least one letter. */
  lemma DropMarksAlpha(s: string)
    ensures IsAlpha(DropMarks(s)) <==>
      (forall i :: 0 <= i < |s| ==> IsLetter(s[i]) || s[i] == '-' || s[i] == '\'')
      && (exists i :: 0 <= i < |s| && IsLetter(s[i]))
  {
    var t := RemoveChar(s, '-');
    var u := RemoveChar(t, '\'');
    if IsAlpha(u) {
      forall i | 0 <= i < |s| && s[i] != '-' && s[i] != '\''
        ensures IsLetter(s[i])
      {
        assert s[i] in t;
        var j :| 0 <= j < |t| && t[j] == s[i];
        assert t[j] in u;
      }
      assert u[0] in t;
      var j :| 0 <= j < |t| && t[j] == u[0];
      assert t[j] in s;
    }
    if (forall i :: 0 <= i < |s| ==> IsLetter(s[i]) || s[i] == '-' || s[i] == '\'')
      && (exists i :: 0 <= i < |s| && IsLetter(s[i]))
    {
      forall i | 0 <= i < |u|
        ensures IsLetter(u[i])
      {
        assert u[i] in t;
        var j :| 0 <= j < |t| && t[j] == u[i];
        assert t[j] in s;
      }
      var i :| 0 <= i < |s| && IsLetter(s[i]);
      assert s[i] in t;
      var j :| 0 <= j < |t| && t[j] == s[i];
      assert t[j] in u;
    }
  }

  /** What `_is_valid_candidate` accepts, stated without its test order: at least
      two characters, not the original up to case, only letters, '-' and '\''
      with at least one letter, and no leading BPE marker. The "##" test can never
      fire, because '#' is neither a letter nor removed. */
  lemma ValidCandidateCharacterization(candidate: string, original: string)
    ensures IsValidCandidate(candidate, original) <==>
      && 2 <= |candidate|
      && Lower(candidate) != Lower(original)
      && (forall i :: 0 <= i < |candidate| ==> IsLetter(candidate[i]) || candidate[i] == '-' || candidate[i] == '\'')
      && (exists i :: 0 <= i < |candidate| && IsLetter(candidate[i]))
      && candidate[0] != SpaceMarker
  {
    DropMarksAlpha(candidate);
    if 2 <= |candidate| {
      assert StartsWith(candidate, "##") ==> candidate[0] == '#';
      assert StartsWith(candidate, [SpaceMarker]) <==> candidate[0] == SpaceMarker;
    }
  }

  /** 'Ġab' passes the character test ('Ġ' is alphabetic) and is stopped only by
      the marker test. */
  lemma MarkedTokenRejectedOnlyByMarker()
    ensures IsAlpha(DropMarks("\U{120}ab"))
    ensures !IsValidCandidate("\U{120}ab", "x")
    ensures IsValidCandidate("ab", "x")
  {
    var m := "\U{120}ab";
    DropMarksAlpha(m);
    assert IsLetter(m[0]) && IsLetter(m[1]) && IsLetter(m[2]);
    ValidCandidateCharacterization(m, "x");
    ValidCandidateCharacterization("ab", "x");
    assert |Lower("ab")| != |Lower("x")|;
    assert IsLetter("ab"[0]) && IsLetter("ab"[1]);
  }

  /** The ids `torch.topk` returns for `k`: the `k` most probable ones. */
  function TopIds(ranked: seq<int>, k: int): (r: seq<int>)
    ensures k <= 0 ==> r == []
    ensures k > 0 ==> |r| == (if k < |ranked| then k else |ranked|) && r == ranked[..|r|]
  {
    if k <= 0 then [] else if k < |ranked| then ranked[..k] else ranked
  }

  /** The text a single id decodes to, stripped. */
  function TokenText(tok: Tokenizer, id: int): string
  {
    Strip(tok.decodeRaw([id]))
  }

  /** The loop of `generate_candidates` from position `i` of the top-k list on:
      the entry at position `j` becomes a candidate of rank `j + 1` when its text
      passes `keep`. */
  function BuildCandidates(texts: seq<string>, logProbs: seq<real>, keep: string -> bool, i: nat)
    : (r: seq<Candidate>)
    requires |logProbs| == |texts| && i <= |texts|
    ensures |r| <= |texts| - i
    ensures forall k :: 0 <= k < |r| ==> i + 1 <= r[k].rank <= |texts|
    ensures forall k :: 0 <= k < |r| ==>
      && r[k].text == texts[r[k].rank - 1]
      && r[k].logProb == logProbs[r[k].rank - 1]
      && keep(r[k].text)
    ensures forall k, l :: 0 <= k < l < |r| ==> r[k].rank < r[l].rank
    decreases |texts| - i
  {
    if i == |texts| then []
    else
      var rest := BuildCandidates(texts, logProbs, keep, i + 1);
      if keep(texts[i]) then
        var r := [Candidate(texts[i], logProbs[i], i + 1)] + rest;
        assert forall k :: 1 <= k < |r| ==> r[k] == rest[k - 1];
        r
      else rest
  }

  /** The stripped texts of the top ids, in order. */
  function TopTexts(tok: Tokenizer, top: seq<int>): (r: seq<string>)
    ensures |r| == |top| && forall j :: 0 <= j < |top| ==> r[j] == TokenText(tok, top[j])
  {
    seq(|top|, j requires 0 <= j < |top| => TokenText(tok, top[j]))
  }

  function TopLogProbs(pred: Prediction, top: seq<int>): (r: seq<real>)
    ensures |r| == |top| && forall j :: 0 <= j < |top| ==> r[j] == pred.logProb(top[j])
  {
    seq(|top|, j requires 0 <= j < |top| => pred.logProb(top[j]))
  }

  /** `_is_valid_candidate` against a fixed original, as a filter. */
  function ValidFor(original: string): string -> bool
  {
    s => IsValidCandidate(s, original)
  }

  predicate HasRank(cs: seq<Candidate>, rank: int)
  {
    exists k :: 0 <= k < |cs| && cs[k].rank == rank
  }

  lemma HasRankCons(c: Candidate, cs: seq<Candidate>, rank: int)
    requires HasRank(cs, rank)
    ensures HasRank([c] + cs, rank)
  {
    var k :| 0 <= k < |cs| && cs[k].rank == rank;
    assert ([c] + cs)[k + 1] == cs[k];
  }

  /** Nothing that passes `keep` is dropped: the entry at position `j` shows up
      with rank `j + 1`. */
  lemma {:induction false} BuildCandidatesComplete(texts: seq<string>, logProbs: seq<real>, keep: string -> bool,
                                                   i: nat, j: nat)
    requires |logProbs| == |texts| && i <= j < |texts| && keep(texts[j])
    ensures HasRank(BuildCandidates(texts, logProbs, keep, i), j + 1)
    decreases |texts| - i
  {
    var rest := BuildCandidates(texts, logProbs, keep, i + 1);
    var r := BuildCandidates(texts, logProbs, keep, i);
    if j > i {
      BuildCandidatesComplete(texts, logProbs, keep, i + 1, j);
      if keep(texts[i]) {
        HasRankCons(Candidate(texts[i], logProbs[i], i + 1), rest, j + 1);
      }
    } else {
      assert r[0].rank == j + 1;
      assert HasRank(r, j + 1);
    }
  }

  /** `generate_candidates`: predict at the first token of the fully masked word,
      decode each of the `topK` most probable ids and keep the valid ones. */
  function GenerateCandidates(lm: MaskedLm, tok: Tokenizer, ids: seq<int>, a: WordAlignment,
                              original: string, topK: int): (r: seq<Candidate>)
    requires TokensValid(a, ids)
    ensures topK <= 0 ==> r == []
    ensures |r| <= (if topK < 0 then 0 else topK)
    ensures forall k :: 0 <= k < |r| ==> IsValidCandidate(r[k].text, original) && 1 <= r[k].rank <= topK
    ensures forall k, l :: 0 <= k < l < |r| ==> r[k].rank < r[l].rank
    ensures var pred := lm.predict(MaskWordSpan(ids, a, None, tok.maskId), a.tokenStart);
      forall k :: 0 <= k < |r| ==>
        && r[k].rank <= |pred.ranked|
        && r[k].text == TokenText(tok, pred.ranked[r[k].rank - 1])
        && r[k].logProb == pred.logProb(pred.ranked[r[k].rank - 1])
  {
    var pred := lm.predict(MaskWordSpan(ids, a, None, tok.maskId), a.tokenStart);
    var top := TopIds(pred.ranked, topK);
    var r := BuildCandidates(TopTexts(tok, top), TopLogProbs(pred, top), ValidFor(original), 0);
    BuiltFromRanked(tok, pred, top, ValidFor(original), r);
    r
  }

  /** Candidates built from the leading ids of a prediction carry the text and
      log-probability of the id at their rank. */
  lemma BuiltFromRanked(tok: Tokenizer, pred: Prediction, top: seq<int>, keep: string -> bool, r: seq<Candidate>)
    requires |top| <= |pred.ranked| && top == pred.ranked[..|top|]
    requires r == BuildCandidates(TopTexts(tok, top), TopLogProbs(pred, top), keep, 0)
    ensures forall k :: 0 <= k < |r| ==>
      && r[k].rank <= |pred.ranked|
      && r[k].text == TokenText(tok, pred.ranked[r[k].rank - 1])
      && r[k].logProb == pred.logProb(pred.ranked[r[k].rank - 1])
  {
    forall k | 0 <= k < |r|
      ensures r[k].rank <= |pred.ranked| && top[r[k].rank - 1] == pred.ranked[r[k].rank - 1]
    {
    }
  }

  /** A candidate the list leaves out is invalid: every valid id among the top `k`
      is kept. */
  lemma GenerateCandidatesComplete(lm: MaskedLm, tok: Tokenizer, ids: seq<int>, a: WordAlignment,
                                   original: string, topK: int, j: nat)
    requires TokensValid(a, ids)
    requires j < topK
    requires var pred := lm.predict(MaskWordSpan(ids, a, None, tok.maskId), a.tokenStart);
      j < |pred.ranked| && IsValidCandidate(TokenText(tok, pred.ranked[j]), original)
    ensures HasRank(GenerateCandidates(lm, tok, ids, a, original, topK), j + 1)
  {
    var pred := lm.predict(MaskWordSpan(ids, a, None, tok.maskId), a.tokenStart);
    var top := TopIds(pred.ranked, topK);
    var texts := TopTexts(tok, top);
    assert texts[j] == TokenText(tok, pred.ranked[j]);
    assert ValidFor(original)(texts[j]);
    BuildCandidatesComplete(texts, TopLogProbs(pred, top), ValidFor(original), 0, j);
    assert GenerateCandidates(lm, tok, ids, a, original, topK) == BuildCandidates(texts, TopLogProbs(pred, top), ValidFor(original), 0);
  }

  /** `preserve_capitalization`: give `candidate` the case style of `original`. */
  function PreserveCapitalization(candidate: string, original: string): (r: string)
    ensures |r| == |candidate|
    ensures Lower(r) == Lower(candidate)
    ensures |original| == 0 || |candidate| == 0 ==> r == candidate
    ensures |original| > 0 && |candidate| > 0 && PyIsUpper(original) ==> r == Upper(candidate)
    ensures |original| > 0 && |candidate| > 0 && IsUpperChar(original[0]) ==> !IsLowerChar(r[0])
    ensures |original| > 0 && |candidate| > 0 && !PyIsUpper(original) && !IsUpperChar(original[0]) ==>
      r == Lower(candidate)
    ensures (|original| > 0 && |candidate| > 0 && !PyIsUpper(original) && IsUpperChar(original[0]) &&
             PyIsLower(original[1..])) ==> r == Capitalize(candidate)
    ensures (|original| > 0 && |candidate| > 0 && !PyIsUpper(original) && IsUpperChar(original[0]) &&
             !PyIsLower(original[1..])) ==> r[0] == UpperChar(candidate[0]) && r[1..] == candidate[1..]
  {
    if |original| == 0 || |candidate| == 0 then candidate
    else
      var r :=
        if PyIsUpper(original) then Upper(candidate)
        else if IsUpperChar(original[0]) && PyIsLower(original[1..]) then Capitalize(candidate)
        else if IsUpperChar(original[0]) then [UpperChar(candidate[0])] + candidate[1..]
        else Lower(candidate);
      SameUpToCase(r, candidate);
      r
  }

  /** Two strings of equal length whose characters agree up to case lower-case to
      the same string. */
  lemma SameUpToCase(r: string, s: string)
    requires |r| == |s|
    requires forall i :: 0 <= i < |s| ==> LowerChar(r[i]) == LowerChar(s[i])
    ensures Lower(r) == Lower(s)
  {
  }

  /** The title-case branch: an original like "Hello" gives "World" from "wORLD". */
  lemma TitleCaseExample()
    ensures PreserveCapitalization("wORLD", "Hello") == "World"
  {
    assert !PyIsUpper("Hello") by { assert IsLowerChar("Hello"[1]); }
    assert PyIsLower("ello") by { assert IsLowerChar("ello"[0]); }
    assert Lower("ORLD") == "orld";
  }

  /** The all-caps branch: "NASA" upper-cases the whole candidate. */
  lemma AllCapsExample()
    ensures PreserveCapitalization("world", "NASA") == "WORLD"
  {
    assert PyIsUpper("NASA") by { assert IsUpperChar("NASA"[0]); }
    assert Upper("world") == "WORLD";
  }

  /** The fallback branch: a lower-case original lower-cases the candidate. */
  lemma LowerCaseExample()
    ensures PreserveCapitalization("World", "hello") == "world"
  {
    assert !PyIsUpper("hello") by { assert IsLowerChar("hello"[0]); }
    assert Lower("World") == "world";
  }

  /** The mixed-case branch: "McDonald" only upper-cases the first letter. */
  lemma MixedCaseExample()
    ensures PreserveCapitalization("world", "McDonald") == "World"
  {
    assert !PyIsUpper("McDonald") by { assert IsLowerChar("McDonald"[1]); }
    assert !PyIsLower("cDonald") by { assert IsUpperChar("cDonald"[1]); }
    assert UpperChar('w') == 'W';
    assert "World" == ['W'] + "world"[1..];
  }

  /** `filter_by_constraints`: the same candidates, in order, with only the case
      of their text adjusted. */
  function FilterByConstraints(candidates: seq<Candidate>, original: string): (r: seq<Candidate>)
    ensures |r| == |candidates|
    ensures forall i :: 0 <= i < |r| ==>
      && r[i].logProb == candidates[i].logProb
      && r[i].rank == candidates[i].rank
      && |r[i].text| == |candidates[i].text|
      && Lower(r[i].text) == Lower(candidates[i].text)
    ensures forall i :: 0 <= i < |r| ==> r[i].text == PreserveCapitalization(candidates[i].text, original)
  {
    seq(|candidates|, i requires 0 <= i < |candidates| =>
      candidates[i].(text := PreserveCapitalization(candidates[i].text, original)))
  }

  /** Every candidate takes the original's case pattern: an empty original leaves
      them as they are, an all-caps one upper-cases them, and one that starts
      with anything but a capital lower-cases them. */
  lemma {:induction false} FilterFollowsOriginal(candidates: seq<Candidate>, original: string, i: nat)
    requires i < |candidates| && |candidates[i].text| > 0
    ensures var t := FilterByConstraints(candidates, original)[i].text;
      && (|original| == 0 ==> t == candidates[i].text)
      && (|original| > 0 && PyIsUpper(original) ==> t == Upper(candidates[i].text))
      && (|original| > 0 && !PyIsUpper(original) && !IsUpperChar(original[0]) ==> t == Lower(candidates[i].text))
      && (|original| > 0 && IsUpperChar(original[0]) ==> !IsLowerChar(t[0]))
  {
    var t := FilterByConstraints(candidates, original)[i].text;
    assert t == PreserveCapitalization(candidates[i].text, original);
  }
}

=== FILE: config.dfy ===
/** `FlowConfig`: the thresholds and model choices of the refinement engine, with the
    validation that runs when a configuration is built (config.py). */
module Config {
  import opened Wrappers

  datatype FlowConfig = FlowConfig(
    robertaModel: string,
    sbertModel: string,
    nliModel: Option<string>,
    spacyModel: string,
    minEntropy: real,          // bits; a word at or above it is uncertain
    maxOriginalRank: int,      // a word ranked at or below it (numerically >=) is unlikely
    minPllGain: real,          // required windowed pseudo-log-likelihood gain
    minSbertCosine: real,      // required sentence similarity
    pllWindowSize: int,        // tokens on each side of the edited position
    topKCandidates: int,
    maxEditsPerSentence: int,
    useNliCheck: bool,
    batchSize: int,
    device: string,
    pllMethod: string          // "word-l2r"; any other value selects the standard scheme
  )

  /** The dataclass defaults. */
  const Default := FlowConfig(
    "roberta-base", "all-MiniLM-L6-v2", Some("roberta-large-mnli"), "en_core_web_sm",
    4.0, 50, 2.0, 0.97, 3, 10, 2, false, 8, "cpu", "word-l2r")

  /** The configuration the HTTP servers build at start-up: the defaults with a
      looser gain and similarity threshold. */
  const ServerDefault := Default.(minPllGain := 1.5, minSbertCosine := 0.95)

  /** The `ValueError` messages of `__post_init__`. */
  datatype ConfigError = NegativeMinEntropy | CosineOutOfRange | WindowNotPositive

  /** `__post_init__`: the checks run in source order, so the first violated one
      names the error. */
  function Validate(c: FlowConfig): (r: Result<FlowConfig, ConfigError>)
    ensures r.Success? <==> c.minEntropy >= 0.0 && 0.0 <= c.minSbertCosine <= 1.0 && c.pllWindowSize >= 1
    ensures r.Success? ==> r.value == c
    ensures c.minEntropy < 0.0 ==> r == Failure(NegativeMinEntropy)
    ensures c.minEntropy >= 0.0 && !(0.0 <= c.minSbertCosine <= 1.0) ==> r == Failure(CosineOutOfRange)
    ensures r == Failure(WindowNotPositive) <==> c.minEntropy >= 0.0 && 0.0 <= c.minSbertCosine <= 1.0 && c.pllWindowSize < 1
  {
    if c.minEntropy < 0.0 then Failure(NegativeMinEntropy)
    else if c.minSbertCosine < 0.0 || c.minSbertCosine > 1.0 then Failure(CosineOutOfRange)
    else if c.pllWindowSize < 1 then Failure(WindowNotPositive)
    else Success(c)
  }

  /** The default configuration and the servers' configuration both validate. */
  lemma DefaultsAreValid()
    ensures Validate(Default) == Success(Default)
    ensures Validate(ServerDefault) == Success(ServerDefault)
    ensures Default.minEntropy == 4.0 && Default.maxOriginalRank == 50
    ensures Default.maxEditsPerSentence == 2 && !Default.useNliCheck
  {
  }

  /** Both ends of the cosine interval are accepted; a hair outside is not. */
  lemma CosineEndpointsAccepted(c: FlowConfig)
    requires c.minEntropy >= 0.0 && c.pllWindowSize >= 1
    ensures Validate(c.(minSbertCosine := 0.0)).Success?
    ensures Validate(c.(minSbertCosine := 1.0)).Success?
    ensures Validate(c.(minSbertCosine := 1.001)) == Failure(CosineOutOfRange)
    ensures Validate(c.(minSbertCosine := -0.001)) == Failure(CosineOutOfRange)
  {
  }
}

=== FILE: highlight_api.dfy ===
/** What the two highlight servers (api_server.py and backend/api_server.py) share:
    the request and response shapes, the guards in front of the handler, which
    words are reported and why, and how one candidate is evaluated for a
    suggestion. */
module HighlightApi {
  import opened Wrappers
  import opened PyText
  import opened Seqs
  import opened TokenizerUtils
  import opened Scorer
  import opened CandidateGenerator
  import opened SemanticChecker
  import opened LinguisticConstraints
  import opened RefinementPipeline

  /** The request body, its optional fields filled in. */
  datatype HighlightRequest = HighlightRequest(text: string, minEntropy: real, maxRank: int, topSuggestions: int)

  /** A request that leaves every optional field at its default. */
  function DefaultRequest(text: string): HighlightRequest
  {
    HighlightRequest(text, 4.0, 50, 3)
  }

  datatype Suggestion = Suggestion(text: string, pllGain: real, similarity: real, logProb: real,
                                   passes: bool, rank: int)

  /** Why a word was flagged; each reason quotes the request's threshold. */
  datatype FlagReason = UncertainAbove(minEntropy: real) | RankAtLeast(maxRank: int)

  datatype HighlightedWord = HighlightedWord(
    word: string,
    startPos: int,
    endPos: int,
    entropy: real,
    rank: int,
    logProb: real,
    flaggedReasons: seq<FlagReason>,
    suggestions: seq<Suggestion>
  )

  datatype HighlightResponse = HighlightResponse(originalText: string, highlightedWords: seq<HighlightedWord>,
                                                 totalHighlighted: nat, sentenceCount: nat)

  /** The HTTP errors the handler raises. */
  datatype HttpError = ServiceUnavailable | BadRequest | InternalError

  function StatusCode(e: HttpError): (r: int)
    ensures r in {400, 500, 503}
  {
    match e
    case ServiceUnavailable => 503
    case BadRequest => 400
    case InternalError => 500
  }

  // ---------------------------------------------------------------- guards

  /** The guards ahead of any work: no pipeline is a 503, and only then is a text
      with no non-whitespace character a 400. */
  function CheckRequest(loaded: bool, text: string): (r: Option<HttpError>)
    ensures r == Some(ServiceUnavailable) <==> !loaded
    ensures r == Some(BadRequest) <==> loaded && IsBlank(text)
    ensures r == None <==> loaded && exists i :: 0 <= i < |text| && !IsSpace(text[i])
  {
    StripEmptyIffBlank(text);
    if !loaded then Some(ServiceUnavailable)
    else if |text| == 0 || |Strip(text)| == 0 then Some(BadRequest)
    else None
  }

  // ---------------------------------------------------------------- which words

  /** A score worth reporting: flagged, and not one of the punctuation marks. */
  predicate Reportable(s: WordScore)
  {
    s.isClunky && !IsPunctuation(s.wordText)
  }

  /** `clunky_scores`: the reportable scores, in sentence order. */
  function ClunkyScores(scores: seq<WordScore>): (r: seq<WordScore>)
    ensures IsSubsequence(r, scores)
    ensures forall i :: 0 <= i < |r| ==> r[i].isClunky && !IsPunctuation(r[i].wordText)
    ensures forall i :: 0 <= i < |scores| && scores[i].isClunky && !IsPunctuation(scores[i].wordText) ==>
      scores[i] in r
  {
    Filter(scores, Reportable)
  }

  /** `flagged_reasons` for a word of the given entropy and rank: the uncertainty
      reason exactly when the entropy reaches the request's minimum, the rank
      reason exactly when the rank reaches its maximum, in that order. */
  function FlagReasons(entropy: real, rank: int, req: HighlightRequest): (r: seq<FlagReason>)
    ensures UncertainAbove(req.minEntropy) in r <==> entropy >= req.minEntropy
    ensures RankAtLeast(req.maxRank) in r <==> rank >= req.maxRank
    ensures |r| <= 2 && (|r| == 2 ==> r == [UncertainAbove(req.minEntropy), RankAtLeast(req.maxRank)])
    ensures forall i :: 0 <= i < |r| ==> r[i] in {UncertainAbove(req.minEntropy), RankAtLeast(req.maxRank)}
  {
    (if entropy >= req.minEntropy then [UncertainAbove(req.minEntropy)] else [])
    + (if rank >= req.maxRank then [RankAtLeast(req.maxRank)] else [])
  }

  /** A word flagged under the request's thresholds gets at least one reason. */
  lemma FlaggedWordHasReason(s: WordScore, req: HighlightRequest)
    requires Clunky(s, req.minEntropy, req.maxRank)
    ensures |FlagReasons(s.entropy, s.rank, req)| > 0
  {
    if s.entropy >= req.minEntropy {
      assert UncertainAbove(req.minEntropy) in FlagReasons(s.entropy, s.rank, req);
    } else {
      assert RankAtLeast(req.maxRank) in FlagReasons(s.entropy, s.rank, req);
    }
  }

  /** What both handlers know of a sentence once it is split into words: every
      alignment locates its word in the sentence ... */
  predicate AlignmentsOf(als: seq<WordAlignment>, sentence: string, enc: seq<TokenPiece>, words: seq<string>)
  {
    forall j :: 0 <= j < |als| ==>
      AlignedTo(als[j], sentence, enc) && als[j].wordIdx < |words| && als[j].wordText == words[als[j].wordIdx]
  }

  /** ... and every score left to report is flagged under the request's
      thresholds, is not punctuation, and names its word. */
  predicate FlaggedOf(scores: seq<WordScore>, words: seq<string>, req: HighlightRequest)
  {
    forall i :: 0 <= i < |scores| ==>
      && scores[i].wordIdx < |words| && scores[i].wordText == words[scores[i].wordIdx]
      && Clunky(scores[i], req.minEntropy, req.maxRank) && !IsPunctuation(scores[i].wordText)
  }

  /** The reportable scores of `score_sentence` under the request's thresholds. */
  lemma ClunkyFacts(scores: seq<WordScore>, words: seq<string>, req: HighlightRequest)
    requires forall i :: 0 <= i < |scores| ==> scores[i].wordIdx < |words| && scores[i].wordText == words[scores[i].wordIdx]
    requires forall i :: 0 <= i < |scores| ==>
      (scores[i].isClunky <==> scores[i].entropy >= req.minEntropy || scores[i].rank >= req.maxRank)
    ensures FlaggedOf(ClunkyScores(scores), words, req)
  {
    var r := ClunkyScores(scores);
    forall i | 0 <= i < |r|
      ensures r[i].wordIdx < |words| && r[i].wordText == words[r[i].wordIdx]
      ensures Clunky(r[i], req.minEntropy, req.maxRank)
    {
      InFilter(scores, Reportable, r[i]);
    }
  }

  /** What a handler computes for a sentence before looking at any word: its
      words, its encoding, the words' alignments and the flagged words to report. */
  datatype Analysis = Analysis(words: seq<string>, enc: seq<TokenPiece>, als: seq<WordAlignment>,
                               clunky: seq<WordScore>)

  /** Extract the words, score them with the request's thresholds, keep the
      reportable ones, and align the words to the encoding. */
  function Analyse(p: Pipeline, req: HighlightRequest, sentence: string): (r: Analysis)
    ensures AlignmentsOf(r.als, sentence, r.enc, r.words) && FlaggedOf(r.clunky, r.words, req)
  {
    var words := ExtractWords(p.models.tagger, sentence);
    var scores := ScoreSentence(p.models.lm, p.models.tok, sentence, words, req.minEntropy, req.maxRank,
                                p.config.pllMethod);
    var enc := p.models.tok.encode(sentence);
    ClunkyFacts(scores, words, req);
    Analysis(words, enc, AlignWordsToTokens(sentence, enc, words), ClunkyScores(scores))
  }

  /** The entry for a word: its score, its reasons, its span shifted by where its
      sentence starts, and the suggestions found for it. */
  function Highlight(req: HighlightRequest, s: WordScore, a: WordAlignment, start: nat, sugg: seq<Suggestion>)
    : HighlightedWord
  {
    HighlightedWord(s.wordText, start + a.charStart, start + a.charEnd, s.entropy, s.rank, s.logProb,
                    FlagReasons(s.entropy, s.rank, req), sugg)
  }

  /** A reported word: not punctuation, flagged under the request's thresholds, with
      the reasons that say why, and every suggestion marked by the servers' gate. */
  predicate Flagged(p: Pipeline, req: HighlightRequest, h: HighlightedWord)
  {
    && !IsPunctuation(h.word)
    && (h.entropy >= req.minEntropy || h.rank >= req.maxRank)
    && h.flaggedReasons == FlagReasons(h.entropy, h.rank, req)
    && forall i :: 0 <= i < |h.suggestions| ==> Gated(p, h.suggestions[i])
  }

  /** The entry for a flagged word found by its alignment is flagged and sits at
      its span of the sentence. */
  lemma HighlightFacts(p: Pipeline, req: HighlightRequest, sentence: string, enc: seq<TokenPiece>,
                       words: seq<string>, s: WordScore, a: WordAlignment, start: nat, sugg: seq<Suggestion>)
    requires AlignmentsOf([a], sentence, enc, words) && FlaggedOf([s], words, req) && a.wordIdx == s.wordIdx
    requires forall i :: 0 <= i < |sugg| ==> Gated(p, sugg[i])
    ensures Flagged(p, req, Highlight(req, s, a, start, sugg))
    ensures Spans(sentence, Shift(Highlight(req, s, a, start, sugg), -(start as int)))
  {
    assert AlignedTo([a][0], sentence, enc);
    assert [s][0] == s;
  }

  // ---------------------------------------------------------------- one candidate

  /** The servers' gate: gain and similarity at the configured thresholds, with no
      entailment check. */
  predicate Gated(p: Pipeline, sg: Suggestion)
  {
    sg.passes <==> sg.pllGain >= p.config.minPllGain && sg.similarity >= p.config.minSbertCosine
  }

  /** One candidate evaluated in the sentence: the new sentence, the windowed gain
      around the word's first token and the similarity to the sentence. */
  function Evaluate(p: Pipeline, sentence: string, ids: seq<int>, a: WordAlignment, c: Candidate): (r: Suggestion)
    requires a.tokenStart <= a.tokenEnd <= |ids|
    ensures r.text == c.text && r.logProb == c.logProb && r.rank == c.rank
    ensures Gated(p, r)
  {
    var (newText, newIds) := ReconstructSentence(p.models.tok, ids, c.text, a);
    var gain := PllGain(p, ids, newIds, a);
    var similarity := ComputeSimilarity(Checker(p), sentence, newText);
    Suggestion(c.text, gain, similarity, c.logProb,
               gain >= p.config.minPllGain && similarity >= p.config.minSbertCosine, c.rank)
  }

  /** The servers measure a candidate exactly as `_find_best_edit` does, and their
      gate is the pipeline's with the entailment check dropped: whatever the
      pipeline accepts they mark as passing, and without the NLI check the two
      verdicts coincide. */
  lemma ServerGateDropsNli(p: Pipeline, sentence: string, ids: seq<int>, a: WordAlignment, c: Candidate)
    requires a.tokenStart <= a.tokenEnd <= |ids|
    ensures var sg := Evaluate(p, sentence, ids, a, c);
      var t := Try(p, sentence, ids, a, c);
      && sg.pllGain == t.gain && sg.similarity == t.similarity
      && (t.passes ==> sg.passes)
      && (!p.config.useNliCheck ==> (sg.passes <==> t.passes))
  {
  }

  /** The evaluations of a list of candidates, in order. */
  function Evaluations(p: Pipeline, sentence: string, ids: seq<int>, a: WordAlignment, cs: seq<Candidate>)
    : (r: seq<Suggestion>)
    requires a.tokenStart <= a.tokenEnd <= |ids|
    ensures |r| == |cs|
    ensures forall i :: 0 <= i < |r| ==> r[i] == Evaluate(p, sentence, ids, a, cs[i])
  {
    seq(|cs|, i requires 0 <= i < |cs| => Evaluate(p, sentence, ids, a, cs[i]))
  }

  // ---------------------------------------------------------------- positions

  /** A highlighted word sits at its reported span of `text`. */
  predicate Spans(text: string, h: HighlightedWord)
  {
    0 <= h.startPos <= h.endPos <= |text| && text[h.startPos..h.endPos] == h.word
  }

  /** The word moved `d` characters to the right. */
  function Shift(h: HighlightedWord, d: int): HighlightedWord
  {
    h.(startPos := h.startPos + d, endPos := h.endPos + d)
  }

  /** A word at its span of a sentence, shifted by where the sentence occurs in
      the text, sits at its span of the text. */
  lemma SpansInText(text: string, sentence: string, start: nat, h: HighlightedWord)
    requires MatchAt(text, sentence, start)
    requires Spans(sentence, Shift(h, -(start as int)))
    ensures Spans(text, h)
  {
    var g := Shift(h, -(start as int));
    assert text[start..start + |sentence|] == sentence;
    forall k | h.startPos <= k < h.endPos
      ensures text[k] == sentence[k - start]
    {
      assert text[start..start + |sentence|][k - start] == text[k];
    }
    assert text[h.startPos..h.endPos] == sentence[g.startPos..g.endPos];
  }

  /** `text.find(sentence, char_offset)`, falling back to `char_offset` when the
      sentence is not found from there. */
  function SentenceStart(text: string, sentence: string, offset: nat): (r: nat)
    ensures r >= offset
    ensures r == offset || MatchAt(text, sentence, r)
    ensures Find(text, sentence, offset).Some? ==> MatchAt(text, sentence, r)
    ensures forall j :: offset <= j < r ==> !MatchAt(text, sentence, j)
  {
    match Find(text, sentence, offset)
    case None => offset
    case Some(k) => k
  }

  /** The sentences from the `i`-th on can each be found in the text, searching
      from where the previous one ended. */
  predicate FoundFrom(text: string, sentences: seq<string>, i: nat, offset: nat)
    decreases |sentences| - i
  {
    i >= |sentences| ||
      match Find(text, sentences[i], offset)
      case None => false
      case Some(k) => FoundFrom(text, sentences, i + 1, k + |sentences[i]|)
  }

  predicate AllSpan(text: string, hs: seq<HighlightedWord>)
  {
    forall j :: 0 <= j < |hs| ==> Spans(text, hs[j])
  }
}

=== FILE: linguistic_constraints.dfy ===
/** Part-of-speech and morphology compatibility between a word and its candidate
    replacements (linguistic_constraints.py; backend/linguistic_constraints.py is
    the same file and is served by the same model).

    The spaCy pipeline is an oracle `Tagger` that turns a text into its tokens,
    each with its coarse and fine tag, its morphological features as
    "Key=Value" strings, and spaCy's punctuation, space and number flags. */
module LinguisticConstraints {
  import opened Wrappers
  import opened PyText
  import opened Seqs

  datatype TaggedToken = TaggedToken(
    text: string,
    pos: string,
    tag: string,
    morph: seq<string>,
    isPunct: bool,
    isSpace: bool,
    likeNum: bool,
    isDigit: bool
  )

  type Tagger = string -> seq<TaggedToken>

  /** `WordInfo`. */
  datatype WordInfo = WordInfo(
    text: string,
    pos: string,
    tag: string,
    morph: map<string, string>,
    isProper: bool,
    isNumeric: bool
  )

  // ---------------------------------------------------------------- morphology

  /** A feature string that splits into exactly a key and a value on '='. */
  predicate WellFormedFeature(f: string)
  {
    |Split(f, '=')| == 2
  }

  /** Every well-formed feature's key is in the dictionary. */
  predicate KeysCovered(features: seq<string>, m: map<string, string>)
  {
    forall i :: 0 <= i < |features| && WellFormedFeature(features[i]) ==> Split(features[i], '=')[0] in m
  }

  /** Every key of the dictionary comes from a well-formed feature. */
  predicate KeysSourced(features: seq<string>, m: map<string, string>)
  {
    forall key :: key in m ==> exists i :: 0 <= i < |features| && LastFeatureFor(features, key, i)
  }

  /** Every key holds the value of the last feature that sets it. */
  predicate ValuesLast(features: seq<string>, m: map<string, string>)
  {
    forall key, i :: key in m && 0 <= i < |features| && LastFeatureFor(features, key, i) ==>
      m[key] == Split(features[i], '=')[1]
  }

  /** One feature string added to the dictionary: a well-formed one sets its key. */
  function Put(m: map<string, string>, f: string): map<string, string>
  {
    if WellFormedFeature(f) then m[Split(f, '=')[0] := Split(f, '=')[1]] else m
  }

  /** The morphology dictionary built from the feature strings in order: only
      well-formed features are kept, and a later feature overwrites an earlier
      one with the same key. */
  function ParseMorph(features: seq<string>): (m: map<string, string>)
    ensures KeysCovered(features, m) && KeysSourced(features, m) && ValuesLast(features, m)
  {
    if |features| == 0 then map[]
    else
      var init := features[..|features| - 1];
      var m := ParseMorph(init);
      var f := features[|features| - 1];
      StepCovered(init, f, m);
      StepSourced(init, f, m);
      StepValues(init, f, m);
      assert init + [f] == features;
      Put(m, f)
  }

  lemma StepCovered(init: seq<string>, f: string, m: map<string, string>)
    requires KeysCovered(init, m)
    ensures KeysCovered(init + [f], Put(m, f))
  {
    var fs := init + [f];
    forall i | 0 <= i < |fs| && WellFormedFeature(fs[i])
      ensures Split(fs[i], '=')[0] in Put(m, f)
    {
      if i < |init| {
        assert fs[i] == init[i];
      }
    }
  }

  lemma StepSourced(init: seq<string>, f: string, m: map<string, string>)
    requires KeysSourced(init, m)
    ensures KeysSourced(init + [f], Put(m, f))
  {
    var fs := init + [f];
    var n := |init|;
    forall key | key in Put(m, f)
      ensures exists i :: 0 <= i < |fs| && LastFeatureFor(fs, key, i)
    {
      if WellFormedFeature(f) && key == Split(f, '=')[0] {
        assert fs[n] == f;
        assert LastFeatureFor(fs, key, n);
      } else {
        var i :| 0 <= i < n && LastFeatureFor(init, key, i);
        assert fs[i] == init[i];
        assert forall j :: i < j < n ==> fs[j] == init[j];
        assert fs[n] == f;
        assert LastFeatureFor(fs, key, i);
      }
    }
  }

  lemma StepValues(init: seq<string>, f: string, m: map<string, string>)
    requires ValuesLast(init, m)
    ensures ValuesLast(init + [f], Put(m, f))
  {
    var fs := init + [f];
    var n := |init|;
    assert fs[n] == f;
    forall key, i | key in Put(m, f) && 0 <= i < |fs| && LastFeatureFor(fs, key, i)
      ensures Put(m, f)[key] == Split(fs[i], '=')[1]
    {
      if i < n {
        assert fs[i] == init[i];
        assert forall j :: i < j < n ==> fs[j] == init[j];
        assert LastFeatureFor(init, key, i);
      }
    }
  }

  /** Feature `i` is well formed, has key `key`, and no later feature sets `key`. */
  predicate LastFeatureFor(features: seq<string>, key: string, i: int)
  {
    && 0 <= i < |features|
    && WellFormedFeature(features[i])
    && Split(features[i], '=')[0] == key
    && forall j :: i < j < |features| && WellFormedFeature(features[j]) ==> Split(features[j], '=')[0] != key
  }

  /** A token's morphology mentions only keys of its well-formed features. */
  lemma ParseMorphKeys(features: seq<string>, key: string)
    ensures key in ParseMorph(features) <==>
      exists i :: 0 <= i < |features| && WellFormedFeature(features[i]) && Split(features[i], '=')[0] == key
  {
    if key in ParseMorph(features) {
      var i :| 0 <= i < |features| && LastFeatureFor(features, key, i);
    }
  }

  // ---------------------------------------------------------------- analysis

  /** The tokens `analyze_text` keeps: neither punctuation nor whitespace. */
  predicate IsWordToken(t: TaggedToken)
  {
    !t.isPunct && !t.isSpace
  }

  function ToInfo(t: TaggedToken): WordInfo
  {
    WordInfo(t.text, t.pos, t.tag, ParseMorph(t.morph), t.pos == "PROPN", t.likeNum || t.isDigit)
  }

  /** The loop of `analyze_text` over the tagger's tokens. */
  function AnalyzeTokens(toks: seq<TaggedToken>): (r: seq<WordInfo>)
    ensures |r| == |Filter(toks, IsWordToken)|
    ensures forall i :: 0 <= i < |r| ==> r[i] == ToInfo(Filter(toks, IsWordToken)[i])
  {
    if |toks| == 0 then []
    else
      var rest := AnalyzeTokens(toks[1..]);
      if IsWordToken(toks[0]) then [ToInfo(toks[0])] + rest else rest
  }

  /** `analyze_text`: one info per tagged token of the text that is neither
      punctuation nor space, in order. */
  function AnalyzeText(tagger: Tagger, text: string): (r: seq<WordInfo>)
    ensures |r| == |Filter(tagger(text), IsWordToken)|
    ensures forall i :: 0 <= i < |r| ==> r[i] == ToInfo(Filter(tagger(text), IsWordToken)[i])
    ensures |r| <= |tagger(text)|
    ensures forall i :: 0 <= i < |r| ==> (r[i].isProper <==> r[i].pos == "PROPN")
  {
    AnalyzeTokens(tagger(text))
  }

  /** The info `get_word_info` falls back to when the word yields no token. */
  function Fallback(word: string): WordInfo
  {
    WordInfo(word, "X", "X", map[], false, false)
  }

  /** `get_word_info`: the first analysed token of the word on its own. */
  function GetWordInfo(tagger: Tagger, word: string): (r: WordInfo)
    ensures |AnalyzeText(tagger, word)| == 0 ==> r.pos == "X" && r.morph == map[] && !r.isProper && !r.isNumeric
    ensures |AnalyzeText(tagger, word)| > 0 ==> r == AnalyzeText(tagger, word)[0]
  {
    var infos := AnalyzeText(tagger, word);
    if |infos| > 0 then infos[0] else Fallback(word)
  }

  // ---------------------------------------------------------------- compatibility

  /** The coarse tags that may stand in for each other. */
  const CompatibleGroups: seq<set<string>> := [{"NOUN", "PROPN"}, {"ADJ", "ADV"}]

  /** The loop over `compatible_groups`. */
  function InSomeGroup(groups: seq<set<string>>, pos1: string, pos2: string): (r: bool)
    ensures r <==> exists g :: 0 <= g < |groups| && pos1 in groups[g] && pos2 in groups[g]
  {
    if |groups| == 0 then false
    else if pos1 in groups[0] && pos2 in groups[0] then true
    else InSomeGroup(groups[1..], pos1, pos2)
  }

  /** `_pos_compatible`. */
  function PosCompatible(pos1: string, pos2: string): (r: bool)
    ensures pos1 == pos2 ==> r
  {
    pos1 == pos2 || InSomeGroup(CompatibleGroups, pos1, pos2)
  }

  /** Compatible tags are equal, or NOUN/PROPN, or ADJ/ADV, in either order; the
      relation is therefore symmetric. */
  lemma PosCompatibleCharacterization(pos1: string, pos2: string)
    ensures PosCompatible(pos1, pos2) <==>
      || pos1 == pos2
      || (pos1 == "NOUN" && pos2 == "PROPN") || (pos1 == "PROPN" && pos2 == "NOUN")
      || (pos1 == "ADJ" && pos2 == "ADV") || (pos1 == "ADV" && pos2 == "ADJ")
    ensures PosCompatible(pos1, pos2) == PosCompatible(pos2, pos1)
  {
    assert CompatibleGroups[0] == {"NOUN", "PROPN"} && CompatibleGroups[1] == {"ADJ", "ADV"};
  }

  /** The features whose values must agree. */
  const KeyFeatures: seq<string> := ["Number", "Tense", "Person", "Mood", "VerbForm"]

  /** `morph.get(feature)`, with a missing feature read as the (falsy) empty value. */
  function Get(m: map<string, string>, key: string): string
  {
    if key in m then m[key] else ""
  }

  /** Both maps carry a non-empty value for `key`, and the values differ. */
  predicate Clash(m1: map<string, string>, m2: map<string, string>, key: string)
  {
    Get(m1, key) != "" && Get(m2, key) != "" && Get(m1, key) != Get(m2, key)
  }

  /** The loop of `_morph_compatible` over `keys`. */
  function MorphAgree(m1: map<string, string>, m2: map<string, string>, keys: seq<string>): (r: bool)
    ensures r <==> forall i :: 0 <= i < |keys| ==> !Clash(m1, m2, keys[i])
  {
    if |keys| == 0 then true
    else
      var v1 := Get(m1, keys[0]);
      var v2 := Get(m2, keys[0]);
      if v1 != "" && v2 != "" && v1 != v2 then false
      else MorphAgree(m1, m2, keys[1..])
  }

  /** `_morph_compatible`. */
  function MorphCompatible(m1: map<string, string>, m2: map<string, string>): (r: bool)
    ensures r <==> forall key :: key in KeyFeatures ==> !Clash(m1, m2, key)
  {
    MorphAgree(m1, m2, KeyFeatures)
  }

  /** Agreement is symmetric, and only the key features matter: two maps that
      agree on them are interchangeable. */
  lemma MorphCompatibleSymmetricAndLocal(m1: map<string, string>, m2: map<string, string>, m1': map<string, string>)
    ensures MorphCompatible(m1, m2) == MorphCompatible(m2, m1)
    ensures (forall key :: key in KeyFeatures ==> Get(m1, key) == Get(m1', key)) ==>
      MorphCompatible(m1, m2) == MorphCompatible(m1', m2)
  {
  }

  /** A feature outside the key list, such as "Degree", never causes a clash. */
  lemma NonKeyFeatureIgnored()
    ensures MorphCompatible(map["Degree" := "Pos", "Number" := "Sing"], map["Degree" := "Cmp", "Number" := "Sing"])
    ensures !MorphCompatible(map["Number" := "Plur"], map["Number" := "Sing"])
    ensures MorphCompatible(map["Number" := "Plur"], map[])
  {
    assert "Number" in KeyFeatures;
  }

  /** `is_compatible`. */
  function IsCompatible(original: WordInfo, candidate: WordInfo, strictMorph: bool): (r: bool)
    ensures original.isProper || original.isNumeric ==> !r
    ensures candidate.isProper || candidate.isNumeric ==> !r
    ensures r ==> PosCompatible(original.pos, candidate.pos)
    ensures !strictMorph ==>
      (r <==> !original.isProper && !original.isNumeric && !candidate.isProper && !candidate.isNumeric
               && PosCompatible(original.pos, candidate.pos))
    ensures strictMorph ==>
      (r <==> !original.isProper && !original.isNumeric && !candidate.isProper && !candidate.isNumeric
               && PosCompatible(original.pos, candidate.pos) && MorphCompatible(original.morph, candidate.morph))
  {
    if original.isProper || original.isNumeric then false
    else if candidate.isProper || candidate.isNumeric then false
    else if !PosCompatible(original.pos, candidate.pos) then false
    else if strictMorph then MorphCompatible(original.morph, candidate.morph)
    else true
  }

  // ---------------------------------------------------------------- filtering

  /** The first analysed context token equal to `word` up to case. */
  function FirstMatch(infos: seq<WordInfo>, word: string): (r: Option<nat>)
    ensures r.Some? ==> r.value < |infos| && Lower(infos[r.value].text) == Lower(word)
    ensures r.Some? ==> forall j :: 0 <= j < r.value ==> Lower(infos[j].text) != Lower(word)
    ensures r.None? ==> forall j :: 0 <= j < |infos| ==> Lower(infos[j].text) != Lower(word)
  {
    if |infos| == 0 then None
    else if Lower(infos[0].text) == Lower(word) then Some(0)
    else match FirstMatch(infos[1..], word)
      case None => None
      case Some(k) => Some(k + 1)
  }

  /** The info `filter_candidates` judges the original by: its first occurrence in
      the context, or the word analysed on its own. */
  function OriginalInfo(tagger: Tagger, originalWord: string, context: string): WordInfo
  {
    var infos := AnalyzeText(tagger, context);
    match FirstMatch(infos, originalWord)
    case Some(k) => infos[k]
    case None => GetWordInfo(tagger, originalWord)
  }

  /** The candidates that pass `is_compatible` against `original`. */
  function CompatibleWith(tagger: Tagger, original: WordInfo, strict: bool): string -> bool
  {
    c => IsCompatible(original, GetWordInfo(tagger, c), strict)
  }

  /** `filter_candidates`: the compatible candidates, in their original order. */
  function FilterCandidates(tagger: Tagger, originalWord: string, candidates: seq<string>,
                            context: string, strict: bool): (r: seq<string>)
    ensures IsSubsequence(r, candidates)
    ensures forall i :: 0 <= i < |r| ==>
      IsCompatible(OriginalInfo(tagger, originalWord, context), GetWordInfo(tagger, r[i]), strict)
    ensures forall i :: 0 <= i < |candidates| ==>
      (IsCompatible(OriginalInfo(tagger, originalWord, context), GetWordInfo(tagger, candidates[i]), strict)
       ==> candidates[i] in r)
  {
    FilterCompatible(tagger, OriginalInfo(tagger, originalWord, context), candidates, strict);
    Filter(candidates, CompatibleWith(tagger, OriginalInfo(tagger, originalWord, context), strict))
  }

  /** Filtering with `CompatibleWith` keeps exactly the compatible candidates. */
  lemma FilterCompatible(tagger: Tagger, info: WordInfo, candidates: seq<string>, strict: bool)
    ensures var r := Filter(candidates, CompatibleWith(tagger, info, strict));
      && (forall i :: 0 <= i < |r| ==> IsCompatible(info, GetWordInfo(tagger, r[i]), strict))
      && (forall i :: 0 <= i < |candidates| ==>
            IsCompatible(info, GetWordInfo(tagger, candidates[i]), strict) ==> candidates[i] in r)
  {
  }

  /** A proper-noun or numeric original admits no candidate at all. */
  lemma ProtectedOriginalKeepsNothing(tagger: Tagger, originalWord: string, candidates: seq<string>,
                                      context: string, strict: bool)
    requires OriginalInfo(tagger, originalWord, context).isProper || OriginalInfo(tagger, originalWord, context).isNumeric
    ensures FilterCandidates(tagger, originalWord, candidates, context, strict) == []
  {
    var keep := CompatibleWith(tagger, OriginalInfo(tagger, originalWord, context), strict);
    assert forall i :: 0 <= i < |candidates| ==> !keep(candidates[i]);
    FilterNone(candidates, keep);
  }

  /** The tokens `extract_words` keeps. */
  predicate IsNonSpaceToken(t: TaggedToken)
  {
    !t.isSpace
  }

  function TokenTexts(toks: seq<TaggedToken>): (r: seq<string>)
    ensures |r| == |Filter(toks, IsNonSpaceToken)|
    ensures forall i :: 0 <= i < |r| ==> r[i] == Filter(toks, IsNonSpaceToken)[i].text
  {
    if |toks| == 0 then []
    else
      var rest := TokenTexts(toks[1..]);
      if IsNonSpaceToken(toks[0]) then [toks[0].text] + rest else rest
  }

  /** `extract_words`: the texts of the non-whitespace tokens, in order. */
  function ExtractWords(tagger: Tagger, text: string): (r: seq<string>)
    ensures |r| <= |tagger(text)|
  {
    TokenTexts(tagger(text))
  }
}

=== FILE: pytext.dfy ===
/** The parts of Python's `str` behaviour that the refinement engine relies on.

    Case is modelled for the ASCII letters only: `'A'..'Z'` and `'a'..'z'` are the
    cased characters and every other character is left alone by upper/lower.
    Letters (`str.isalpha`) are the ASCII letters plus the Latin-1 and Latin
    Extended-A letters, so that the byte-level BPE marker `'Ġ'` (U+0120) counts as
    alphabetic exactly as it does in Python. */
module PyText {
  import opened Wrappers

  predicate IsUpperChar(c: char) { 'A' <= c <= 'Z' }
  predicate IsLowerChar(c: char) { 'a' <= c <= 'z' }
  predicate IsCased(c: char) { IsUpperChar(c) || IsLowerChar(c) }

  /** `c.isalpha()` over the modelled alphabet. */
  predicate IsLetter(c: char)
  {
    IsCased(c) || ('\U{C0}' <= c <= '\U{17F}' && c != '\U{D7}' && c != '\U{F7}')
  }

  /** `c.isspace()`: the characters Python's argument-less `strip()` removes. */
  predicate IsSpace(c: char)
  {
    c == ' ' || ('\t' <= c <= '\r') || ('\U{1C}' <= c <= '\U{1F}')
    || c == '\U{85}' || c == '\U{A0}' || c == '\U{1680}' || ('\U{2000}' <= c <= '\U{200A}')
    || c == '\U{2028}' || c == '\U{2029}' || c == '\U{202F}' || c == '\U{205F}' || c == '\U{3000}'
  }

  function UpperChar(c: char): (r: char)
    ensures IsLowerChar(c) ==> IsUpperChar(r)
    ensures !IsLowerChar(c) ==> r == c
  {
    if IsLowerChar(c) then (c as int - 32) as char else c
  }

  function LowerChar(c: char): (r: char)
    ensures IsUpperChar(c) ==> IsLowerChar(r)
    ensures !IsUpperChar(c) ==> r == c
  {
    if IsUpperChar(c) then (c as int + 32) as char else c
  }

  lemma LowerOfUpperChar(c: char)
    ensures LowerChar(UpperChar(c)) == LowerChar(c)
  {
  }

  function Upper(s: string): (r: string)
    ensures |r| == |s|
    ensures forall i :: 0 <= i < |s| ==> r[i] == UpperChar(s[i])
  {
    seq(|s|, i requires 0 <= i < |s| => UpperChar(s[i]))
  }

  function Lower(s: string): (r: string)
    ensures |r| == |s|
    ensures forall i :: 0 <= i < |s| ==> r[i] == LowerChar(s[i])
  {
    seq(|s|, i requires 0 <= i < |s| => LowerChar(s[i]))
  }

  /** `s.isupper()`: some cased character and no lower-case one. */
  predicate PyIsUpper(s: string)
  {
    (exists i :: 0 <= i < |s| && IsUpperChar(s[i])) && (forall i :: 0 <= i < |s| ==> !IsLowerChar(s[i]))
  }

  /** `s.islower()`: some cased character and no upper-case one (false on ""). */
  predicate PyIsLower(s: string)
  {
    (exists i :: 0 <= i < |s| && IsLowerChar(s[i])) && (forall i :: 0 <= i < |s| ==> !IsUpperChar(s[i]))
  }

  /** `s.isalpha()`: non-empty and every character a letter. */
  predicate IsAlpha(s: string)
  {
    |s| > 0 && forall i :: 0 <= i < |s| ==> IsLetter(s[i])
  }

  /** `s.capitalize()`: first character upper-cased, the rest lower-cased. */
  function Capitalize(s: string): string
  {
    if |s| == 0 then "" else [UpperChar(s[0])] + Lower(s[1..])
  }

  predicate StartsWith(s: string, prefix: string)
  {
    |prefix| <= |s| && s[..|prefix|] == prefix
  }

  /** `s.replace(str(c), "")`. */
  function RemoveChar(s: string, c: char): (r: string)
    ensures |r| <= |s|
    ensures forall i :: 0 <= i < |r| ==> r[i] != c
    ensures forall i :: 0 <= i < |r| ==> r[i] in s
    ensures forall i :: 0 <= i < |s| && s[i] != c ==> s[i] in r
  {
    if |s| == 0 then ""
    else if s[0] == c then RemoveChar(s[1..], c)
    else [s[0]] + RemoveChar(s[1..], c)
  }

  function StripLeft(s: string): (r: string)
    ensures |r| <= |s| && r == s[|s| - |r|..]
    ensures |r| == 0 || !IsSpace(r[0])
    ensures forall i :: 0 <= i < |s| - |r| ==> IsSpace(s[i])
  {
    if |s| > 0 && IsSpace(s[0]) then StripLeft(s[1..]) else s
  }

  function StripRight(s: string): (r: string)
    ensures |r| <= |s| && r == s[..|r|]
    ensures |r| == 0 || !IsSpace(r[|r| - 1])
    ensures forall i :: |r| <= i < |s| ==> IsSpace(s[i])
  {
    if |s| > 0 && IsSpace(s[|s| - 1]) then StripRight(s[..|s| - 1]) else s
  }

  /** `s.strip()`: drop leading and trailing whitespace. */
  function Strip(s: string): string
  {
    StripRight(StripLeft(s))
  }

  /** What `strip()` keeps: the span of `s` between a blank prefix and a blank
      suffix, starting and ending with a non-space character unless empty. */
  lemma StripSpan(s: string)
    ensures var r, lo := Strip(s), LeadingBlanks(s);
      && lo + |r| <= |s| && r == s[lo..lo + |r|]
      && IsBlank(s[..lo]) && IsBlank(s[lo + |r|..])
      && (|r| == 0 || (!IsSpace(r[0]) && !IsSpace(r[|r| - 1])))
  {
    StripKeepsSpan(s);
    StripBlankEdges(s);
  }

  lemma StripKeepsSpan(s: string)
    ensures var r, lo := Strip(s), LeadingBlanks(s);
      && lo + |r| <= |s| && r == s[lo..lo + |r|]
      && (|r| == 0 || (!IsSpace(r[0]) && !IsSpace(r[|r| - 1])))
  {
    var l := StripLeft(s);
    var r := StripRight(l);
    var lo := |s| - |l|;
    assert r == l[..|r|] && l == s[lo..];
    assert |r| > 0 ==> r[0] == l[0];
  }

  lemma StripBlankEdges(s: string)
    ensures var r, lo := Strip(s), LeadingBlanks(s);
      lo + |r| <= |s| && IsBlank(s[..lo]) && IsBlank(s[lo + |r|..])
  {
    var l := StripLeft(s);
    var r := StripRight(l);
    var lo := |s| - |l|;
    var head := s[..lo];
    forall i | 0 <= i < |head|
      ensures IsSpace(head[i])
    {
      assert head[i] == s[i];
    }
    var tail := s[lo + |r|..];
    forall i | 0 <= i < |tail|
      ensures IsSpace(tail[i])
    {
      assert tail[i] == l[|r| + i];
    }
  }

  predicate IsBlank(s: string)
  {
    forall i :: 0 <= i < |s| ==> IsSpace(s[i])
  }

  /** How many whitespace characters `s` starts with. */
  function LeadingBlanks(s: string): nat
  {
    |s| - |StripLeft(s)|
  }

  /** `not s.strip()` holds exactly for the all-whitespace strings. */
  lemma StripEmptyIffBlank(s: string)
    ensures Strip(s) == "" <==> IsBlank(s)
  {
    var l := StripLeft(s);
    assert |l| > 0 ==> l[0] == s[|s| - |l|];
    if !IsBlank(s) {
      var k :| 0 <= k < |s| && !IsSpace(s[k]);
      assert |s| - |l| <= k;
      assert l[k - (|s| - |l|)] == s[k];
    }
  }

  predicate MatchAt(text: string, word: string, j: int)
  {
    0 <= j && j + |word| <= |text| && text[j..j + |word|] == word
  }

  /** `text.find(word, start)`: the first occurrence at or after `start`
      (`None` for Python's -1). */
  function Find(text: string, word: string, start: nat): (r: Option<nat>)
    ensures r.Some? ==> start <= r.value && MatchAt(text, word, r.value)
    ensures r.Some? ==> forall j :: start <= j < r.value ==> !MatchAt(text, word, j)
    ensures r.None? ==> forall j :: start <= j ==> !MatchAt(text, word, j)
    decreases |text| - start
  {
    if start + |word| > |text| then None
    else if text[start..start + |word|] == word then Some(start)
    else Find(text, word, start + 1)
  }

  function Occurrences(s: string, c: char): nat
  {
    if |s| == 0 then 0 else (if s[0] == c then 1 else 0) + Occurrences(s[1..], c)
  }

  /** `s.split(sep)` with an explicit one-character separator. */
  function Split(s: string, sep: char): (r: seq<string>)
    ensures |r| >= 1
  {
    if |s| == 0 then [""]
    else
      var rest := Split(s[1..], sep);
      if s[0] == sep then [""] + rest else [[s[0]] + rest[0]] + rest[1..]
  }

  function Join(parts: seq<string>, sep: char): string
  {
    if |parts| == 0 then ""
    else if |parts| == 1 then parts[0]
    else parts[0] + [sep] + Join(parts[1..], sep)
  }

  /** `split` yields one more part than there are separators. */
  lemma {:induction false} SplitCount(s: string, sep: char)
    ensures |Split(s, sep)| == Occurrences(s, sep) + 1
  {
    if |s| > 0 {
      SplitCount(s[1..], sep);
    }
  }

  /** No part of `split` holds the separator. */
  lemma {:induction false} SplitPartsFree(s: string, sep: char)
    ensures forall k, i :: 0 <= k < |Split(s, sep)| && 0 <= i < |Split(s, sep)[k]| ==> Split(s, sep)[k][i] != sep
  {
    if |s| > 0 {
      SplitPartsFree(s[1..], sep);
      var rest := Split(s[1..], sep);
      var r := Split(s, sep);
      if s[0] != sep {
        forall k, i | 0 <= k < |r| && 0 <= i < |r[k]|
          ensures r[k][i] != sep
        {
          if k == 0 && i > 0 {
            assert r[0][i] == rest[0][i - 1];
          } else if k > 0 {
            assert r[k] == rest[k];
          }
        }
      }
    }
  }

  /** Re-joining the parts of `split` gives the string back. */
  lemma {:induction false} SplitJoin(s: string, sep: char)
    ensures Join(Split(s, sep), sep) == s
  {
    if |s| > 0 {
      SplitJoin(s[1..], sep);
      var rest := Split(s[1..], sep);
      assert s == [s[0]] + s[1..];
      if s[0] == sep {
        assert Split(s, sep) == [""] + rest;
        assert Join([""] + rest, sep) == "" + [sep] + Join(rest, sep);
      } else {
        var r := Split(s, sep);
        assert r == [[s[0]] + rest[0]] + rest[1..];
        if |rest| == 1 {
          assert Join(r, sep) == [s[0]] + rest[0];
        } else {
          assert Join(rest, sep) == rest[0] + [sep] + Join(rest[1..], sep);
          assert r[1..] == rest[1..];
          assert Join(r, sep) == ([s[0]] + rest[0]) + [sep] + Join(rest[1..], sep);
        }
      }
    }
  }

  /** A string splits into exactly two parts on `sep` iff it holds `sep` exactly once,
      and then the parts are what lies before and after that occurrence. */
  lemma SplitInTwo(s: string, sep: char)
    ensures |Split(s, sep)| == 2 <==> Occurrences(s, sep) == 1
  {
    SplitCount(s, sep);
  }
}

=== FILE: refinement_pipeline.dfy ===
/** The refinement loop (refinement_pipeline.py): score a sentence, walk its flagged
    words left to right, try each word's compatible candidates in the sentence, keep
    the one with the largest windowed pseudo-log-likelihood gain that passes the
    gates, and splice it in, within an edit budget.

    Every model the pipeline loads is an oracle held in `Models`; the interactive
    prompt is an answer stream indexed by how many questions have been asked. */
module RefinementPipeline {
  import opened Wrappers
  import opened PyText
  import opened Seqs
  import opened Config
  import opened TokenizerUtils
  import opened Scorer
  import opened CandidateGenerator
  import opened LinguisticConstraints
  import opened SemanticChecker

  /** The loaded models. */
  datatype Models = Models(
    tok: Tokenizer,
    lm: MaskedLm,
    tagger: Tagger,
    sentences: string -> seq<string>,          // the texts of spaCy's `doc.sents`, unstripped
    embed: string -> seq<real>,
    cosine: (seq<real>, seq<real>) -> real,
    nli: (string, string) -> NliProbs
  )

  datatype Pipeline = Pipeline(config: FlowConfig, models: Models)

  /** The semantic checker the constructor builds: it loads the NLI model only when
      the check is switched on and a model is named. */
  function Checker(p: Pipeline): SemanticModels
  {
    SemanticModels(p.models.embed, p.models.cosine, p.models.nli,
                   p.config.useNliCheck && p.config.nliModel.Some?)
  }

  /** The marks whose one-character words are never offered for replacement. */
  const PunctuationMarks: set<char> := {'.', ',', '!', '?', ';', ':', '"', '\'', '(', ')'}

  /** Membership in the list `['.', ',', '!', '?', ';', ':', '"', "'", '(', ')']`,
      all of whose entries are single characters. */
  predicate IsPunctuation(w: string)
  {
    |w| == 1 && w[0] in PunctuationMarks
  }

  // ---------------------------------------------------------------- candidates

  function CandidateTexts(cs: seq<Candidate>): (r: seq<string>)
    ensures |r| == |cs| && forall i :: 0 <= i < |cs| ==> r[i] == cs[i].text
  {
    seq(|cs|, i requires 0 <= i < |cs| => cs[i].text)
  }

  /** `c.text in filtered_texts`, as a filter. */
  function TextIn(texts: seq<string>): Candidate -> bool
  {
    (c: Candidate) => c.text in texts
  }

  /** The candidates whose text survives `filter_candidates` (strict morphology,
      the current sentence as context), in their generated order. */
  function CompatibleCandidates(tagger: Tagger, text: string, word: string, cands: seq<Candidate>)
    : (r: seq<Candidate>)
    ensures IsSubsequence(r, cands)
    ensures forall i :: 0 <= i < |r| ==>
      IsCompatible(OriginalInfo(tagger, word, text), GetWordInfo(tagger, r[i].text), true)
    ensures forall i :: 0 <= i < |cands| ==>
      (IsCompatible(OriginalInfo(tagger, word, text), GetWordInfo(tagger, cands[i].text), true) ==> cands[i] in r)
  {
    CompatibleKept(tagger, text, word, cands);
    Filter(cands, TextIn(FilterCandidates(tagger, word, CandidateTexts(cands), text, true)))
  }

  /** Filtering candidates by the texts `filter_candidates` keeps leaves exactly
      the compatible candidates. */
  lemma CompatibleKept(tagger: Tagger, text: string, word: string, cands: seq<Candidate>)
    ensures var r := Filter(cands, TextIn(FilterCandidates(tagger, word, CandidateTexts(cands), text, true)));
      && (forall i :: 0 <= i < |r| ==>
            IsCompatible(OriginalInfo(tagger, word, text), GetWordInfo(tagger, r[i].text), true))
      && (forall i :: 0 <= i < |cands| ==>
            IsCompatible(OriginalInfo(tagger, word, text), GetWordInfo(tagger, cands[i].text), true) ==> cands[i] in r)
  {
    var kept := FilterCandidates(tagger, word, CandidateTexts(cands), text, true);
    TextsFiltered(tagger, text, word, cands);
    KeptTexts(cands, kept, CompatibleWith(tagger, OriginalInfo(tagger, word, text), true));
  }

  /** The texts `filter_candidates` keeps are exactly the compatible ones. */
  lemma TextsFiltered(tagger: Tagger, text: string, word: string, cands: seq<Candidate>)
    ensures var kept := FilterCandidates(tagger, word, CandidateTexts(cands), text, true);
      var ok := CompatibleWith(tagger, OriginalInfo(tagger, word, text), true);
      && (forall j :: 0 <= j < |kept| ==> ok(kept[j]))
      && (forall i :: 0 <= i < |cands| ==> ok(cands[i].text) ==> cands[i].text in kept)
  {
    var texts := CandidateTexts(cands);
    var kept := FilterCandidates(tagger, word, texts, text, true);
    forall i | 0 <= i < |cands|
      ensures CompatibleWith(tagger, OriginalInfo(tagger, word, text), true)(cands[i].text) ==> cands[i].text in kept
    {
      assert texts[i] == cands[i].text;
    }
  }

  /** Filtering candidates by membership of their text in a list of texts that
      are exactly the acceptable ones keeps exactly the acceptable candidates. */
  lemma KeptTexts(cands: seq<Candidate>, kept: seq<string>, ok: string -> bool)
    requires forall j :: 0 <= j < |kept| ==> ok(kept[j])
    requires forall i :: 0 <= i < |cands| ==> ok(cands[i].text) ==> cands[i].text in kept
    ensures var r := Filter(cands, TextIn(kept));
      && (forall i :: 0 <= i < |r| ==> ok(r[i].text))
      && (forall i :: 0 <= i < |cands| ==> ok(cands[i].text) ==> cands[i] in r)
  {
    var r := Filter(cands, TextIn(kept));
    forall i | 0 <= i < |r|
      ensures ok(r[i].text)
    {
      assert TextIn(kept)(r[i]);
      var j :| 0 <= j < |kept| && kept[j] == r[i].text;
    }
    forall i | 0 <= i < |cands| && ok(cands[i].text)
      ensures cands[i] in r
    {
      assert TextIn(kept)(cands[i]);
    }
  }

  /** Generate the word's candidates, then keep the compatible ones. */
  function FilteredCandidates(p: Pipeline, text: string, ids: seq<int>, a: WordAlignment, word: string)
    : seq<Candidate>
    requires TokensValid(a, ids)
  {
    CompatibleCandidates(p.models.tagger, text, word,
                         GenerateCandidates(p.models.lm, p.models.tok, ids, a, word, p.config.topKCandidates))
  }

  // ---------------------------------------------------------------- trying a candidate

  /** One candidate tried in the sentence: the decoded new sentence, the windowed
      PLL gain around the word's first token, the similarity to the current text,
      and whether the gates let it through. */
  datatype Trial = Trial(candidate: Candidate, newText: string, gain: real, similarity: real, passes: bool)

  /** The gain of `new_ids` over `ids`, both windows centred on the word's first
      token of the current ids. */
  function PllGain(p: Pipeline, ids: seq<int>, newIds: seq<int>, a: WordAlignment): real
  {
    var w := p.config.pllWindowSize;
    var mask := p.models.tok.maskId;
    WindowedPll(p.models.lm, newIds, a.tokenStart, w, mask) - WindowedPll(p.models.lm, ids, a.tokenStart, w, mask)
  }

  /** One iteration of `_find_best_edit`'s loop. The gate: gain and similarity at
      their thresholds, and, with the NLI check on, `is_semantically_preserved`
      without allowing a contradiction; that last test only bites when an NLI
      model is loaded, and then only on a contradiction verdict. */
  function Try(p: Pipeline, text: string, ids: seq<int>, a: WordAlignment, c: Candidate): (t: Trial)
    requires a.tokenStart <= a.tokenEnd <= |ids|
    ensures t.candidate == c
    ensures t.newText == ReconstructSentence(p.models.tok, ids, c.text, a).0
    ensures t.similarity == ComputeSimilarity(Checker(p), text, t.newText)
    ensures t.passes <==>
      && t.gain >= p.config.minPllGain
      && t.similarity >= p.config.minSbertCosine
      && (p.config.useNliCheck && p.config.nliModel.Some? ==>
            CheckEntailment(Checker(p), text, t.newText).0 != Contradiction)
  {
    var (newText, newIds) := ReconstructSentence(p.models.tok, ids, c.text, a);
    var gain := PllGain(p, ids, newIds, a);
    var similarity := ComputeSimilarity(Checker(p), text, newText);
    var passes :=
      && gain >= p.config.minPllGain
      && similarity >= p.config.minSbertCosine
      && (p.config.useNliCheck ==>
            IsSemanticallyPreserved(Checker(p), text, newText, p.config.minSbertCosine, false).0);
    Trial(c, newText, gain, similarity, passes)
  }

  /** A candidate whose tokens are the word's own leaves the ids unchanged and so
      gains nothing. */
  lemma OwnTokensGainNothing(p: Pipeline, text: string, ids: seq<int>, a: WordAlignment, c: Candidate)
    requires TokensValid(a, ids)
    requires p.models.tok.encodeWord(c.text) == a.tokenIds
    ensures Try(p, text, ids, a, c).gain == 0.0
  {
    ReconstructOwnTokensIsIdentity(ids, a);
  }

  function Trials(p: Pipeline, text: string, ids: seq<int>, a: WordAlignment, cs: seq<Candidate>): (r: seq<Trial>)
    requires a.tokenStart <= a.tokenEnd <= |ids|
    ensures |r| == |cs|
    ensures forall i :: 0 <= i < |cs| ==> r[i] == Try(p, text, ids, a, cs[i])
    ensures forall i :: 0 <= i < |r| && r[i].passes ==>
      r[i].gain >= p.config.minPllGain && r[i].similarity >= p.config.minSbertCosine
  {
    seq(|cs|, i requires 0 <= i < |cs| => Try(p, text, ids, a, cs[i]))
  }

  /** The best-so-far scan over the first `n` trials: a passing trial replaces the
      best only with a strictly larger gain, so the earliest maximum wins. */
  function BestUpTo(ts: seq<Trial>, n: nat): (r: Option<nat>)
    requires n <= |ts|
    ensures r.None? <==> forall i :: 0 <= i < n ==> !ts[i].passes
    ensures r.Some? ==> r.value < n && ts[r.value].passes
    ensures r.Some? ==> forall i :: 0 <= i < n && ts[i].passes ==> ts[i].gain <= ts[r.value].gain
    ensures r.Some? ==> forall i :: 0 <= i < r.value && ts[i].passes ==> ts[i].gain < ts[r.value].gain
  {
    if n == 0 then None
    else
      var b := BestUpTo(ts, n - 1);
      if !ts[n - 1].passes then b
      else match b
        case None => Some(n - 1)
        case Some(j) => if ts[n - 1].gain > ts[j].gain then Some(n - 1) else b
  }

  // ---------------------------------------------------------------- the edit

  /** The parts of `_generate_reason`'s message, numbers unformatted. */
  datatype Reason = HighUncertainty(entropy: real) | LowRank(rank: int)
                  | ImprovesFluency(gain: real) | PreservesMeaning(similarity: real)

  /** The flag part of `_generate_reason`: uncertainty first, then rank, each
      present iff its configured threshold is reached. */
  function FlagParts(c: FlowConfig, s: WordScore): (r: seq<Reason>)
    ensures |r| <= 2
    ensures forall i :: 0 <= i < |r| ==> r[i].HighUncertainty? || r[i].LowRank?
    ensures HighUncertainty(s.entropy) in r <==> s.entropy >= c.minEntropy
    ensures LowRank(s.rank) in r <==> s.rank >= c.maxOriginalRank
  {
    var uncertain: seq<Reason> := if s.entropy >= c.minEntropy then [HighUncertainty(s.entropy)] else [];
    var unlikely: seq<Reason> := if s.rank >= c.maxOriginalRank then [LowRank(s.rank)] else [];
    assert HighUncertainty(s.entropy) !in unlikely;
    assert LowRank(s.rank) !in uncertain;
    uncertain + unlikely
  }

  /** `_generate_reason`: why the word was flagged (by the configured thresholds),
      then the gain and the similarity, always. */
  function GenerateReason(c: FlowConfig, s: WordScore, gain: real, similarity: real): (r: seq<Reason>)
    ensures 2 <= |r| <= 4
    ensures r[|r| - 2..] == [ImprovesFluency(gain), PreservesMeaning(similarity)]
    ensures HighUncertainty(s.entropy) in r <==> s.entropy >= c.minEntropy
    ensures LowRank(s.rank) in r <==> s.rank >= c.maxOriginalRank
    ensures Clunky(s, c.minEntropy, c.maxOriginalRank) ==> |r| >= 3
  {
    var flags := FlagParts(c, s);
    var tail := [ImprovesFluency(gain), PreservesMeaning(similarity)];
    assert HighUncertainty(s.entropy) !in tail && LowRank(s.rank) !in tail;
    var r := flags + tail;
    assert r[|r| - 2..] == tail;
    r
  }

  /** `Edit`. */
  datatype Edit = Edit(
    wordIdx: nat,
    originalWord: string,
    replacement: string,
    originalScore: WordScore,
    pllGain: real,
    similarity: real,
    reason: seq<Reason>,
    topAlternatives: seq<(string, real)>   // (word, gain)
  )

  function AltGain(alt: (string, real)): real { alt.1 }

  /** Every tried candidate with its gain, in trial order. */
  function Alternatives(ts: seq<Trial>): (r: seq<(string, real)>)
    ensures |r| == |ts| && forall i :: 0 <= i < |ts| ==> r[i] == (ts[i].candidate.text, ts[i].gain)
  {
    seq(|ts|, i requires 0 <= i < |ts| => (ts[i].candidate.text, ts[i].gain))
  }

  /** How many candidates `_find_best_edit` tries. */
  const MaxTrials := 10

  /** The decision half of `_find_best_edit`, over the trials already made: no
      edit when none passes; otherwise the earliest passing trial of largest gain,
      with the three best-gaining trials (passing or not) as alternatives. */
  function SelectEdit(c: FlowConfig, s: WordScore, ts: seq<Trial>): (r: Option<Edit>)
    ensures r.None? <==> forall i :: 0 <= i < |ts| ==> !ts[i].passes
    ensures r.Some? ==>
      && BestUpTo(ts, |ts|).Some?
      && var b := BestUpTo(ts, |ts|).value;
      && r.value.replacement == ts[b].candidate.text
      && r.value.pllGain == ts[b].gain && r.value.similarity == ts[b].similarity
    ensures r.Some? ==> forall i :: 0 <= i < |ts| && ts[i].passes ==> ts[i].gain <= r.value.pllGain
    ensures r.Some? ==> r.value.wordIdx == s.wordIdx && r.value.originalWord == s.wordText && r.value.originalScore == s
    ensures r.Some? ==> r.value.reason == GenerateReason(c, s, r.value.pllGain, r.value.similarity)
    ensures r.Some? ==>
      && |r.value.topAlternatives| == (if |ts| < 3 then |ts| else 3)
      && SortedDesc(r.value.topAlternatives, AltGain)
      && multiset(r.value.topAlternatives) <= multiset(Alternatives(ts))
  {
    match BestUpTo(ts, |ts|)
    case None => None
    case Some(b) =>
      var top := PyTake(SortDesc(Alternatives(ts), AltGain), 3);
      TakeSorted(Alternatives(ts), 3, AltGain);
      Some(Edit(s.wordIdx, s.wordText, ts[b].candidate.text, s, ts[b].gain, ts[b].similarity,
                GenerateReason(c, s, ts[b].gain, ts[b].similarity), top))
  }

  /** The alternatives are the top three: a trial that is left out gains no more
      than the last alternative shown. */
  lemma AlternativesAreTopThree(c: FlowConfig, s: WordScore, ts: seq<Trial>, k: nat)
    requires SelectEdit(c, s, ts).Some? && k < |ts|
    ensures var e := SelectEdit(c, s, ts).value;
      ts[k].gain > e.topAlternatives[|e.topAlternatives| - 1].1 ==>
      (ts[k].candidate.text, ts[k].gain) in e.topAlternatives
  {
    var alts := Alternatives(ts);
    assert SelectEdit(c, s, ts).value.topAlternatives == PyTake(SortDesc(alts, AltGain), 3);
    TakeSortedKeepsLarger(alts, 3, AltGain, alts[k]);
  }

  /** `_find_best_edit`: try the first ten candidates, then select. There is an
      edit exactly when one of those passes, and it is a passing candidate of the
      largest gain among them, so it meets the gain and similarity thresholds. */
  function FindBestEdit(p: Pipeline, text: string, s: WordScore, a: WordAlignment, cands: seq<Candidate>,
                        ids: seq<int>): (r: Option<Edit>)
    requires a.tokenStart <= a.tokenEnd <= |ids|
    ensures r.None? <==>
      forall i :: 0 <= i < |PyTake(cands, MaxTrials)| ==> !Try(p, text, ids, a, PyTake(cands, MaxTrials)[i]).passes
    ensures r.Some? ==>
      && r.value.wordIdx == s.wordIdx && r.value.originalWord == s.wordText && r.value.originalScore == s
      && r.value.pllGain >= p.config.minPllGain && r.value.similarity >= p.config.minSbertCosine
    ensures r.Some? ==>
      exists i :: 0 <= i < |PyTake(cands, MaxTrials)| && Tried(p, text, ids, a, PyTake(cands, MaxTrials)[i], r.value)
    ensures r.Some? ==>
      forall i :: (0 <= i < |PyTake(cands, MaxTrials)| && Try(p, text, ids, a, PyTake(cands, MaxTrials)[i]).passes) ==>
        Try(p, text, ids, a, PyTake(cands, MaxTrials)[i]).gain <= r.value.pllGain
  {
    var ts := Trials(p, text, ids, a, PyTake(cands, MaxTrials));
    var r := SelectEdit(p.config, s, ts);
    assert r.Some? ==> Tried(p, text, ids, a, PyTake(cands, MaxTrials)[BestUpTo(ts, |ts|).value], r.value);
    r
  }

  /** Edit `e` is what trying candidate `c` gave: the candidate passed, and the
      edit carries its text, gain and similarity. */
  predicate Tried(p: Pipeline, text: string, ids: seq<int>, a: WordAlignment, c: Candidate, e: Edit)
    requires a.tokenStart <= a.tokenEnd <= |ids|
  {
    var t := Try(p, text, ids, a, c);
    t.passes && e.replacement == c.text && e.pllGain == t.gain && e.similarity == t.similarity
  }

  /** Only the first ten candidates are ever looked at. */
  lemma OnlyFirstTenTried(p: Pipeline, text: string, s: WordScore, a: WordAlignment,
                          cands: seq<Candidate>, ids: seq<int>)
    requires a.tokenStart <= a.tokenEnd <= |ids|
    requires |cands| > MaxTrials
    ensures FindBestEdit(p, text, s, a, cands, ids) == FindBestEdit(p, text, s, a, cands[..MaxTrials], ids)
  {
    assert PyTake(cands, MaxTrials) == PyTake(cands[..MaxTrials], MaxTrials);
  }

  /** `_apply_edit`: splice the replacement over the word's characters and put it
      in the word's slot of the word list. */
  function ApplyEdit(text: string, words: seq<string>, a: WordAlignment, replacement: string)
    : (r: (string, seq<string>))
    requires a.charStart <= a.charEnd <= |text| && a.wordIdx < |words|
    ensures |r.0| == |text| - (a.charEnd - a.charStart) + |replacement|
    ensures r.0[..a.charStart] == text[..a.charStart]
    ensures r.0[a.charStart..a.charStart + |replacement|] == replacement
    ensures r.0[a.charStart + |replacement|..] == text[a.charEnd..]
    ensures |r.1| == |words| && r.1[a.wordIdx] == replacement
    ensures forall i :: 0 <= i < |words| && i != a.wordIdx ==> r.1[i] == words[i]
  {
    (text[..a.charStart] + replacement + text[a.charEnd..], words[a.wordIdx := replacement])
  }

  /** Applying the original word over the replacement's new span undoes an edit. */
  lemma ApplyEditUndo(text: string, words: seq<string>, a: WordAlignment, replacement: string)
    requires a.charStart <= a.charEnd <= |text| && a.wordIdx < |words|
    requires words[a.wordIdx] == text[a.charStart..a.charEnd]
    ensures var (t, w) := ApplyEdit(text, words, a, replacement);
      var back := a.(charEnd := a.charStart + |replacement|);
      ApplyEdit(t, w, back, words[a.wordIdx]) == (text, words)
  {
    var (t, w) := ApplyEdit(text, words, a, replacement);
    var back := a.(charEnd := a.charStart + |replacement|);
    var (t', w') := ApplyEdit(t, w, back, words[a.wordIdx]);
    assert t[..a.charStart] == text[..a.charStart];
    assert t[a.charStart + |replacement|..] == text[a.charEnd..];
    assert t' == text[..a.charStart] + text[a.charStart..a.charEnd] + text[a.charEnd..];
    assert text == text[..a.charStart] + text[a.charStart..a.charEnd] + text[a.charEnd..];
    assert w' == words;
  }

  // ---------------------------------------------------------------- interactive confirmation

  /** The alternative a digit answer picks, `int(response) - 1`. */
  function ChoiceIndex(response: string): (r: Option<nat>)
    ensures r.Some? <==> response in ["1", "2", "3"]
    ensures r.Some? ==> r.value < 3 && response == [('1' as int + r.value) as char]
  {
    if response == "1" then Some(0) else if response == "2" then Some(1)
    else if response == "3" then Some(2) else None
  }

  /** `_confirm_edit` on the line the user typed, stripped and lower-cased: "y"
      accepts, a digit 1-3 naming a listed alternative accepts that alternative
      instead, anything else declines. Accepting changes only the replacement. */
  function ConfirmEdit(e: Edit, answer: string): (r: Option<Edit>)
    ensures var response := Lower(Strip(answer));
      && (r.Some? <==> response == "y" ||
                       (ChoiceIndex(response).Some? && ChoiceIndex(response).value < |e.topAlternatives|))
      && (response == "y" ==> r == Some(e))
      && (r.Some? && response != "y" ==>
            r.value.replacement == e.topAlternatives[ChoiceIndex(response).value].0)
    ensures r.Some? ==> r.value == e.(replacement := r.value.replacement)
  {
    var response := Lower(Strip(answer));
    if response == "y" then Some(e)
    else if response == "n" then None
    else match ChoiceIndex(response)
      case Some(idx) =>
        if idx < |e.topAlternatives| then Some(e.(replacement := e.topAlternatives[idx].0)) else None
      case None => None
  }

  /** Picking an alternative skips the gates: the edit keeps the best candidate's
      gain and similarity while the text gets a word that may have failed them. */
  lemma AlternativeSkipsGates()
    ensures var s := WordScore(0, "big", 5.0, -9.0, 80, true);
      var e := Edit(0, "big", "large", s, 3.0, 0.99, [], [("large", 3.0), ("huge", -4.0)]);
      var r := ConfirmEdit(e, "2");
      && r.Some? && r.value.replacement == "huge" && r.value.pllGain == 3.0
      && e.topAlternatives[1].1 < Default.minPllGain
  {
    var s := WordScore(0, "big", 5.0, -9.0, 80, true);
    var e := Edit(0, "big", "large", s, 3.0, 0.99, [], [("large", 3.0), ("huge", -4.0)]);
    TypedTwo();
    var response := Lower(Strip("2"));
    assert response != "y" && response != "n";
    assert ChoiceIndex(response) == Some(1);
    assert ConfirmEdit(e, "2") == Some(e.(replacement := e.topAlternatives[1].0));
  }

  /** The answer "2" survives stripping and lower-casing unchanged. */
  lemma TypedTwo()
    ensures Lower(Strip("2")) == "2"
  {
    var answer := "2";
    assert answer[0] == '2' && !IsSpace('2');
    assert StripLeft(answer) == answer;
    assert answer[|answer| - 1] == '2';
    assert StripRight(answer) == answer;
    assert Strip(answer) == answer;
    var lowered := Lower(answer);
    assert |lowered| == 1 && lowered[0] == LowerChar('2');
    assert LowerChar('2') == '2';
    assert lowered == answer;
  }

  // ---------------------------------------------------------------- one sentence

  /** The state threaded through `refine_sentence`'s loop. `answered` counts the
      prompts already shown. */
  datatype LoopState = LoopState(text: string, words: seq<string>, edits: seq<Edit>, answered: nat)

  /** The first alignment of the given word, as the source's search loop finds it. */
  function FindAlignment(als: seq<WordAlignment>, wordIdx: nat): (r: Option<nat>)
    ensures r.Some? ==> r.value < |als| && als[r.value].wordIdx == wordIdx
    ensures r.Some? ==> forall i :: 0 <= i < r.value ==> als[i].wordIdx != wordIdx
    ensures r.None? ==> forall i :: 0 <= i < |als| ==> als[i].wordIdx != wordIdx
  {
    if |als| == 0 then None
    else if als[0].wordIdx == wordIdx then Some(0)
    else match FindAlignment(als[1..], wordIdx)
      case None => None
      case Some(k) => Some(k + 1)
  }

  /** The maximum number of edits a sentence can receive. */
  function EditBudget(c: FlowConfig): nat
  {
    if c.maxEditsPerSentence < 0 then 0 else c.maxEditsPerSentence
  }

  function Accept(st: LoopState, a: WordAlignment, e: Edit): (r: LoopState)
    requires a.charStart <= a.charEnd <= |st.text| && a.wordIdx < |st.words|
    ensures r.edits == st.edits + [e] && r.answered == st.answered
    ensures r.words == st.words[a.wordIdx := e.replacement]
  {
    var (t, w) := ApplyEdit(st.text, st.words, a, e.replacement);
    LoopState(t, w, st.edits + [e], st.answered)
  }

  /** The search half of one iteration: re-align the current text, find the
      word, generate and filter its candidates and pick the best edit. There is a
      proposal exactly when the word is located and one of its first ten
      candidates passes; the edit found is for this word, and the alignment
      locates the word's own characters. */
  function ProposeEdit(p: Pipeline, s: WordScore, text: string, words: seq<string>)
    : (r: Option<(WordAlignment, Edit)>)
    ensures r.Some? <==> Editable(p, s, text, words)
    ensures r.Some? ==>
      var (a, e) := r.value;
      && a.wordIdx == s.wordIdx < |words| && a.wordText == words[a.wordIdx]
      && a.charStart <= a.charEnd <= |text| && text[a.charStart..a.charEnd] == a.wordText
      && e.originalScore == s && e.wordIdx == s.wordIdx && e.originalWord == s.wordText
      && e.pllGain >= p.config.minPllGain && e.similarity >= p.config.minSbertCosine
    ensures r.Some? ==> r.value.0 in AlignWordsToTokens(text, p.models.tok.encode(text), words)
  {
    var enc := p.models.tok.encode(text);
    var ids := Ids(enc);
    match LocateWord(text, enc, words, s.wordIdx)
    case None => None
    case Some(a) =>
      match FindBestEdit(p, text, s, a, FilteredCandidates(p, text, ids, a, s.wordText), ids)
      case None => None
      case Some(best) => Some((a, best))
  }

  /** Word `s` is found in a fresh alignment of `text`, and one of its first ten
      filtered candidates passes the gates there. */
  predicate Editable(p: Pipeline, s: WordScore, text: string, words: seq<string>)
  {
    var enc := p.models.tok.encode(text);
    match LocateWord(text, enc, words, s.wordIdx)
    case None => false
    case Some(a) =>
      var tried := PyTake(FilteredCandidates(p, text, Ids(enc), a, s.wordText), MaxTrials);
      exists i :: 0 <= i < |tried| && Try(p, text, Ids(enc), a, tried[i]).passes
  }

  /** The first alignment of word `wordIdx` in a fresh alignment of `text`: the
      word's own characters, and a run of the encoding's ids. */
  function LocateWord(text: string, enc: seq<TokenPiece>, words: seq<string>, wordIdx: nat)
    : (r: Option<WordAlignment>)
    ensures r.Some? ==>
      && r.value.wordIdx == wordIdx < |words| && r.value.wordText == words[wordIdx]
      && r.value.charStart <= r.value.charEnd <= |text| && text[r.value.charStart..r.value.charEnd] == r.value.wordText
      && TokensValid(r.value, Ids(enc))
    ensures r.Some? ==> r.value in AlignWordsToTokens(text, enc, words)
    ensures r.None? <==> forall i :: 0 <= i < |AlignWordsToTokens(text, enc, words)| ==>
      AlignWordsToTokens(text, enc, words)[i].wordIdx != wordIdx
  {
    var als := AlignWordsToTokens(text, enc, words);
    match FindAlignment(als, wordIdx)
    case None => None
    case Some(k) =>
      assert AlignedTo(als[k], text, enc);
      Some(als[k])
  }

  /** One flagged word: propose an edit, ask (when interactive), apply. Nothing
      changes without an edit being recorded, and an edit changes exactly the
      flagged word's slot in the word list. */
  function RefineWord(p: Pipeline, s: WordScore, st: LoopState, interactive: bool, answers: nat -> string)
    : (r: LoopState)
    ensures |r.words| == |st.words|
    ensures r.answered == st.answered || (interactive && r.answered == st.answered + 1)
    ensures r.edits == st.edits ==> r.text == st.text && r.words == st.words
    ensures r.edits != st.edits ==>
      && |r.edits| == |st.edits| + 1 && r.edits == st.edits + [r.edits[|st.edits|]]
      && var e := r.edits[|st.edits|];
      && e.originalScore == s && e.wordIdx == s.wordIdx && e.originalWord == s.wordText
      && e.pllGain >= p.config.minPllGain && e.similarity >= p.config.minSbertCosine
      && s.wordIdx < |st.words| && r.words == st.words[s.wordIdx := e.replacement]
    ensures interactive ==> (r.answered == st.answered + 1 <==> Editable(p, s, st.text, st.words))
    ensures !interactive ==> (r.edits != st.edits <==> Editable(p, s, st.text, st.words))
  {
    match ProposeEdit(p, s, st.text, st.words)
    case None => st
    case Some((a, best)) =>
      if !interactive then Accept(st, a, best)
      else match ConfirmEdit(best, answers(st.answered))
        case None => st.(answered := st.answered + 1)
        case Some(e) => Accept(st, a, e).(answered := st.answered + 1)
  }

  /** Without prompts, an edit made is the one proposed, spliced over the word's
      characters in the text. */
  lemma AcceptsProposal(p: Pipeline, s: WordScore, st: LoopState, answers: nat -> string)
    requires Editable(p, s, st.text, st.words)
    ensures ProposeEdit(p, s, st.text, st.words).Some?
    ensures var r := RefineWord(p, s, st, false, answers);
      var a := ProposeEdit(p, s, st.text, st.words).value.0;
      var e := ProposeEdit(p, s, st.text, st.words).value.1;
      && r.edits == st.edits + [e]
      && r.text == st.text[..a.charStart] + e.replacement + st.text[a.charEnd..]
  {
  }

  /** With prompts, an editable word's edit depends on the answer: the edit the
      answer confirms (the best one, or a listed alternative in its place) is
      appended and spliced over the word's characters, and a declining answer
      leaves text and edits unchanged. */
  lemma ConfirmsProposal(p: Pipeline, s: WordScore, st: LoopState, answers: nat -> string)
    requires Editable(p, s, st.text, st.words)
    ensures ProposeEdit(p, s, st.text, st.words).Some?
    ensures var r := RefineWord(p, s, st, true, answers);
      var a := ProposeEdit(p, s, st.text, st.words).value.0;
      var c := ConfirmEdit(ProposeEdit(p, s, st.text, st.words).value.1, answers(st.answered));
      && r.answered == st.answered + 1
      && (c.None? ==> r.edits == st.edits && r.text == st.text)
      && (c.Some? ==>
            && r.edits == st.edits + [c.value]
            && r.text == st.text[..a.charStart] + c.value.replacement + st.text[a.charEnd..])
  {
  }

  /** `later` keeps `earlier` as a prefix. */
  predicate Extends(earlier: seq<Edit>, later: seq<Edit>)
  {
    |earlier| <= |later| && later[..|earlier|] == earlier
  }

  /** The edits from position `from` on are for flagged words and meet the thresholds. */
  predicate GoodEdits(c: FlowConfig, flagged: seq<WordScore>, edits: seq<Edit>, from: nat)
  {
    forall i :: from <= i < |edits| ==>
      && edits[i].originalScore in flagged
      && edits[i].wordIdx == edits[i].originalScore.wordIdx
      && edits[i].pllGain >= c.minPllGain && edits[i].similarity >= c.minSbertCosine
  }

  /** The loop of `refine_sentence` from the `k`-th flagged word on: stop when the
      flagged words run out or the budget is spent. */
  function RefineFrom(p: Pipeline, flagged: seq<WordScore>, k: nat, st: LoopState, interactive: bool,
                      answers: nat -> string): (r: LoopState)
    requires k <= |flagged|
    requires |st.edits| <= EditBudget(p.config)
    ensures |r.edits| <= EditBudget(p.config)
    ensures Extends(st.edits, r.edits) && GoodEdits(p.config, flagged, r.edits, |st.edits|)
    ensures |r.words| == |st.words|
    ensures !interactive ==> r.answered == st.answered
    ensures r.edits == st.edits ==> r.text == st.text && r.words == st.words
    decreases |flagged| - k
  {
    if k == |flagged| || |st.edits| >= p.config.maxEditsPerSentence then st
    else
      var st' := RefineWord(p, flagged[k], st, interactive, answers);
      var r := RefineFrom(p, flagged, k + 1, st', interactive, answers);
      StepGood(p, flagged, k, st, interactive, answers);
      ChainGood(p.config, flagged, st.edits, st'.edits, r.edits);
      r
  }

  /** A word that can be edited, reached with budget to spare, gets its edit:
      the walk's next edit is the one proposed for it. */
  lemma EditableWordIsEdited(p: Pipeline, flagged: seq<WordScore>, k: nat, st: LoopState, answers: nat -> string)
    requires k < |flagged| && |st.edits| < p.config.maxEditsPerSentence
    requires Editable(p, flagged[k], st.text, st.words)
    ensures var r := RefineFrom(p, flagged, k, st, false, answers);
      |r.edits| > |st.edits| && r.edits[|st.edits|] == ProposeEdit(p, flagged[k], st.text, st.words).value.1
  {
    var st' := RefineWord(p, flagged[k], st, false, answers);
    var r := RefineFrom(p, flagged, k + 1, st', false, answers);
    assert RefineFrom(p, flagged, k, st, false, answers) == r;
    AcceptsProposal(p, flagged[k], st, answers);
    assert st'.edits == st.edits + [ProposeEdit(p, flagged[k], st.text, st.words).value.1];
    assert r.edits[..|st'.edits|] == st'.edits;
    assert r.edits[..|st'.edits|][|st.edits|] == r.edits[|st.edits|];
  }

  /** One step adds at most one edit, for the word it looked at. */
  lemma StepGood(p: Pipeline, flagged: seq<WordScore>, k: nat, st: LoopState, interactive: bool,
                 answers: nat -> string)
    requires k < |flagged|
    ensures var st' := RefineWord(p, flagged[k], st, interactive, answers);
      Extends(st.edits, st'.edits) && GoodEdits(p.config, flagged, st'.edits, |st.edits|)
  {
    var st' := RefineWord(p, flagged[k], st, interactive, answers);
    if st'.edits == st.edits {
      NothingAddedIsGood(p.config, flagged, st.edits);
    } else {
      AppendGood(p.config, flagged, k, st.edits, st'.edits[|st.edits|]);
    }
  }

  lemma NothingAddedIsGood(c: FlowConfig, flagged: seq<WordScore>, edits: seq<Edit>)
    ensures Extends(edits, edits) && GoodEdits(c, flagged, edits, |edits|)
  {
    assert edits[..|edits|] == edits;
  }

  lemma AppendGood(c: FlowConfig, flagged: seq<WordScore>, k: nat, edits: seq<Edit>, e: Edit)
    requires k < |flagged| && e.originalScore == flagged[k] && e.wordIdx == flagged[k].wordIdx
    requires e.pllGain >= c.minPllGain && e.similarity >= c.minSbertCosine
    ensures Extends(edits, edits + [e]) && GoodEdits(c, flagged, edits + [e], |edits|)
  {
    assert (edits + [e])[..|edits|] == edits;
    assert (edits + [e])[|edits|] == e;
  }

  lemma ChainGood(c: FlowConfig, flagged: seq<WordScore>, a: seq<Edit>, b: seq<Edit>, r: seq<Edit>)
    requires Extends(a, b) && GoodEdits(c, flagged, b, |a|)
    requires Extends(b, r) && GoodEdits(c, flagged, r, |b|)
    ensures Extends(a, r) && GoodEdits(c, flagged, r, |a|)
  {
    assert r[..|a|] == r[..|b|][..|a|];
    forall i | |a| <= i < |b|
      ensures r[i] == b[i]
    {
      assert r[..|b|][i] == r[i];
    }
  }

  predicate EditsInOrder(edits: seq<Edit>)
  {
    forall i, j :: 0 <= i < j < |edits| ==> edits[i].wordIdx < edits[j].wordIdx
  }

  predicate ScoresInOrder(scores: seq<WordScore>)
  {
    forall i, j :: 0 <= i < j < |scores| ==> scores[i].wordIdx < scores[j].wordIdx
  }

  /** Walking the flagged words in order, each edit lands on a later word than the
      one before. */
  lemma {:induction false} RefineFromInOrder(p: Pipeline, flagged: seq<WordScore>, k: nat, st: LoopState,
                                             interactive: bool, answers: nat -> string)
    requires k <= |flagged| && |st.edits| <= EditBudget(p.config)
    requires ScoresInOrder(flagged) && EditsInOrder(st.edits)
    requires EditsBefore(st.edits, flagged, k)
    ensures EditsInOrder(RefineFrom(p, flagged, k, st, interactive, answers).edits)
    decreases |flagged| - k
  {
    if k < |flagged| && |st.edits| < p.config.maxEditsPerSentence {
      var st' := RefineWord(p, flagged[k], st, interactive, answers);
      StepInOrder(p, flagged, k, st, interactive, answers);
      RefineFromInOrder(p, flagged, k + 1, st', interactive, answers);
      assert RefineFrom(p, flagged, k, st, interactive, answers) == RefineFrom(p, flagged, k + 1, st', interactive, answers);
    }
  }

  /** Every edit so far is on a word before the `k`-th flagged one and all after it. */
  predicate EditsBefore(edits: seq<Edit>, flagged: seq<WordScore>, k: nat)
  {
    forall i, j :: 0 <= i < |edits| && k <= j < |flagged| ==> edits[i].wordIdx < flagged[j].wordIdx
  }

  /** One step of the walk keeps the edits in order and before the words still to come. */
  lemma StepInOrder(p: Pipeline, flagged: seq<WordScore>, k: nat, st: LoopState,
                    interactive: bool, answers: nat -> string)
    requires k < |flagged|
    requires ScoresInOrder(flagged) && EditsInOrder(st.edits) && EditsBefore(st.edits, flagged, k)
    ensures var st' := RefineWord(p, flagged[k], st, interactive, answers);
      EditsInOrder(st'.edits) && EditsBefore(st'.edits, flagged, k + 1)
  {
    var st' := RefineWord(p, flagged[k], st, interactive, answers);
    if st'.edits != st.edits {
      AppendInOrder(st.edits, st'.edits[|st.edits|], flagged, k);
    }
  }

  /** An edit on the `k`-th flagged word goes after every earlier edit. */
  lemma AppendInOrder(edits: seq<Edit>, e: Edit, flagged: seq<WordScore>, k: nat)
    requires k < |flagged| && e.wordIdx == flagged[k].wordIdx
    requires ScoresInOrder(flagged) && EditsInOrder(edits) && EditsBefore(edits, flagged, k)
    ensures EditsInOrder(edits + [e]) && EditsBefore(edits + [e], flagged, k + 1)
  {
    var r := edits + [e];
    forall i, j | 0 <= i < |r| && k + 1 <= j < |flagged|
      ensures r[i].wordIdx < flagged[j].wordIdx
    {
      if i < |edits| {
        assert r[i] == edits[i];
      }
    }
    forall i, j | 0 <= i < j < |r|
      ensures r[i].wordIdx < r[j].wordIdx
    {
      assert r[i] == edits[i];
      if j < |edits| {
        assert r[j] == edits[j];
      }
    }
  }

  /** `RefinementResult`. */
  datatype RefinementResult = RefinementResult(original: string, refined: string, edits: seq<Edit>,
                                               scores: seq<WordScore>)

  predicate IsFlagged(s: WordScore) { s.isClunky }

  function WordIdxOf(s: WordScore): int { s.wordIdx }

  /** The words flagged in a sentence, scored with the configured thresholds. */
  function SentenceScores(p: Pipeline, sentence: string): (r: seq<WordScore>)
    ensures ScoresInOrder(r)
    ensures forall i :: 0 <= i < |r| ==>
      (r[i].isClunky <==> r[i].entropy >= p.config.minEntropy || r[i].rank >= p.config.maxOriginalRank)
  {
    var words := ExtractWords(p.models.tagger, sentence);
    ScoreSentence(p.models.lm, p.models.tok, sentence, words, p.config.minEntropy, p.config.maxOriginalRank,
                  p.config.pllMethod)
  }

  /** `refine_sentence`, with the number of prompts shown so far coming in and the
      new count going out. At most the budgeted number of edits, each on a flagged
      word, in word order, each meeting the gain and similarity thresholds; a
      sentence with nothing flagged, or a zero budget, comes back unchanged. */
  function RefineSentence(p: Pipeline, sentence: string, interactive: bool, answers: nat -> string,
                          answered: nat): (r: (RefinementResult, nat))
    ensures r.0.original == sentence && r.0.scores == SentenceScores(p, sentence)
    ensures (forall i :: 0 <= i < |r.0.scores| ==> !r.0.scores[i].isClunky) ==>
      r.0.refined == sentence && r.0.edits == []
    ensures p.config.maxEditsPerSentence <= 0 ==> r.0.refined == sentence && r.0.edits == []
    ensures |r.0.edits| <= EditBudget(p.config)
    ensures forall i :: 0 <= i < |r.0.edits| ==>
      && r.0.edits[i].originalScore in r.0.scores && r.0.edits[i].originalScore.isClunky
      && r.0.edits[i].wordIdx == r.0.edits[i].originalScore.wordIdx
      && r.0.edits[i].pllGain >= p.config.minPllGain && r.0.edits[i].similarity >= p.config.minSbertCosine
    ensures EditsInOrder(r.0.edits)
    ensures r.0.edits == [] ==> r.0.refined == sentence
    ensures !interactive ==> r.1 == answered
  {
    var scores := SentenceScores(p, sentence);
    var flagged := Filter(scores, IsFlagged);
    if |flagged| == 0 then
      (RefinementResult(sentence, sentence, [], scores), answered)
    else
      var start := LoopState(sentence, ExtractWords(p.models.tagger, sentence), [], answered);
      var end := RefineFrom(p, flagged, 0, start, interactive, answers);
      WalkFacts(p, scores, start, interactive, answers);
      (RefinementResult(sentence, end.text, end.edits, scores), end.answered)
  }

  /** Without prompts and with a budget, a sentence whose first flagged word can
      be edited gets that word's proposed edit as its first edit. */
  lemma FirstEditableWordIsEdited(p: Pipeline, sentence: string, answers: nat -> string, answered: nat)
    requires p.config.maxEditsPerSentence > 0
    requires |Filter(SentenceScores(p, sentence), IsFlagged)| > 0
    requires Editable(p, Filter(SentenceScores(p, sentence), IsFlagged)[0], sentence,
                      ExtractWords(p.models.tagger, sentence))
    ensures var r := RefineSentence(p, sentence, false, answers, answered).0;
      && |r.edits| >= 1
      && r.edits[0] == ProposeEdit(p, Filter(SentenceScores(p, sentence), IsFlagged)[0], sentence,
                                   ExtractWords(p.models.tagger, sentence)).value.1
  {
    var flagged := Filter(SentenceScores(p, sentence), IsFlagged);
    var start := LoopState(sentence, ExtractWords(p.models.tagger, sentence), [], answered);
    EditableWordIsEdited(p, flagged, 0, start, answers);
  }

  /** What the walk over the flagged words guarantees about the edits it makes. */
  lemma WalkFacts(p: Pipeline, scores: seq<WordScore>, start: LoopState, interactive: bool,
                  answers: nat -> string)
    requires ScoresInOrder(scores) && start.edits == [] && |Filter(scores, IsFlagged)| > 0
    ensures Filter(scores, IsFlagged)[0] in scores && Filter(scores, IsFlagged)[0].isClunky
    ensures var end := RefineFrom(p, Filter(scores, IsFlagged), 0, start, interactive, answers);
      && EditsInOrder(end.edits)
      && forall i :: 0 <= i < |end.edits| ==> end.edits[i].originalScore in scores && end.edits[i].originalScore.isClunky
  {
    var flagged := Filter(scores, IsFlagged);
    InFilter(scores, IsFlagged, flagged[0]);
    var end := RefineFrom(p, flagged, 0, start, interactive, answers);
    FilterKeepsIncreasing(scores, IsFlagged, WordIdxOf);
    RefineFromInOrder(p, flagged, 0, start, interactive, answers);
    forall i | 0 <= i < |end.edits|
      ensures end.edits[i].originalScore in scores && end.edits[i].originalScore.isClunky
    {
      InFilter(scores, IsFlagged, end.edits[i].originalScore);
    }
  }

  // ---------------------------------------------------------------- a whole text

  /** `_split_sentences`: the splitter's sentences, stripped. */
  function SplitSentences(p: Pipeline, text: string): (r: seq<string>)
    ensures |r| == |p.models.sentences(text)|
    ensures forall i :: 0 <= i < |r| ==> |r[i]| == 0 || (!IsSpace(r[i][0]) && !IsSpace(r[i][|r[i]| - 1]))
    ensures forall i :: 0 <= i < |r| ==>
      var raw, lo := p.models.sentences(text)[i], LeadingBlanks(p.models.sentences(text)[i]);
      && lo + |r[i]| <= |raw| && r[i] == raw[lo..lo + |r[i]|]
      && IsBlank(raw[..lo]) && IsBlank(raw[lo + |r[i]|..])
  {
    var raw := p.models.sentences(text);
    StripEach(raw);
    seq(|raw|, i requires 0 <= i < |raw| => Strip(raw[i]))
  }

  /** `StripSpan` for every string of a list. */
  lemma StripEach(raw: seq<string>)
    ensures forall i :: 0 <= i < |raw| ==>
      var lo := LeadingBlanks(raw[i]);
      && lo + |Strip(raw[i])| <= |raw[i]| && Strip(raw[i]) == raw[i][lo..lo + |Strip(raw[i])|]
      && IsBlank(raw[i][..lo]) && IsBlank(raw[i][lo + |Strip(raw[i])|..])
      && (|Strip(raw[i])| == 0 || (!IsSpace(Strip(raw[i])[0]) && !IsSpace(Strip(raw[i])[|Strip(raw[i])| - 1])))
  {
    forall i | 0 <= i < |raw| {
      StripSpan(raw[i]);
    }
  }

  /** The sentences refined in order, the prompt count carried from one to the next. */
  function RefineAll(p: Pipeline, sentences: seq<string>, interactive: bool, answers: nat -> string,
                     answered: nat): (r: (seq<string>, nat))
    ensures |r.0| == |sentences|
    ensures !interactive ==> r.1 == answered
    ensures p.config.maxEditsPerSentence <= 0 ==> r.0 == sentences
  {
    if |sentences| == 0 then ([], answered)
    else
      var (first, next) := RefineSentence(p, sentences[0], interactive, answers, answered);
      var (rest, last) := RefineAll(p, sentences[1..], interactive, answers, next);
      assert p.config.maxEditsPerSentence <= 0 ==> [sentences[0]] + sentences[1..] == sentences;
      ([first.refined] + rest, last)
  }

  /** Without prompts, each sentence is refined on its own: its result is what
      refining that sentence alone gives. */
  lemma {:induction false} RefinesEachAlone(p: Pipeline, sentences: seq<string>, answers: nat -> string,
                                            answered: nat, i: nat)
    requires i < |sentences|
    ensures RefineAll(p, sentences, false, answers, answered).0[i] ==
            RefineSentence(p, sentences[i], false, answers, answered).0.refined
    decreases i
  {
    if i > 0 {
      RefinesEachAlone(p, sentences[1..], answers, answered, i - 1);
      assert sentences[1..][i - 1] == sentences[i];
    }
  }

  /** `refine_text`: the refined sentences joined by single spaces. */
  function RefineText(p: Pipeline, text: string, interactive: bool, answers: nat -> string): (r: string)
    ensures p.config.maxEditsPerSentence <= 0 ==> r == Join(SplitSentences(p, text), ' ')
  {
    Join(RefineAll(p, SplitSentences(p, text), interactive, answers, 0).0, ' ')
  }

  // ---------------------------------------------------------------- show_candidates_for_text

  /** One entry of `show_candidates_for_text`'s list. */
  datatype Modification = Modification(
    originalWord: string,
    replacement: string,
    newText: string,
    entropy: real,
    rank: int,
    pllGain: real,
    similarity: real,
    candidateLogProb: real,
    quality: real,
    passes: bool
  )

  /** The composite score: the word's entropy, the gain, the similarity and the
      candidate's log-probability, weighted 0.3, 2, 10 and 0.1. */
  function Quality(entropy: real, gain: real, similarity: real, logProb: real): real
  {
    entropy * 0.3 + gain * 2.0 + similarity * 10.0 + logProb * 0.1
  }

  /** A larger gain, similarity, entropy or log-probability never lowers the score,
      and the gain counts five times the similarity's unit weight in tenths. */
  lemma QualityMonotone(e: real, g: real, s: real, l: real, e': real, g': real, s': real, l': real)
    requires e <= e' && g <= g' && s <= s' && l <= l'
    ensures Quality(e, g, s, l) <= Quality(e', g', s', l')
    ensures g < g' ==> Quality(e, g, s, l) < Quality(e', g', s', l')
  {
  }

  function QualityOf(m: Modification): real { m.quality }

  /** The entries for one word's trials, gated on gain and similarity only. */
  function ToModifications(c: FlowConfig, s: WordScore, ts: seq<Trial>): (r: seq<Modification>)
    ensures |r| == |ts|
    ensures forall i :: 0 <= i < |r| ==>
      && r[i].originalWord == s.wordText && r[i].entropy == s.entropy && r[i].rank == s.rank
      && r[i].replacement == ts[i].candidate.text && r[i].candidateLogProb == ts[i].candidate.logProb
      && r[i].pllGain == ts[i].gain && r[i].similarity == ts[i].similarity
      && (r[i].passes <==> r[i].pllGain >= c.minPllGain && r[i].similarity >= c.minSbertCosine)
      && r[i].quality == Quality(s.entropy, r[i].pllGain, r[i].similarity, r[i].candidateLogProb)
  {
    seq(|ts|, i requires 0 <= i < |ts| =>
      Modification(s.wordText, ts[i].candidate.text, ts[i].newText, s.entropy, s.rank, ts[i].gain,
                   ts[i].similarity, ts[i].candidate.logProb,
                   Quality(s.entropy, ts[i].gain, ts[i].similarity, ts[i].candidate.logProb),
                   ts[i].gain >= c.minPllGain && ts[i].similarity >= c.minSbertCosine))
  }

  /** The listing for one word given its trials: nothing for punctuation,
      otherwise one entry per trial. */
  function WordModifications(c: FlowConfig, s: WordScore, ts: seq<Trial>): (r: seq<Modification>)
    ensures IsPunctuation(s.wordText) ==> r == []
    ensures !IsPunctuation(s.wordText) ==> |r| == |ts|
    ensures forall i :: 0 <= i < |r| ==>
      && r[i].originalWord == s.wordText
      && (r[i].passes <==> r[i].pllGain >= c.minPllGain && r[i].similarity >= c.minSbertCosine)
  {
    if IsPunctuation(s.wordText) then [] else ToModifications(c, s, ts)
  }

  /** The first ten filtered candidates of a word, tried in the sentence. */
  function WordTrials(p: Pipeline, sentence: string, ids: seq<int>, a: WordAlignment, word: string): (r: seq<Trial>)
    requires TokensValid(a, ids)
    ensures |r| <= MaxTrials
  {
    Trials(p, sentence, ids, a, PyTake(FilteredCandidates(p, sentence, ids, a, word), MaxTrials))
  }

  /** The listings of the pairs `zip(scores, trials)` from the `i`-th on, where
      `trials[j]` holds the trials of the `j`-th word. */
  function ModificationsFrom(c: FlowConfig, scores: seq<WordScore>, trials: seq<seq<Trial>>, i: nat)
    : (r: seq<Modification>)
    ensures forall m | m in r :: !IsPunctuation(m.originalWord)
    ensures forall m | m in r :: (m.passes <==> m.pllGain >= c.minPllGain && m.similarity >= c.minSbertCosine)
    decreases |scores| - i
  {
    if i >= |scores| || i >= |trials| then []
    else WordModifications(c, scores[i], trials[i]) + ModificationsFrom(c, scores, trials, i + 1)
  }

  /** All modifications of a sentence: every word scored with thresholds that flag
      everything, and the trials of each aligned word. */
  function SentenceModifications(p: Pipeline, sentence: string): (r: seq<Modification>)
    ensures forall m | m in r :: !IsPunctuation(m.originalWord)
    ensures forall m | m in r ::
      (m.passes <==> m.pllGain >= p.config.minPllGain && m.similarity >= p.config.minSbertCosine)
  {
    var words := ExtractWords(p.models.tagger, sentence);
    var scores := ScoreSentence(p.models.lm, p.models.tok, sentence, words, 0.0, 100000, p.config.pllMethod);
    var enc := p.models.tok.encode(sentence);
    var als := AlignWordsToTokens(sentence, enc, words);
    var n := if |scores| < |als| then |scores| else |als|;
    assert forall j :: 0 <= j < |als| ==> AlignedTo(als[j], sentence, enc);
    var trials := seq(n, j requires 0 <= j < n =>
      if IsPunctuation(scores[j].wordText) then []
      else WordTrials(p, sentence, Ids(enc), als[j], scores[j].wordText));
    ModificationsFrom(p.config, scores, trials, 0)
  }

  /** The `top_n` list shown for one sentence: the modifications by decreasing
      quality. */
  function ShowCandidates(p: Pipeline, sentence: string, topN: int): (r: seq<Modification>)
    ensures SortedDesc(r, QualityOf)
    ensures topN >= 0 ==> |r| <= topN
    ensures topN >= 0 ==> |r| == Min(topN, |SentenceModifications(p, sentence)|)
    ensures multiset(r) <= multiset(SentenceModifications(p, sentence))
    ensures forall m | m in r :: !IsPunctuation(m.originalWord)
    ensures forall m | m in r ::
      (m.passes <==> m.pllGain >= p.config.minPllGain && m.similarity >= p.config.minSbertCosine)
  {
    TopBy(SentenceModifications(p, sentence), QualityOf, topN)
  }

  /** A modification not shown scores no higher than the last one shown. */
  lemma ShownAreTheBest(p: Pipeline, sentence: string, topN: int, m: Modification)
    requires m in SentenceModifications(p, sentence) && topN > 0
    ensures var shown := ShowCandidates(p, sentence, topN);
      m.quality > shown[|shown| - 1].quality ==> m in shown
  {
    TakeSortedKeepsLarger(SentenceModifications(p, sentence), topN, QualityOf, m);
  }

  /** `show_candidates_for_text`: one list per sentence. */
  function ShowCandidatesForText(p: Pipeline, text: string, topN: int): (r: seq<seq<Modification>>)
    ensures |r| == |SplitSentences(p, text)|
    ensures forall i :: 0 <= i < |r| ==>
      && SortedDesc(r[i], QualityOf) && (topN >= 0 ==> |r[i]| <= topN)
      && (topN >= 0 ==> |r[i]| == Min(topN, |SentenceModifications(p, SplitSentences(p, text)[i])|))
      && multiset(r[i]) <= multiset(SentenceModifications(p, SplitSentences(p, text)[i]))
  {
    var sentences := SplitSentences(p, text);
    seq(|sentences|, i requires 0 <= i < |sentences| => ShowCandidates(p, sentences[i], topN))
  }

  /** Within each sentence's list, a modification left out scores no higher than
      the last one shown. */
  lemma ShownForTextAreTheBest(p: Pipeline, text: string, topN: int, i: nat, m: Modification)
    requires i < |SplitSentences(p, text)| && topN > 0
    requires m in SentenceModifications(p, SplitSentences(p, text)[i])
    ensures var shown := ShowCandidatesForText(p, text, topN)[i];
      m.quality > shown[|shown| - 1].quality ==> m in shown
  {
    ShownAreTheBest(p, SplitSentences(p, text)[i], topN, m);
  }
}

=== FILE: scorer.dfy ===
/** Masked-LM word scoring (scorer.py): the rank of a word's token, the bucketed
    rank of multi-piece words, the two masking schemes, the `is_clunky` flag and
    the windowed pseudo-log-likelihood.

    The masked language model is an oracle: given the (masked) ids and a position,
    it returns the softmax probability and log-probability of every token id at
    that position, the entropy in bits of that distribution, and the ids ordered
    by decreasing probability. */
module Scorer {
  import opened Wrappers
  import opened TokenizerUtils

  datatype Prediction = Prediction(
    prob: int -> real,
    logProb: int -> real,
    entropy: real,
    ranked: seq<int>       // `torch.topk` order: most probable id first
  )

  datatype MaskedLm = MaskedLm(vocabSize: nat, predict: (seq<int>, nat) -> Prediction)

  /** `WordScore`. */
  datatype WordScore = WordScore(
    wordIdx: nat,
    wordText: string,
    entropy: real,
    logProb: real,
    rank: int,
    isClunky: bool
  )

  /** The name of the masking scheme that masks a piece and everything to its right. */
  const WordL2r := "word-l2r"

  // ---------------------------------------------------------------- rank

  /** No id among `0..n-1` is strictly more probable than `x`. */
  predicate NoneAbove(p: int -> real, n: nat, x: real)
  {
    forall j :: 0 <= j < n ==> p(j) <= x
  }

  /** Every id among `0..n-1` is strictly more probable than `x`. */
  predicate AllAbove(p: int -> real, n: nat, x: real)
  {
    forall j :: 0 <= j < n ==> p(j) > x
  }

  /** How many of the ids `0..n-1` are strictly more probable than `x`. */
  function CountGreater(p: int -> real, n: nat, x: real): (r: nat)
    ensures r <= n
    ensures r == 0 <==> NoneAbove(p, n, x)
    ensures r == n <==> AllAbove(p, n, x)
  {
    if n == 0 then 0 else CountGreater(p, n - 1, x) + (if p(n - 1) > x then 1 else 0)
  }

  /** The counted ids are exactly the set of strictly more probable ids. */
  lemma {:induction false} CountGreaterIsCardinality(p: int -> real, n: nat, x: real)
    ensures CountGreater(p, n, x) == |set j | 0 <= j < n && p(j) > x|
  {
    if n > 0 {
      CountGreaterIsCardinality(p, n - 1, x);
      GreaterSetStep(p, n, x);
    }
  }

  /** The set of more probable ids among `0..n-1` gains at most the id `n - 1`. */
  lemma GreaterSetStep(p: int -> real, n: nat, x: real)
    requires n > 0
    ensures |set j | 0 <= j < n && p(j) > x| ==
      |set j | 0 <= j < n - 1 && p(j) > x| + (if p(n - 1) > x then 1 else 0)
  {
    var below := set j | 0 <= j < n - 1 && p(j) > x;
    var all := set j | 0 <= j < n && p(j) > x;
    if p(n - 1) > x {
      assert all == below + {n - 1};
    } else {
      assert all == below;
    }
  }

  /** A larger threshold never counts more ids, and raising it past one id's
      probability drops that id. */
  lemma {:induction false} CountGreaterStrict(p: int -> real, n: nat, x: real, y: real, t: int)
    requires x < y && 0 <= t < n && x < p(t) <= y
    ensures CountGreater(p, n, y) < CountGreater(p, n, x)
  {
    if n - 1 == t {
      CountGreaterAntitone(p, n - 1, x, y);
      assert CountGreater(p, n, y) == CountGreater(p, n - 1, y);
      assert CountGreater(p, n, x) == CountGreater(p, n - 1, x) + 1;
    } else {
      CountGreaterStrict(p, n - 1, x, y, t);
    }
  }

  lemma {:induction false} CountGreaterAntitone(p: int -> real, n: nat, x: real, y: real)
    requires x <= y
    ensures CountGreater(p, n, y) <= CountGreater(p, n, x)
  {
    if n > 0 {
      CountGreaterAntitone(p, n - 1, x, y);
      assert CountGreater(p, n, y) == CountGreater(p, n - 1, y) + (if p(n - 1) > y then 1 else 0);
      assert CountGreater(p, n, x) == CountGreater(p, n - 1, x) + (if p(n - 1) > x then 1 else 0);
    }
  }

  /** `(probs > probs[tok]).sum() + 1` over a vocabulary of `vocab` ids. */
  function Rank(p: int -> real, vocab: nat, tok: int): (r: int)
    ensures 1 <= r <= vocab + 1
    ensures r == 1 <==> forall j :: 0 <= j < vocab ==> p(j) <= p(tok)
  {
    1 + CountGreater(p, vocab, p(tok))
  }

  /** Tokens of equal probability share a rank, and a strictly more probable
      token of the vocabulary has a strictly better (smaller) rank. */
  lemma RankOrder(p: int -> real, vocab: nat, a: int, b: int)
    ensures p(a) == p(b) ==> Rank(p, vocab, a) == Rank(p, vocab, b)
    ensures 0 <= a < vocab && p(a) > p(b) ==> Rank(p, vocab, a) < Rank(p, vocab, b)
    ensures p(a) >= p(b) ==> Rank(p, vocab, a) <= Rank(p, vocab, b)
  {
    if 0 <= a < vocab && p(a) > p(b) {
      CountGreaterStrict(p, vocab, p(b), p(a), a);
    }
    if p(a) >= p(b) {
      CountGreaterAntitone(p, vocab, p(b), p(a));
    }
  }

  /** The heuristic rank of a multi-piece word from its total log-probability. */
  function BucketRank(totalLogProb: real): (r: int)
    ensures r == 1 || r == 10 || r == 50 || r == 100
    ensures r == 1 <==> totalLogProb > -2.0
    ensures r == 100 <==> totalLogProb <= -10.0
  {
    if totalLogProb > -2.0 then 1
    else if totalLogProb > -5.0 then 10
    else if totalLogProb > -10.0 then 50
    else 100
  }

  /** The bucketed rank never improves as the log-probability falls, and each
      cut point belongs to the worse bucket. */
  lemma BucketRankAntitone(x: real, y: real)
    ensures x <= y ==> BucketRank(y) <= BucketRank(x)
    ensures BucketRank(-2.0) == 10 && BucketRank(-5.0) == 50 && BucketRank(-10.0) == 100
  {
  }

  // ---------------------------------------------------------------- masking

  /** The ids fed to the model for piece `i` of a multi-piece word: under
      "word-l2r" the piece and every later piece of the word are masked, under
      any other scheme only the piece itself. */
  function PieceMask(ids: seq<int>, a: WordAlignment, i: nat, pllMethod: string, mask: int): (r: seq<int>)
    requires TokensValid(a, ids) && i < a.tokenEnd - a.tokenStart
    ensures |r| == |ids|
    ensures pllMethod == WordL2r ==>
      forall k :: 0 <= k < |ids| ==> r[k] == if a.tokenStart + i <= k < a.tokenEnd then mask else ids[k]
    ensures pllMethod != WordL2r ==>
      forall k :: 0 <= k < |ids| ==> r[k] == if k == a.tokenStart + i then mask else ids[k]
  {
    if pllMethod == WordL2r then MaskRange(ids, a.tokenStart + i, a.tokenEnd, mask)
    else MaskWordSpan(ids, a, Some(i), mask)
  }

  /** Under "word-l2r" the first piece sees the whole word masked, as a
      single-piece word does. */
  lemma FirstPieceMasksWholeWord(ids: seq<int>, a: WordAlignment, mask: int)
    requires TokensValid(a, ids)
    ensures PieceMask(ids, a, 0, WordL2r, mask) == MaskWordSpan(ids, a, None, mask)
  {
  }

  /** The model's prediction for piece `i` of the word. */
  function PiecePrediction(lm: MaskedLm, ids: seq<int>, a: WordAlignment, i: nat, pllMethod: string, mask: int): Prediction
    requires TokensValid(a, ids) && i < a.tokenEnd - a.tokenStart
  {
    lm.predict(PieceMask(ids, a, i, pllMethod, mask), a.tokenStart + i)
  }

  // ---------------------------------------------------------------- sums

  /** Left-to-right sum, in the order the source accumulates. */
  function Sum(xs: seq<real>): real
  {
    if |xs| == 0 then 0.0 else Sum(xs[..|xs| - 1]) + xs[|xs| - 1]
  }

  lemma SumSnoc(xs: seq<real>, x: real)
    ensures Sum(xs + [x]) == Sum(xs) + x
  {
    assert (xs + [x])[..|xs|] == xs;
  }

  lemma PrefixStep<T>(xs: seq<T>, i: nat)
    requires i < |xs|
    ensures xs[..i + 1] == xs[..i] + [xs[i]]
  {
  }

  lemma SumPrefixStep(xs: seq<real>, i: nat)
    requires i < |xs|
    ensures Sum(xs[..i + 1]) == Sum(xs[..i]) + xs[i]
  {
    assert xs[..i + 1][..i] == xs[..i];
  }

  // ---------------------------------------------------------------- word scores

  /** `_score_single_piece`: mask the whole word, predict at its first token. */
  function ScoreSinglePiece(lm: MaskedLm, ids: seq<int>, a: WordAlignment, mask: int): (r: WordScore)
    requires TokensValid(a, ids)
    ensures r.wordIdx == a.wordIdx && r.wordText == a.wordText && !r.isClunky
    ensures var pred := lm.predict(MaskWordSpan(ids, a, None, mask), a.tokenStart);
      && r.entropy == pred.entropy
      && r.logProb == pred.logProb(ids[a.tokenStart])
      && (r.rank == 1 <==> forall j :: 0 <= j < lm.vocabSize ==> pred.prob(j) <= pred.prob(ids[a.tokenStart]))
    ensures 1 <= r.rank <= lm.vocabSize + 1
  {
    var pred := lm.predict(MaskWordSpan(ids, a, None, mask), a.tokenStart);
    var tok := a.tokenIds[0];
    WordScore(a.wordIdx, a.wordText, pred.entropy, pred.logProb(tok), Rank(pred.prob, lm.vocabSize, tok), false)
  }

  function PieceLogProbs(lm: MaskedLm, ids: seq<int>, a: WordAlignment, pllMethod: string, mask: int): (r: seq<real>)
    requires TokensValid(a, ids)
    ensures |r| == a.tokenEnd - a.tokenStart
    ensures forall i :: 0 <= i < |r| ==>
      r[i] == PiecePrediction(lm, ids, a, i, pllMethod, mask).logProb(ids[a.tokenStart + i])
  {
    seq(a.tokenEnd - a.tokenStart, i requires 0 <= i < a.tokenEnd - a.tokenStart =>
      PiecePrediction(lm, ids, a, i, pllMethod, mask).logProb(a.tokenIds[i]))
  }

  function PieceEntropies(lm: MaskedLm, ids: seq<int>, a: WordAlignment, pllMethod: string, mask: int): (r: seq<real>)
    requires TokensValid(a, ids)
    ensures |r| == a.tokenEnd - a.tokenStart
    ensures forall i :: 0 <= i < |r| ==> r[i] == PiecePrediction(lm, ids, a, i, pllMethod, mask).entropy
  {
    seq(a.tokenEnd - a.tokenStart, i requires 0 <= i < a.tokenEnd - a.tokenStart =>
      PiecePrediction(lm, ids, a, i, pllMethod, mask).entropy)
  }

  /** `_score_multi_piece` as a definition: the log-probability is the sum over the
      pieces, the entropy their mean, the rank the bucket of the sum. */
  function ScoreMultiPiece(lm: MaskedLm, ids: seq<int>, a: WordAlignment, pllMethod: string, mask: int): (r: WordScore)
    requires TokensValid(a, ids)
    ensures r.wordIdx == a.wordIdx && r.wordText == a.wordText && !r.isClunky
    ensures r.rank == 1 || r.rank == 10 || r.rank == 50 || r.rank == 100
    ensures r.rank == 1 <==> r.logProb > -2.0
  {
    var n := a.tokenEnd - a.tokenStart;
    var total := Sum(PieceLogProbs(lm, ids, a, pllMethod, mask));
    var avgEntropy := Sum(PieceEntropies(lm, ids, a, pllMethod, mask)) / n as real;
    WordScore(a.wordIdx, a.wordText, avgEntropy, total, BucketRank(total), false)
  }

  /** One more piece adds its log-probability to the running sum. */
  lemma PieceLogStep(lm: MaskedLm, ids: seq<int>, a: WordAlignment, pllMethod: string, mask: int, i: nat)
    requires TokensValid(a, ids) && i < a.tokenEnd - a.tokenStart
    ensures Sum(PieceLogProbs(lm, ids, a, pllMethod, mask)[..i + 1]) ==
            Sum(PieceLogProbs(lm, ids, a, pllMethod, mask)[..i]) +
            PiecePrediction(lm, ids, a, i, pllMethod, mask).logProb(a.tokenIds[i])
  {
    var logs := PieceLogProbs(lm, ids, a, pllMethod, mask);
    SumPrefixStep(logs, i);
    assert a.tokenIds[i] == ids[a.tokenStart..a.tokenEnd][i] == ids[a.tokenStart + i];
  }

  /** One more piece adds its entropy to the collected entropies. */
  lemma PieceEntropyStep(lm: MaskedLm, ids: seq<int>, a: WordAlignment, pllMethod: string, mask: int, i: nat)
    requires TokensValid(a, ids) && i < a.tokenEnd - a.tokenStart
    ensures PieceEntropies(lm, ids, a, pllMethod, mask)[..i + 1] ==
            PieceEntropies(lm, ids, a, pllMethod, mask)[..i] + [PiecePrediction(lm, ids, a, i, pllMethod, mask).entropy]
  {
    PrefixStep(PieceEntropies(lm, ids, a, pllMethod, mask), i);
  }

  /** The loop of `_score_multi_piece`: one masked prediction per piece,
      accumulating the log-probability and collecting the entropies. */
  method ScoreMultiPieceLoop(lm: MaskedLm, ids: seq<int>, a: WordAlignment, pllMethod: string, mask: int)
    returns (r: WordScore)
    requires TokensValid(a, ids)
    ensures r == ScoreMultiPiece(lm, ids, a, pllMethod, mask)
    ensures r.logProb == Sum(PieceLogProbs(lm, ids, a, pllMethod, mask))
  {
    var n := a.tokenEnd - a.tokenStart;
    ghost var logs := PieceLogProbs(lm, ids, a, pllMethod, mask);
    ghost var ents := PieceEntropies(lm, ids, a, pllMethod, mask);
    var total := 0.0;
    var entropies: seq<real> := [];
    var i := 0;
    while i < n
      invariant 0 <= i <= n
      invariant total == Sum(logs[..i])
      invariant entropies == ents[..i]
    {
      var pred := PiecePrediction(lm, ids, a, i, pllMethod, mask);
      PieceLogStep(lm, ids, a, pllMethod, mask, i);
      PieceEntropyStep(lm, ids, a, pllMethod, mask, i);
      entropies := entropies + [pred.entropy];
      total := total + pred.logProb(a.tokenIds[i]);
      i := i + 1;
    }
    assert logs[..n] == logs && entropies == ents;
    r := WordScore(a.wordIdx, a.wordText, Sum(entropies) / n as real, total, BucketRank(total), false);
  }

  /** `score_word`: one-piece words take the single-piece path, all others the
      multi-piece one. */
  function ScoreWord(lm: MaskedLm, ids: seq<int>, a: WordAlignment, pllMethod: string, mask: int): (r: WordScore)
    requires TokensValid(a, ids)
    ensures r.wordIdx == a.wordIdx && r.wordText == a.wordText && !r.isClunky
    ensures a.tokenEnd - a.tokenStart == 1 ==> r == ScoreSinglePiece(lm, ids, a, mask)
    ensures a.tokenEnd - a.tokenStart != 1 ==> r == ScoreMultiPiece(lm, ids, a, pllMethod, mask)
    ensures r.rank >= 1
  {
    if a.tokenEnd - a.tokenStart == 1 then ScoreSinglePiece(lm, ids, a, mask)
    else ScoreMultiPiece(lm, ids, a, pllMethod, mask)
  }

  /** The flag `score_sentence` sets: uncertain OR unlikely, both inclusive. */
  predicate Clunky(s: WordScore, minEntropy: real, maxRank: int)
  {
    s.entropy >= minEntropy || s.rank >= maxRank
  }

  /** The loop of `score_sentence` over already computed alignments. */
  function ScoreAlignments(lm: MaskedLm, ids: seq<int>, als: seq<WordAlignment>, minEntropy: real, maxRank: int,
                           pllMethod: string, mask: int): (r: seq<WordScore>)
    requires forall i :: 0 <= i < |als| ==> TokensValid(als[i], ids)
    ensures |r| == |als|
    ensures forall i :: 0 <= i < |r| ==> r[i].wordIdx == als[i].wordIdx && r[i].wordText == als[i].wordText
    ensures forall i :: 0 <= i < |r| ==> (r[i].isClunky <==> Clunky(r[i], minEntropy, maxRank))
    ensures forall i :: 0 <= i < |r| ==>
      r[i].(isClunky := false) == ScoreWord(lm, ids, als[i], pllMethod, mask)
  {
    seq(|als|, i requires 0 <= i < |als| =>
      var s := ScoreWord(lm, ids, als[i], pllMethod, mask);
      s.(isClunky := Clunky(s, minEntropy, maxRank)))
  }

  /** The alignments `score_sentence` scores: the words aligned to the text's encoding. */
  function SentenceAlignments(tok: Tokenizer, text: string, words: seq<string>): seq<WordAlignment>
  {
    AlignWordsToTokens(text, tok.encode(text), words)
  }

  /** `score_sentence`: align the words, then score and flag each alignment. */
  function ScoreSentence(lm: MaskedLm, tok: Tokenizer, text: string, words: seq<string>,
                         minEntropy: real, maxRank: int, pllMethod: string): (r: seq<WordScore>)
    ensures |r| == |SentenceAlignments(tok, text, words)|
    ensures forall i :: 0 <= i < |r| ==> r[i].wordIdx == SentenceAlignments(tok, text, words)[i].wordIdx
    ensures |r| <= |words|
    ensures forall i :: 0 <= i < |r| ==> r[i].wordIdx < |words| && r[i].wordText == words[r[i].wordIdx]
    ensures forall i, j :: 0 <= i < j < |r| ==> r[i].wordIdx < r[j].wordIdx
    ensures forall i :: 0 <= i < |r| ==> (r[i].isClunky <==> r[i].entropy >= minEntropy || r[i].rank >= maxRank)
  {
    var enc := tok.encode(text);
    var als := SentenceAlignments(tok, text, words);
    ScoreAlignments(lm, Ids(enc), als, minEntropy, maxRank, pllMethod, tok.maskId)
  }

  // ---------------------------------------------------------------- windowed PLL

  function Max(x: int, y: int): int { if x >= y then x else y }
  function Min(x: int, y: int): int { if x <= y then x else y }

  /** The positions `range(max(1, c - w), min(len - 1, c + w + 1))`: every position
      within `w` of the centre except the first and the last id. */
  function WindowPositions(len: nat, center: int, window: int): (r: seq<nat>)
    ensures forall k :: 0 <= k < |r| ==> 1 <= r[k] <= len - 2 && center - window <= r[k] <= center + window
    ensures forall p: nat :: 1 <= p <= len - 2 && center - window <= p <= center + window ==> p in r
    ensures forall k, l :: 0 <= k < l < |r| ==> r[k] < r[l]
    ensures window >= 0 ==> |r| <= 2 * window + 1
  {
    var start := Max(1, center - window);
    var end := Min(len - 1, center + window + 1);
    if start >= end then []
    else
      var r := seq(end - start, k requires 0 <= k < end - start => (start + k) as nat);
      forall p: nat | 1 <= p <= len - 2 && center - window <= p <= center + window
        ensures p in r
      {
        assert r[p - start] == p;
      }
      r
  }

  /** The log-probability of the id at `pos` with that one position masked. */
  function PllTerm(lm: MaskedLm, ids: seq<int>, pos: nat, mask: int): real
    requires pos < |ids|
  {
    lm.predict(ids[pos := mask], pos).logProb(ids[pos])
  }

  function PllTerms(lm: MaskedLm, ids: seq<int>, ps: seq<nat>, mask: int): (r: seq<real>)
    requires forall k :: 0 <= k < |ps| ==> ps[k] < |ids|
    ensures |r| == |ps|
    ensures forall k :: 0 <= k < |ps| ==> r[k] == PllTerm(lm, ids, ps[k], mask)
  {
    seq(|ps|, k requires 0 <= k < |ps| => PllTerm(lm, ids, ps[k], mask))
  }

  /** `compute_windowed_pll`: the sum of the single-mask log-probabilities over the
      window; an empty window sums to zero. */
  function WindowedPll(lm: MaskedLm, ids: seq<int>, center: int, window: int, mask: int): (r: real)
    ensures WindowPositions(|ids|, center, window) == [] ==> r == 0.0
  {
    var ps := WindowPositions(|ids|, center, window);
    Sum(PllTerms(lm, ids, ps, mask))
  }

  /** The window is empty for a sentence of at most two ids (only the special
      tokens), and never reaches past the centre by more than `window`. */
  lemma WindowOfShortSentenceIsEmpty(len: nat, center: int, window: int)
    requires len <= 2
    ensures WindowPositions(len, center, window) == []
  {
  }

  /** The loop of `compute_windowed_pll`, one masked prediction per position. */
  method ComputeWindowedPll(lm: MaskedLm, ids: seq<int>, center: int, window: int, mask: int) returns (r: real)
    ensures r == WindowedPll(lm, ids, center, window, mask)
  {
    var start := Max(1, center - window);
    var end := Min(|ids| - 1, center + window + 1);
    r := 0.0;
    if start < end {
      WindowStep(lm, ids, center, window, mask, start);
      var pos := start;
      while pos < end
        invariant start <= pos <= end
        invariant r == WindowPrefixPll(lm, ids, center, window, mask, pos - start)
      {
        WindowStep(lm, ids, center, window, mask, pos);
        r := r + lm.predict(ids[pos := mask], pos).logProb(ids[pos]);
        pos := pos + 1;
      }
      WindowStep(lm, ids, center, window, mask, end);
    }
  }

  /** The sum of the first `n` terms of the window. */
  function WindowPrefixPll(lm: MaskedLm, ids: seq<int>, center: int, window: int, mask: int, n: nat): real
  {
    var terms := PllTerms(lm, ids, WindowPositions(|ids|, center, window), mask);
    if n <= |terms| then Sum(terms[..n]) else 0.0
  }

  /** The window starts at `start` and holds `end - start` terms; the prefix
      up to `pos` grows by the term at `pos`, and the full prefix is the whole sum. */
  lemma WindowStep(lm: MaskedLm, ids: seq<int>, center: int, window: int, mask: int, pos: int)
    requires Max(1, center - window) <= pos <= Min(|ids| - 1, center + window + 1)
    ensures var start := Max(1, center - window);
      var end := Min(|ids| - 1, center + window + 1);
      && WindowPrefixPll(lm, ids, center, window, mask, 0) == 0.0
      && (pos < end ==> 0 <= pos < |ids|)
      && (pos < end ==>
            WindowPrefixPll(lm, ids, center, window, mask, pos - start + 1) ==
            WindowPrefixPll(lm, ids, center, window, mask, pos - start) + lm.predict(ids[pos := mask], pos).logProb(ids[pos]))
      && (pos == end ==> WindowPrefixPll(lm, ids, center, window, mask, end - start) == WindowedPll(lm, ids, center, window, mask))
  {
    var start := Max(1, center - window);
    var end := Min(|ids| - 1, center + window + 1);
    var ps := WindowPositions(|ids|, center, window);
    var terms := PllTerms(lm, ids, ps, mask);
    assert |terms| == end - start;
    assert terms[..0] == [];
    if pos < end {
      assert ps[pos - start] == pos;
      SumSnoc(terms[..pos - start], terms[pos - start]);
      assert terms[..pos - start + 1] == terms[..pos - start] + [terms[pos - start]];
    } else {
      assert terms[..end - start] == terms;
    }
  }
}

=== FILE: semantic_checker.dfy ===
/** The meaning-preservation gate (semantic_checker.py; backend/semantic_checker.py
    is the same file and is served by the same model).

    Sentence-BERT is an oracle that embeds a sentence, cosine similarity of two
    embeddings is an oracle real, and the NLI classifier is an oracle returning the
    softmax probabilities of its three labels. Whether an NLI model is loaded is a
    flag fixed at construction. */
module SemanticChecker {
  import opened Wrappers

  datatype NliLabel = Contradiction | Neutral | Entailment

  /** The softmax output of the NLI classifier, in the classifier's label order. */
  datatype NliProbs = NliProbs(contradiction: real, neutral: real, entailment: real)

  datatype SemanticModels = SemanticModels(
    embed: string -> seq<real>,
    cosine: (seq<real>, seq<real>) -> real,
    nli: (string, string) -> NliProbs,
    useNli: bool                            // `nli_model is not None`
  )

  function ProbAt(p: NliProbs, i: nat): real
    requires i < 3
  {
    if i == 0 then p.contradiction else if i == 1 then p.neutral else p.entailment
  }

  /** `torch.argmax`: the index of the largest probability, the first one on a tie. */
  function ArgMax(p: NliProbs): (r: nat)
    ensures r < 3
    ensures forall j :: 0 <= j < 3 ==> ProbAt(p, j) <= ProbAt(p, r)
    ensures forall j :: 0 <= j < r ==> ProbAt(p, j) < ProbAt(p, r)
  {
    var best01 := if p.neutral > p.contradiction then 1 else 0;
    if p.entailment > ProbAt(p, best01) then 2 else best01
  }

  /** The classifier's label order: 0 contradiction, 1 neutral, 2 entailment. */
  function LabelOf(i: nat): NliLabel
    requires i < 3
  {
    if i == 0 then Contradiction else if i == 1 then Neutral else Entailment
  }

  /** `compute_similarity`. */
  function ComputeSimilarity(m: SemanticModels, text1: string, text2: string): real
  {
    m.cosine(m.embed(text1), m.embed(text2))
  }

  /** `check_entailment`: ("neutral", 0.0) without an NLI model; otherwise the
      most probable label and its probability. */
  function CheckEntailment(m: SemanticModels, premise: string, hypothesis: string): (r: (NliLabel, real))
    ensures !m.useNli ==> r == (Neutral, 0.0)
    ensures m.useNli ==> var p := m.nli(premise, hypothesis);
      && (r.0 == Contradiction <==> p.contradiction >= p.neutral && p.contradiction >= p.entailment)
      && (r.0 == Neutral <==> p.neutral > p.contradiction && p.neutral >= p.entailment)
      && (r.0 == Entailment <==> p.entailment > p.contradiction && p.entailment > p.neutral)
      && r.1 >= p.contradiction && r.1 >= p.neutral && r.1 >= p.entailment
  {
    if !m.useNli then (Neutral, 0.0)
    else
      var p := m.nli(premise, hypothesis);
      var i := ArgMax(p);
      (LabelOf(i), ProbAt(p, i))
  }

  /** The details dictionary: the similarity and, once NLI ran, its label and confidence. */
  datatype Details = Details(similarity: real, nliLabel: Option<NliLabel>, nliConfidence: Option<real>)

  /** `is_semantically_preserved`. */
  function IsSemanticallyPreserved(m: SemanticModels, original: string, modified: string,
                                   minSimilarity: real, allowContradiction: bool): (r: (bool, Details))
    ensures r.1.similarity == ComputeSimilarity(m, original, modified)
    ensures r.1.similarity < minSimilarity ==> !r.0 && r.1.nliLabel.None? && r.1.nliConfidence.None?
    ensures !m.useNli ==> (r.0 <==> r.1.similarity >= minSimilarity) && r.1.nliLabel.None?
    ensures m.useNli && r.1.similarity >= minSimilarity ==>
      && r.1.nliLabel == Some(CheckEntailment(m, original, modified).0)
      && r.1.nliConfidence == Some(CheckEntailment(m, original, modified).1)
      && (r.0 <==> allowContradiction || r.1.nliLabel != Some(Contradiction))
  {
    var similarity := ComputeSimilarity(m, original, modified);
    var details := Details(similarity, None, None);
    if similarity < minSimilarity then (false, details)
    else if m.useNli then
      var (verdict, confidence) := CheckEntailment(m, original, modified);
      var details' := details.(nliLabel := Some(verdict), nliConfidence := Some(confidence));
      if !allowContradiction && verdict == Contradiction then (false, details') else (true, details')
    else (true, details)
  }

  /** A neutral verdict passes the gate: only a contradiction rejects. */
  lemma NeutralPasses(m: SemanticModels, original: string, modified: string, minSimilarity: real)
    requires m.useNli && ComputeSimilarity(m, original, modified) >= minSimilarity
    requires CheckEntailment(m, original, modified).0 == Neutral
    ensures IsSemanticallyPreserved(m, original, modified, minSimilarity, false).0
  {
  }

  /** `batch_compute_similarity`: one similarity per candidate, in order. */
  function BatchComputeSimilarity(m: SemanticModels, original: string, candidates: seq<string>): (r: seq<real>)
    ensures |r| == |candidates|
    ensures forall i :: 0 <= i < |r| ==> r[i] == ComputeSimilarity(m, original, candidates[i])
  {
    if |candidates| == 0 then []
    else
      var all := [original] + candidates;
      var embeddings := seq(|all|, i requires 0 <= i < |all| => m.embed(all[i]));
      seq(|candidates|, i requires 0 <= i < |candidates| => m.cosine(embeddings[0], embeddings[i + 1]))
  }
}

=== FILE: seqs.dfy ===
/** Sequence operations with Python list semantics: list comprehensions with a
    condition, `sorted(..., reverse=True)` (stable), and `xs[:n]` slicing. */
module Seqs {

  /** `xs` can be obtained from `ys` by deleting elements, keeping the order. */
  predicate IsSubsequence<T(==)>(xs: seq<T>, ys: seq<T>)
    decreases |ys|
  {
    if |xs| == 0 then true
    else if |ys| == 0 then false
    else if xs[0] == ys[0] then IsSubsequence(xs[1..], ys[1..])
    else IsSubsequence(xs, ys[1..])
  }

  /** `rel` relates `xs[i]` to `ys[i]` at every index, and the two are equally long. */
  predicate Pairwise<A, B>(xs: seq<A>, ys: seq<B>, rel: (A, B) -> bool)
  {
    |xs| == |ys| && forall i :: 0 <= i < |xs| ==> rel(xs[i], ys[i])
  }

  lemma PairwiseCons<A, B>(x: A, xs: seq<A>, y: B, ys: seq<B>, rel: (A, B) -> bool)
    requires rel(x, y) && Pairwise(xs, ys, rel)
    ensures Pairwise([x] + xs, [y] + ys, rel)
  {
    assert forall i :: 1 <= i < |xs| + 1 ==> ([x] + xs)[i] == xs[i - 1] && ([y] + ys)[i] == ys[i - 1];
  }

  /** `[x for x in xs if keep(x)]`. */
  function Filter<T(==)>(xs: seq<T>, keep: T -> bool): (r: seq<T>)
    ensures IsSubsequence(r, xs)
    ensures forall i :: 0 <= i < |r| ==> keep(r[i])
    ensures forall i :: 0 <= i < |xs| && keep(xs[i]) ==> xs[i] in r
    ensures |r| <= |xs|
  {
    if |xs| == 0 then []
    else
      var rest := Filter(xs[1..], keep);
      assert forall i :: 1 <= i < |xs| ==> xs[i] == xs[1..][i - 1];
      if keep(xs[0]) then [xs[0]] + rest else rest
  }

  /** A filter nothing passes leaves nothing. */
  lemma {:induction false} FilterNone<T>(xs: seq<T>, keep: T -> bool)
    requires forall i :: 0 <= i < |xs| ==> !keep(xs[i])
    ensures Filter(xs, keep) == []
  {
    if |xs| > 0 {
      FilterNone(xs[1..], keep);
    }
  }

  lemma {:induction false} SubsequenceMembers<T>(xs: seq<T>, ys: seq<T>)
    requires IsSubsequence(xs, ys)
    ensures forall i :: 0 <= i < |xs| ==> xs[i] in ys
    decreases |ys|
  {
    if |xs| > 0 {
      if xs[0] == ys[0] {
        SubsequenceMembers(xs[1..], ys[1..]);
        assert forall i :: 1 <= i < |xs| ==> xs[i] == xs[1..][i - 1];
      } else {
        SubsequenceMembers(xs, ys[1..]);
      }
    }
  }

  /** A prefix of a subsequence is a subsequence. */
  lemma {:induction false} PrefixOfSubsequence<T>(xs: seq<T>, ys: seq<T>, k: nat)
    requires IsSubsequence(xs, ys) && k <= |xs|
    ensures IsSubsequence(xs[..k], ys)
    decreases |ys|
  {
    if k > 0 {
      assert |ys| > 0;
      if xs[0] == ys[0] {
        PrefixOfSubsequence(xs[1..], ys[1..], k - 1);
        assert xs[..k][1..] == xs[1..][..k - 1];
      } else {
        PrefixOfSubsequence(xs, ys[1..], k);
      }
    }
  }

  /** A kept element came from the input and passed the test. */
  lemma InFilter<T>(xs: seq<T>, keep: T -> bool, x: T)
    requires x in Filter(xs, keep)
    ensures x in xs && keep(x)
  {
    var r := Filter(xs, keep);
    SubsequenceMembers(r, xs);
  }

  /** Filtering keeps the order: a sequence strictly increasing in `key` stays so. */
  lemma {:induction false} FilterKeepsIncreasing<T>(xs: seq<T>, keep: T -> bool, key: T -> int)
    requires forall i, j :: 0 <= i < j < |xs| ==> key(xs[i]) < key(xs[j])
    ensures forall i, j :: 0 <= i < j < |Filter(xs, keep)| ==> key(Filter(xs, keep)[i]) < key(Filter(xs, keep)[j])
  {
    if |xs| > 0 {
      var tail := xs[1..];
      assert forall i, j :: 0 <= i < j < |tail| ==> key(tail[i]) < key(tail[j]) by {
        forall i, j | 0 <= i < j < |tail| ensures key(tail[i]) < key(tail[j]) {
          assert tail[i] == xs[i + 1] && tail[j] == xs[j + 1];
        }
      }
      FilterKeepsIncreasing(tail, keep, key);
      var rest := Filter(tail, keep);
      if keep(xs[0]) {
        SubsequenceMembers(rest, tail);
        var r := [xs[0]] + rest;
        assert r == Filter(xs, keep);
        forall i, j | 0 <= i < j < |r| ensures key(r[i]) < key(r[j]) {
          assert r[j] == rest[j - 1];
          var m :| 0 <= m < |tail| && tail[m] == rest[j - 1];
          assert tail[m] == xs[m + 1];
          if i > 0 {
            assert r[i] == rest[i - 1];
          }
        }
      }
    }
  }

  /** Python's `xs[:n]`: a non-negative `n` keeps at most `n` leading elements,
      a negative `n` drops the last `-n` elements. */
  function PyTake<T>(xs: seq<T>, n: int): (r: seq<T>)
    ensures |r| <= |xs| && r == xs[..|r|]
    ensures n >= 0 ==> |r| == if n < |xs| then n else |xs|
    ensures n < 0 ==> |r| == if |xs| + n > 0 then |xs| + n else 0
  {
    if n >= 0 then (if n < |xs| then xs[..n] else xs)
    else (if |xs| + n > 0 then xs[..|xs| + n] else [])
  }

  predicate SortedDesc<T>(xs: seq<T>, key: T -> real)
  {
    forall i, j :: 0 <= i < j < |xs| ==> key(xs[i]) >= key(xs[j])
  }

  /** Place `x` after every element whose key is at least its own, so that an
      element inserted later stays behind the equal ones already there. */
  function Insert<T>(xs: seq<T>, x: T, key: T -> real): (r: seq<T>)
    requires SortedDesc(xs, key)
    ensures SortedDesc(r, key)
    ensures multiset(r) == multiset(xs) + multiset{x}
    ensures |r| == |xs| + 1
  {
    if |xs| == 0 then [x]
    else if key(xs[0]) >= key(x) then
      var rest := Insert(xs[1..], x, key);
      assert xs == [xs[0]] + xs[1..];
      InsertHeadStaysFirst(xs, x, rest, key);
      [xs[0]] + rest
    else
      [x] + xs
  }

  lemma InsertHeadStaysFirst<T>(xs: seq<T>, x: T, rest: seq<T>, key: T -> real)
    requires |xs| > 0 && SortedDesc(xs, key) && key(xs[0]) >= key(x)
    requires SortedDesc(rest, key) && multiset(rest) == multiset(xs[1..]) + multiset{x}
    ensures SortedDesc([xs[0]] + rest, key)
  {
    forall j | 0 <= j < |rest|
      ensures key(rest[j]) <= key(xs[0])
    {
      assert rest[j] in multiset(rest);
      if rest[j] != x {
        assert rest[j] in xs[1..];
        var k :| 0 <= k < |xs[1..]| && xs[1..][k] == rest[j];
        assert xs[1..][k] == xs[k + 1];
      }
    }
    var r := [xs[0]] + rest;
    forall i, j | 0 <= i < j < |r|
      ensures key(r[i]) >= key(r[j])
    {
      assert r[j] == rest[j - 1];
      if i > 0 {
        assert r[i] == rest[i - 1];
      }
    }
  }

  /** `sorted(xs, key=key, reverse=True)`: a permutation of `xs` in non-increasing key order. */
  function SortDesc<T>(xs: seq<T>, key: T -> real): (r: seq<T>)
    ensures SortedDesc(r, key)
    ensures multiset(r) == multiset(xs)
    ensures |r| == |xs|
  {
    if |xs| == 0 then []
    else
      assert xs == xs[..|xs| - 1] + [xs[|xs| - 1]];
      Insert(SortDesc(xs[..|xs| - 1], key), xs[|xs| - 1], key)
  }

  /** The first `n` of a sorted copy: as many as there are (up to `n`), still
      sorted, and drawn from the original. */
  lemma TakeSorted<T>(xs: seq<T>, n: nat, key: T -> real)
    ensures var top := PyTake(SortDesc(xs, key), n);
      && |top| == (if n < |xs| then n else |xs|)
      && SortedDesc(top, key)
      && multiset(top) <= multiset(xs)
  {
    var sorted := SortDesc(xs, key);
    var top := PyTake(sorted, n);
    assert sorted == top + sorted[|top|..];
    assert multiset(sorted) == multiset(top) + multiset(sorted[|top|..]);
  }

  lemma TopOfSorted<T>(xs: seq<T>, n: nat, key: T -> real)
    requires SortedDesc(xs, key)
    requires 0 < n <= |xs|
    ensures forall j :: n <= j < |xs| ==> key(xs[j]) <= key(xs[n - 1])
    ensures multiset(xs[..n]) + multiset(xs[n..]) == multiset(xs)
  {
    assert xs == xs[..n] + xs[n..];
  }

  /** An element of a non-increasing sequence whose key beats the `n`-th one is
      among the first `n`. */
  lemma TopKeepsLarger<T>(xs: seq<T>, n: nat, key: T -> real, x: T)
    requires SortedDesc(xs, key)
    requires 0 < n <= |xs| && x in xs && key(x) > key(xs[n - 1])
    ensures x in xs[..n]
  {
    var j :| 0 <= j < |xs| && xs[j] == x;
    assert xs[..n][j] == x;
  }

  /** The first `n` of `sorted(xs, reverse=True)` hold every element of `xs` whose
      key beats the last one kept. */
  lemma TakeSortedKeepsLarger<T>(xs: seq<T>, n: nat, key: T -> real, x: T)
    requires x in xs && 0 < n
    ensures var top := PyTake(SortDesc(xs, key), n);
      key(x) > key(top[|top| - 1]) ==> x in top
  {
    var sorted := SortDesc(xs, key);
    var top := PyTake(sorted, n);
    assert x in multiset(xs);
    assert x in sorted;
    if key(x) > key(top[|top| - 1]) {
      TopKeepsLarger(sorted, |top|, key, x);
    }
  }

  /** `sorted(xs, key=key, reverse=True)[:n]`: the best `n` elements, best first. */
  function TopBy<T>(xs: seq<T>, key: T -> real, n: int): (r: seq<T>)
    ensures SortedDesc(r, key)
    ensures n >= 0 ==> |r| == if n < |xs| then n else |xs|
    ensures multiset(r) <= multiset(xs)
    ensures forall x | x in r :: x in xs
  {
    var sorted := SortDesc(xs, key);
    var r := PyTake(sorted, n);
    assert sorted == r + sorted[|r|..];
    assert multiset(sorted) == multiset(r) + multiset(sorted[|r|..]);
    forall x | x in r ensures x in xs {
      assert x in multiset(xs);
    }
    r
  }
}

=== FILE: tokenizer_utils.dfy ===
/** Word/sub-word alignment, masking and id splicing (tokenizer_utils.py).

    The Hugging Face tokenizer itself is an oracle: `encode` returns, for every
    input id, the id together with its `offset_mapping` pair, so ids and offsets
    always have the same length. */
module TokenizerUtils {
  import opened Wrappers
  import opened PyText

  /** One entry of `input_ids` with its character offsets `[start, end)`. */
  datatype TokenPiece = TokenPiece(id: int, start: nat, end: nat)

  /** The tokenizer oracle. */
  datatype Tokenizer = Tokenizer(
    encode: string -> seq<TokenPiece>,       // with special tokens and offsets
    encodeWord: string -> seq<int>,          // `encode_word`: no special tokens, prefix space
    decodeSkipSpecial: seq<int> -> string,   // `decode(ids, skip_special_tokens=True)` before `strip`
    decodeRaw: seq<int> -> string,           // `decode(ids)` keeping special tokens
    maskId: int
  )

  function Ids(enc: seq<TokenPiece>): (r: seq<int>)
    ensures |r| == |enc|
    ensures forall i :: 0 <= i < |enc| ==> r[i] == enc[i].id
  {
    seq(|enc|, i requires 0 <= i < |enc| => enc[i].id)
  }

  /** `WordAlignment`: a word, where it sits in the text, and the sub-word pieces
      `[tokenStart, tokenEnd)` that cover it. */
  datatype WordAlignment = WordAlignment(
    wordIdx: nat,
    wordText: string,
    charStart: nat,
    charEnd: nat,
    tokenStart: nat,
    tokenEnd: nat,
    tokenIds: seq<int>
  )

  predicate Covers(p: TokenPiece, c: int)
  {
    p.start <= c < p.end
  }

  /** The `char_to_token` table restricted to the first `n` pieces: building it in
      token order lets a later piece overwrite an earlier one, so a character maps
      to the LAST piece covering it. */
  function LastCovering(enc: seq<TokenPiece>, c: nat, n: nat): (r: Option<nat>)
    requires n <= |enc|
    ensures r.Some? ==> r.value < n && Covers(enc[r.value], c)
    ensures r.Some? ==> forall u :: r.value < u < n ==> !Covers(enc[u], c)
    ensures r.None? ==> forall u :: 0 <= u < n ==> !Covers(enc[u], c)
  {
    if n == 0 then None
    else if Covers(enc[n - 1], c) then Some(n - 1)
    else LastCovering(enc, c, n - 1)
  }

  /** `char_to_token.get(c)`. */
  function TokenAt(enc: seq<TokenPiece>, c: nat): Option<nat>
  {
    LastCovering(enc, c, |enc|)
  }

  /** The smallest and largest token index reached by the characters `[lo, hi)`,
      or `None` when no character of the range is covered by any token
      (`TokenSpanCharacterized` states this). */
  function TokenSpan(enc: seq<TokenPiece>, lo: nat, hi: nat): (r: Option<(nat, nat)>)
    ensures r.Some? ==> r.value.0 <= r.value.1 < |enc|
    decreases hi - lo
  {
    if lo >= hi then None
    else
      var here := TokenAt(enc, lo);
      var rest := TokenSpan(enc, lo + 1, hi);
      match (here, rest)
      case (None, _) => rest
      case (Some(t), None) => Some((t, t))
      case (Some(t), Some((mn, mx))) =>
        Some((if t < mn then t else mn, if t > mx then t else mx))
  }

  /** `TokenSpan` against the `char_to_token` table: none iff no character of the
      range maps to a token; otherwise its ends are the least and greatest token
      any character maps to, and each end is reached. */
  lemma {:induction false} TokenSpanCharacterized(enc: seq<TokenPiece>, lo: nat, hi: nat)
    ensures var r := TokenSpan(enc, lo, hi);
      && (r.None? <==> forall c: nat :: lo <= c < hi ==> TokenAt(enc, c).None?)
      && (r.Some? ==> exists c: nat :: lo <= c < hi && TokenAt(enc, c) == Some(r.value.0))
      && (r.Some? ==> exists c: nat :: lo <= c < hi && TokenAt(enc, c) == Some(r.value.1))
      && (r.Some? ==> forall c: nat :: lo <= c < hi && TokenAt(enc, c).Some? ==>
            r.value.0 <= TokenAt(enc, c).value <= r.value.1)
    decreases hi - lo
  {
    if lo < hi {
      TokenSpanCharacterized(enc, lo + 1, hi);
      var r := TokenSpan(enc, lo, hi);
      var rest := TokenSpan(enc, lo + 1, hi);
      match TokenAt(enc, lo)
      case None =>
        assert r == rest;
      case Some(t) =>
        assert r.Some?;
        if rest.None? {
          assert r == Some((t, t));
        } else {
          var (mn, mx) := rest.value;
          var wMin :| lo + 1 <= wMin < hi && TokenAt(enc, wMin) == Some(mn);
          var wMax :| lo + 1 <= wMax < hi && TokenAt(enc, wMax) == Some(mx);
          if t < mn { assert TokenAt(enc, lo) == Some(r.value.0); }
          else { assert TokenAt(enc, wMin) == Some(r.value.0); }
          if t > mx { assert TokenAt(enc, lo) == Some(r.value.1); }
          else { assert TokenAt(enc, wMax) == Some(r.value.1); }
        }
    }
  }

  /** The tokens of an alignment are a non-empty run of `ids`, copied out. */
  predicate TokensValid(a: WordAlignment, ids: seq<int>)
  {
    a.tokenStart < a.tokenEnd <= |ids| && a.tokenIds == ids[a.tokenStart..a.tokenEnd]
  }

  /** What every produced alignment satisfies: the word is found verbatim at its
      character span, and its token span is exactly the run of tokens those
      characters map to. */
  predicate AlignedTo(a: WordAlignment, text: string, enc: seq<TokenPiece>)
  {
    && a.charEnd == a.charStart + |a.wordText|
    && a.charEnd <= |text|
    && text[a.charStart..a.charEnd] == a.wordText
    && TokensValid(a, Ids(enc))
    && TokenSpan(enc, a.charStart, a.charEnd).Some?
    && TokenSpan(enc, a.charStart, a.charEnd).value.0 == a.tokenStart
    && TokenSpan(enc, a.charStart, a.charEnd).value.1 + 1 == a.tokenEnd
  }

  /** One iteration of the loop in `align_words_to_tokens`: the alignment of
      `word` (if any) and the next `search_start`. */
  function AlignStep(text: string, enc: seq<TokenPiece>, word: string, idx: nat, searchStart: nat)
    : (r: (Option<WordAlignment>, nat))
    ensures Find(text, word, searchStart).None? ==> r == (None, searchStart)
    ensures Find(text, word, searchStart).Some? ==> r.1 == Find(text, word, searchStart).value + |word|
    ensures r.0.Some? <==> (Find(text, word, searchStart).Some?
      && TokenSpan(enc, Find(text, word, searchStart).value, Find(text, word, searchStart).value + |word|).Some?)
    ensures r.0.Some? ==> AlignedTo(r.0.value, text, enc) && r.0.value.wordIdx == idx && r.0.value.wordText == word
    ensures r.0.Some? ==> r.0.value.charStart == Find(text, word, searchStart).value && r.1 == r.0.value.charEnd
  {
    match Find(text, word, searchStart)
    case None => (None, searchStart)
    case Some(cs) => (AlignAt(text, enc, word, idx, cs), cs + |word|)
  }

  /** The alignment of `word` found at `cs`: none when its characters map to no
      token, whatever `search_start` does next. */
  function AlignAt(text: string, enc: seq<TokenPiece>, word: string, idx: nat, cs: nat): (r: Option<WordAlignment>)
    requires MatchAt(text, word, cs)
    ensures r.Some? <==> TokenSpan(enc, cs, cs + |word|).Some?
    ensures r.Some? ==> AlignedTo(r.value, text, enc) && r.value.wordIdx == idx && r.value.wordText == word
    ensures r.Some? ==> r.value.charStart == cs && r.value.charEnd == cs + |word|
  {
    var ce := cs + |word|;
    var span := TokenSpan(enc, cs, ce);
    if span.None? then None
    else
      var (mn, mx) := span.value;
      AlignedAt(text, enc, word, idx, cs, mn, mx);
      Some(WordAlignment(idx, word, cs, ce, mn, mx + 1, Ids(enc)[mn..mx + 1]))
  }

  /** A word found at `cs` whose characters reach tokens `mn..mx` is aligned
      there. */
  lemma AlignedAt(text: string, enc: seq<TokenPiece>, word: string, idx: nat, cs: nat, mn: nat, mx: nat)
    requires MatchAt(text, word, cs)
    requires TokenSpan(enc, cs, cs + |word|) == Some((mn, mx))
    ensures mx < |enc|
    ensures AlignedTo(WordAlignment(idx, word, cs, cs + |word|, mn, mx + 1, Ids(enc)[mn..mx + 1]), text, enc)
  {
    var a := WordAlignment(idx, word, cs, cs + |word|, mn, mx + 1, Ids(enc)[mn..mx + 1]);
    assert TokensValid(a, Ids(enc));
  }

  /** The loop of `align_words_to_tokens` from word `k` on. */
  function AlignFrom(text: string, enc: seq<TokenPiece>, words: seq<string>, k: nat, searchStart: nat)
    : (r: seq<WordAlignment>)
    requires k <= |words|
    ensures |r| <= |words| - k
    ensures forall i :: 0 <= i < |r| ==> AlignedTo(r[i], text, enc)
    ensures forall i :: 0 <= i < |r| ==> k <= r[i].wordIdx < |words| && r[i].wordText == words[r[i].wordIdx]
    ensures forall i :: 0 <= i < |r| ==> searchStart <= r[i].charStart
    ensures forall i, j :: 0 <= i < j < |r| ==> r[i].wordIdx < r[j].wordIdx && r[i].charEnd <= r[j].charStart
    decreases |words| - k
  {
    if k == |words| then []
    else
      var (found, next) := AlignStep(text, enc, words[k], k, searchStart);
      var rest := AlignFrom(text, enc, words, k + 1, next);
      if found.Some? then
        ConsAlignment(text, enc, words, k, searchStart, next, found.value, rest);
        [found.value] + rest
      else rest
  }

  /** The facts `AlignFrom` promises survive putting an earlier alignment in front. */
  lemma ConsAlignment(text: string, enc: seq<TokenPiece>, words: seq<string>, k: nat, searchStart: nat,
                      next: nat, a: WordAlignment, rest: seq<WordAlignment>)
    requires k < |words| && a.wordIdx == k && a.wordText == words[k]
    requires searchStart <= a.charStart && a.charEnd == next && AlignedTo(a, text, enc)
    requires forall i :: 0 <= i < |rest| ==> AlignedTo(rest[i], text, enc)
    requires forall i :: 0 <= i < |rest| ==> k + 1 <= rest[i].wordIdx < |words| && rest[i].wordText == words[rest[i].wordIdx]
    requires forall i :: 0 <= i < |rest| ==> next <= rest[i].charStart
    requires forall i, j :: 0 <= i < j < |rest| ==> rest[i].wordIdx < rest[j].wordIdx && rest[i].charEnd <= rest[j].charStart
    ensures var r := [a] + rest;
      && (forall i :: 0 <= i < |r| ==> AlignedTo(r[i], text, enc))
      && (forall i :: 0 <= i < |r| ==> k <= r[i].wordIdx < |words| && r[i].wordText == words[r[i].wordIdx])
      && (forall i :: 0 <= i < |r| ==> searchStart <= r[i].charStart)
      && (forall i, j :: 0 <= i < j < |r| ==> r[i].wordIdx < r[j].wordIdx && r[i].charEnd <= r[j].charStart)
  {
    var r := [a] + rest;
    forall i | 0 <= i < |r|
      ensures AlignedTo(r[i], text, enc)
      ensures k <= r[i].wordIdx < |words| && r[i].wordText == words[r[i].wordIdx]
      ensures searchStart <= r[i].charStart
    {
      if i > 0 {
        assert r[i] == rest[i - 1];
      }
    }
    ConsOrdered(k, searchStart, a, rest);
  }

  lemma ConsOrdered(k: nat, searchStart: nat, a: WordAlignment, rest: seq<WordAlignment>)
    requires a.wordIdx == k && a.charStart <= a.charEnd
    requires forall i :: 0 <= i < |rest| ==> k + 1 <= rest[i].wordIdx
    requires forall i :: 0 <= i < |rest| ==> a.charEnd <= rest[i].charStart
    requires forall i, j :: 0 <= i < j < |rest| ==> rest[i].wordIdx < rest[j].wordIdx && rest[i].charEnd <= rest[j].charStart
    ensures var r := [a] + rest;
      forall i, j :: 0 <= i < j < |r| ==> r[i].wordIdx < r[j].wordIdx && r[i].charEnd <= r[j].charStart
  {
    var r := [a] + rest;
    forall i, j | 0 <= i < j < |r|
      ensures r[i].wordIdx < r[j].wordIdx && r[i].charEnd <= r[j].charStart
    {
      assert r[j] == rest[j - 1];
      if i > 0 {
        assert r[i] == rest[i - 1];
      }
    }
  }

  /** `align_words_to_tokens(text, words)` with the tokenizer's encoding of `text`.
      Alignments come in word order with strictly increasing `wordIdx`, and their
      character spans are disjoint and increasing. */
  function AlignWordsToTokens(text: string, enc: seq<TokenPiece>, words: seq<string>): (r: seq<WordAlignment>)
    ensures |r| <= |words|
    ensures forall i :: 0 <= i < |r| ==> AlignedTo(r[i], text, enc)
    ensures forall i :: 0 <= i < |r| ==> r[i].wordIdx < |words| && r[i].wordText == words[r[i].wordIdx]
    ensures forall i, j :: 0 <= i < j < |r| ==> r[i].wordIdx < r[j].wordIdx && r[i].charEnd <= r[j].charStart
  {
    AlignFrom(text, enc, words, 0, 0)
  }

  /** Set positions `[lo, hi)` to the mask id, one at a time as the source's loop does. */
  function MaskRange(ids: seq<int>, lo: nat, hi: nat, mask: int): (r: seq<int>)
    requires hi <= |ids|
    ensures |r| == |ids|
    ensures forall i :: 0 <= i < |ids| ==> r[i] == if lo <= i < hi then mask else ids[i]
    decreases hi - lo
  {
    if lo >= hi then ids else MaskRange(ids[lo := mask], lo + 1, hi, mask)
  }

  /** `mask_word_span`: with no position, mask the whole token span; with position
      `p`, mask only `tokenStart + p`, and only if it still lies inside the span. */
  function MaskWordSpan(ids: seq<int>, a: WordAlignment, maskPosition: Option<nat>, mask: int): (r: seq<int>)
    requires a.tokenEnd <= |ids|
    ensures |r| == |ids|
    ensures maskPosition.None? ==>
      forall i :: 0 <= i < |ids| ==> r[i] == if a.tokenStart <= i < a.tokenEnd then mask else ids[i]
    ensures maskPosition.Some? && a.tokenStart + maskPosition.value < a.tokenEnd ==>
      forall i :: 0 <= i < |ids| ==> r[i] == if i == a.tokenStart + maskPosition.value then mask else ids[i]
    ensures maskPosition.Some? && a.tokenStart + maskPosition.value >= a.tokenEnd ==> r == ids
  {
    match maskPosition
    case None => MaskRange(ids, a.tokenStart, a.tokenEnd, mask)
    case Some(p) =>
      if a.tokenStart + p < a.tokenEnd then ids[a.tokenStart + p := mask] else ids
  }

  /** The id half of `reconstruct_sentence`: the word's tokens replaced by `replacement`. */
  function ReconstructIds(ids: seq<int>, a: WordAlignment, replacement: seq<int>): (r: seq<int>)
    requires a.tokenStart <= a.tokenEnd <= |ids|
    ensures |r| == |ids| - (a.tokenEnd - a.tokenStart) + |replacement|
    ensures r[..a.tokenStart] == ids[..a.tokenStart]
    ensures r[a.tokenStart..a.tokenStart + |replacement|] == replacement
    ensures r[a.tokenStart + |replacement|..] == ids[a.tokenEnd..]
  {
    ids[..a.tokenStart] + replacement + ids[a.tokenEnd..]
  }

  /** Splicing a word's own tokens back in gives the original ids. */
  lemma ReconstructOwnTokensIsIdentity(ids: seq<int>, a: WordAlignment)
    requires TokensValid(a, ids)
    ensures ReconstructIds(ids, a, a.tokenIds) == ids
  {
    assert ids == ids[..a.tokenStart] + ids[a.tokenStart..a.tokenEnd] + ids[a.tokenEnd..];
  }

  /** `reconstruct_sentence`: the spliced ids and their clean decoding. */
  function ReconstructSentence(tok: Tokenizer, ids: seq<int>, replacementText: string, a: WordAlignment)
    : (r: (string, seq<int>))
    requires a.tokenStart <= a.tokenEnd <= |ids|
    ensures r.1 == ReconstructIds(ids, a, tok.encodeWord(replacementText))
    ensures r.0 == Strip(tok.decodeSkipSpecial(r.1))
    ensures TokensValid(a, ids) && tok.encodeWord(replacementText) == a.tokenIds ==> r.1 == ids
    ensures |r.1| == |ids| - (a.tokenEnd - a.tokenStart) + |tok.encodeWord(replacementText)|
  {
    var newIds := ReconstructIds(ids, a, tok.encodeWord(replacementText));
    assert TokensValid(a, ids) && tok.encodeWord(replacementText) == a.tokenIds ==> newIds == ids by {
      if TokensValid(a, ids) { ReconstructOwnTokensIsIdentity(ids, a); }
    }
    (Strip(tok.decodeSkipSpecial(newIds)), newIds)
  }
}

=== FILE: wrappers.dfy ===
/** Failure-compatible wrappers shared by every module of the model. */
module Wrappers {

  /** A value that may be absent (Python's `None`). */
  datatype Option<+T> = None | Some(value: T)

  /** A value or the error that replaced it (a raised exception, an HTTP status). */
  datatype Result<+T, +E> = Success(value: T) | Failure(error: E)
}
